=== FILE: README.md ===
# Lobitos treasury core, modelled in Dafny

This project models the decision-making core of the Lobitos scout-group
treasury app. The app reads tables from a remote record store and turns them
into the views the treasurers use. The model covers:

- **Contexts and session** (`Contexts`, `Session`): the registry of
  group/section credential blocks, and the session's selected context.
- **Store** (`Store`): fetched records become a frame, and failed calls are
  retried with exponential backoff on transient status codes.
- **Names and columns** (`Cells`, `Columns`, `NameMap`):
  - list values are flattened into display text (`mapear_lista`);
  - the identifier-to-name map is built from every loaded table;
  - the candidate-column chooser (`escolher_coluna`);
  - the keyword column search of the treasury page.
- **Receipts and reversals** (`Receipts`, `Reversals`): receipts are
  normalised, and reversals are reconciled from a dedicated table or
  recognised among the receipts. Both copies of the reversal builder are
  modelled, selected by a `Version` parameter:
  - `Current`: `data_utils.py`;
  - `Legacy`: `lobitos/pages/home.py`.

  The `lobitos` copies of `mapear_lista`, `construir_mapa_nomes_por_id` and
  `escolher_coluna` are identical to the `data_utils.py` ones. One member
  models both, and the table cites both.
- **Money** (`Money`): parsing of amounts written in European and plain
  notation.
- **Periods and statistics** (`Periods`, `Stats`):
  - date-period normalisation, the shortcut periods and the previous period;
  - occurrence counts and the balance ageing bands.
- **Treasury page** (`Home`): category membership and quota-type detection.
- **Calendar editor** (`Agenda`): the cancellation marker, the coercions of
  edited rows, and the update computed for each edited event.
- **Lanche links** (`Lanche`): the pre-filled snack-form links per scout.
- **Invitation banners** (`Banner`): merging the file and secret
  configurations, converting entries, and the activity window.

Values are modelled as a `Cell` (`Absent`, text, number, boolean, date,
list, mapping). A frame is a `Table` of rows keyed by column name, and the
loaded tables form a `Dataset` searched in load order. Where Python raises,
the model returns `None`.

Behaviour of the code that the model keeps as written:

- **Some failures raise.** Several normalisation steps raise instead of
  producing an empty value:
  - `", ".join` on a list holding a non-text element;
  - `.strip()` on a missing link;
  - `pd.isna` on a list of two or more categories.

  The model returns `None` in each of these places.
- **Retry counts.** `_with_retry` makes `max_retries` attempts in all, that
  is `max_retries - 1` retries, and makes one attempt when `max_retries`
  is below 1 (`Store.WithRetry`).
- **The "≥ 0€" ageing band.** A balance of exactly 0 falls in the
  "-10€ a 0€" band, because the bins are closed on the right. The
  "≥ 0€" band holds only positive balances (`Stats.Band`).
- **The first money rule is dead code.** The rule "several commas and no
  point: drop the points" deletes nothing, since there is no point to
  drop.

## Model

| member | source | states |
|---|---|---|
| Cells.MapList | data_utils.py:4-9 | A list becomes its elements, mapped through the dictionary and joined by ", ". It raises (None) exactly when a mapped element is not text. A missing value becomes "". A known text is mapped and an unknown one is kept. Other scalars pass through, and a mapping raises. The copy at lobitos/pages/home.py:138-143 is the same function. |
| Cells.MapListSingleton | data_utils.py:4-9 | A one-element list reads like its element would as a scalar. |
| Cells.MapListConcat | data_utils.py:4-9 | Reading a concatenated list equals joining the readings of its two parts with ", ". |
| Cells.ToNumeric | data_utils.py:347 | `pd.to_numeric(errors="coerce")` on one cell: a number is kept and a boolean becomes 1 or 0. Text is read as a decimal, and unreadable text becomes NaN (None). Missing values, lists, mappings and dates become NaN (None). |
| Cells.ParseNumber | pages/home.py:449-452 | `float(text)` succeeds only on text that is not blank once stripped. |
| Cells.ParseNumberAccepts | pages/home.py:449-452 | `float(text)` succeeds exactly when the stripped text is an optional sign followed by digits with at most one point, and not the point alone. |
| Cells.UnsignedShapeIff | pages/home.py:449-452 | The unsigned part is read exactly when it is digits with at most one point, and not the point alone. |
| Cells.ParseNatText | pages/home.py:449-452 | Printing a natural number and reading it back with `float` gives the number. |
| Cells.ParseSigned | pages/home.py:449-452 | An unsigned decimal is read as itself. A leading `-` negates its value and a leading `+` leaves it. |
| Tables.Find | data_utils.py:127 | `dados.get(name)` finds a table exactly when one is loaded under that name. The table found is one loaded under that name. |
| Tables.FindNonEmpty | data_utils.py:127-128 | A result is the non-empty table `dados.get` returns. No result means the table is missing or empty. |
| Tables.FirstExisting | pages/home.py:1854-1858 | The result is the first candidate that is a column. There is no result exactly when no candidate is a column. |
| Columns.ChooseColumn | data_utils.py:92-108 | An empty frame gives nothing. Any result is a column of the frame. There is a result exactly when some candidate's key equals or is contained in some column's key. The copy at lobitos/pages/home.py:226-242 is the same function. |
| Columns.LastIndex | data_utils.py:97 | Of columns sharing a normalised key, the dictionary keeps the last. The position found holds that key, and none is found when no column has it. |
| Columns.ExactPass | data_utils.py:98-102 | The exact pass fails exactly when no candidate key is a column key. Otherwise it returns a candidate's dictionary entry. |
| Columns.FirstContaining | data_utils.py:105-107 | The first column whose key contains the candidate's key. There is none exactly when no column key contains it. |
| Columns.SubstringPass | data_utils.py:103-107 | The substring pass fails exactly when no candidate is contained in any column key. |
| Columns.ChooseIndex | data_utils.py:96-108 | Both passes find a position exactly when some candidate matches exactly or by substring. |
| Columns.ExactIndexFirst | data_utils.py:98-102 | The first candidate with an exact match decides the column, before any substring match. |
| Columns.SubstringIndexFirst | data_utils.py:103-107 | Without exact matches, the first candidate contained in some column decides. Its first containing column is chosen. |
| Columns.ExactBeforeSubstring | data_utils.py:92-108 | On frames: the exact pass runs over every candidate before any substring match is considered. |
| Columns.SubstringWhenNoExact | data_utils.py:92-108 | On frames: with no exact match, the first candidate with a substring hit picks its first containing column. |
| Columns.Tokens | pages/home.py:1881 | The tokens are the normalised non-empty keywords. There are none exactly when every keyword is empty. |
| Columns.FirstWithAll | pages/home.py:1884-1887 | The first column whose normalised name holds every token. There is none exactly when no column holds them all. |
| Columns.FirstGroupHit | pages/home.py:1880-1888 | Groups are tried in order. There is a result exactly when some group has tokens and a column holding them all. |
| Columns.FindColumnKeywords | pages/home.py:1877-1888 | An empty frame gives nothing. A result is a column chosen by a group with tokens. No result means no group picks a column. |
| NameMap.Score | data_utils.py:40-50 | The rank is 0 exactly for a name that is "nome" or "name" in lower case. Otherwise it is 1 when the lower-case name contains "nome", else 2 when it contains "name", else 3 when it contains "email", else 4. |
| NameMap.RankLeTotalPreorder | data_utils.py:68 | The sort key order is a total preorder, so the sorted order is well defined. |
| NameMap.TextColumns | data_utils.py:57-63 | Exactly the non-`id` columns of dtype `object`. |
| NameMap.Ranked | data_utils.py:57-68 | The columns tried are a permutation of the text columns, sorted by score and lower-case name. |
| Sorting.SortStable | data_utils.py:68 | `list.sort` is stable: for any element, the elements that compare equal to it leave in the order they came in. |
| NameMap.CellText | data_utils.py:75-79 | A non-list cell reads as its `str()` text. |
| NameMap.Step | data_utils.py:77-85 | One row raises exactly when its list cell holds a non-text element. Otherwise it names its identifier with the stripped text, only if that identifier is not yet named. |
| NameMap.AddRows | data_utils.py:71-85 | A column's pass never removes or renames an identifier already named. |
| NameMap.AddRowsFails | data_utils.py:75 | A column's pass raises exactly when one of its rows holds a list with a non-text element. |
| NameMap.AddRowsWellFormed | data_utils.py:80-84 | Names stay stripped and non-blank. |
| NameMap.AddRowsKeys | data_utils.py:77-85 | After the pass, an identifier is named exactly when it was named before or some row supplies a non-blank name for it. |
| NameMap.AddRowsFirstWins | data_utils.py:83-84 | A new identifier takes the name from the first row that supplies one. |
| NameMap.ScanColumns | data_utils.py:70-87 | Nothing named is renamed. A change comes from a single column's pass, and the scan stops there. No change means every column's pass changed nothing. |
| NameMap.ScanColumnsWellFormed | data_utils.py:70-87 | Scanning the columns keeps names stripped and non-blank. |
| NameMap.ScanTable | data_utils.py:53-68 | An empty table, or one without `id`, changes nothing. Otherwise the ranked text columns are scanned. |
| NameMap.BuildFrom | data_utils.py:53-89 | The fold over the tables extends the map and keeps it well formed. |
| NameMap.Build | data_utils.py:37-89 | The identifier-to-name map holds stripped, non-blank names. The copy at lobitos/pages/home.py:171-223 is the same function. |
| NameMap.BuildFromConcat | data_utils.py:53 | Folding over two groups of tables equals folding over the first, then the second. |
| NameMap.FirstTableWins | data_utils.py:53-89 | A later table never renames an identifier an earlier table named. |
| Receipts.IndexBy | data_utils.py:276 | `set_index("id")[col].dropna().to_dict()`. Text identifiers with a non-missing cell are the keys, and no value is missing. |
| Receipts.IndexByLastWins | data_utils.py:276 | For a repeated identifier, the value kept is that of the last row giving one. |
| Receipts.ScoutMap | data_utils.py:270-278 | The scouts map is empty when the table is missing, empty, has no `id` or has no name column. Otherwise it indexes the first name column present. |
| Receipts.ReceiverColumns | data_utils.py:307-314 | Exactly the columns starting with "quem recebeu", other than the two raw ones. |
| Receipts.ReceiverScore | data_utils.py:316-322 | The rank is at most 2. It is 0 exactly for names mentioning "nome" or "name", and 1 exactly for the other names mentioning "lookup". |
| Receipts.ReceiverLeTotalPreorder | data_utils.py:326 | The receiver sort key order is a total preorder. |
| Receipts.ReceiverColumn | data_utils.py:324-327 | There is none exactly when no column is a receiver column. Otherwise it is a receiver column that ranks at most every other one. |
| Receipts.LayoutOf | data_utils.py:281-283 | Each useful column is kept exactly when the table has it. |
| Receipts.ReadReceipt | data_utils.py:293-350 | Receipt fields: the scout is mapped only when the scouts map is non-empty, and the amount is coerced to a number. The receiver is read through the chosen resolver. A field whose column is missing is missing. A receipt raises exactly when mapping its scout through a non-empty scouts map raises, or mapping its receiver through a receiver column or a name map raises. |
| Receipts.Normalise | data_utils.py:280-350 | There is one receipt per row, in order. Normalising raises exactly when some row raises. |
| Receipts.PermissionsMap | data_utils.py:298-301 | The permissions map is empty without a non-empty `Permissoes` table. Otherwise it is the name map of that table alone. |
| Receipts.Prepare | data_utils.py:263-352 | The three maps are the scouts, permissions and general name maps. Without receipts the frame is empty. Otherwise it is the normalised receipts table. Preparing succeeds exactly when the permissions map and the name map build and every receipt row normalises. |
| Receipts.OwnColumnBeatsMaps | data_utils.py:329-332 | A receiver column is read as it is, whatever the maps hold. |
| Receipts.FirstNonEmptyMapOnly | data_utils.py:333-336 | Without a receiver column, a non-empty permissions map alone resolves the raw receiver. There is no fallback to the other maps. |
| Reversals.FirstNonEmpty | data_utils.py:126-131 | The result is the first listed table present and non-empty. There is none exactly when every listed table is missing or empty. |
| Reversals.FindSource | data_utils.py:117-139 | A dedicated reversal table is preferred, else the non-empty receipts table. There is no source exactly when neither exists. |
| Reversals.Positions | data_utils.py:167 | A boolean mask keeps exactly the rows that satisfy it, in increasing order. |
| Reversals.ReversalPositions | data_utils.py:142-167 | Exactly the receipts that show a reversal signal, in order. |
| Reversals.Choose | data_utils.py:171-209 | The amount column, when chosen, is a column of the table. The older copy chooses no reason column. |
| Reversals.ExtractAmount | data_utils.py:217-222 | A list gives its first element, or missing when empty. A scalar is kept. |
| Reversals.FirstOfList | data_utils.py:228-233 | A non-empty list gives its first element. Anything else is kept. |
| Reversals.ToDate | data_utils.py:233-234 | A date cell is kept exactly when it lies in the timestamp range, 1677-09-22 to 2262-04-11. A text is read only when it is an ISO date, alone or followed by `T` or a space and a time of day, and the date read prints back as the text's first ten characters and lies in the range. A number is a count of nanoseconds since 1970-01-01, floored to its day. Any other text, and booleans, lists, mappings and missing cells, are `NaT` (None). |
| Reversals.EpochDay | data_utils.py:233-234 | A nanosecond count gives the day whose ordinal is the epoch's plus the count's floor in days. It gives a day exactly when the count is at most 2^63 - 1 and the day is not before 1677-09-22. |
| Reversals.ToDateOfNumber | data_utils.py:233-234 | The number 5 reads as 1970-01-01, one day's nanoseconds as 1970-01-02, and -1 as 1969-12-31. |
| Reversals.ToDateOutOfRange | data_utils.py:233-234 | 1500-01-01 is `NaT` as a date cell and as text, and so is a count past 2^63 - 1. |
| Reversals.ToDateOfIso | data_utils.py:233-234 | A printed date in the timestamp range reads back as itself, alone or followed by a time of day after `T` or a space. |
| Reversals.ResolveWith | data_utils.py:237-250 | The first non-empty map that reads the value as a truthy text decides the result, provided every earlier map is empty or reads a falsy text. A non-empty map that raises before any such map makes the whole reading raise. When every map is empty or falsy, the raw reading is used. |
| Reversals.Responsible | data_utils.py:236-252 | The same priority over the three maps: permissions, then the name map, then the scouts map, then the raw reading. Each case (a map winning, a map raising, all passing on) is stated separately. |
| Reversals.NamesWhenNoPermissions | data_utils.py:238-245 | With an empty permissions map, an identifier the name map knows resolves to its name. |
| Reversals.UnknownIdStopsAtPermissions | data_utils.py:238-241 | A non-empty permissions map that does not know a non-empty identifier returns it unchanged. `mapping.get(v, v)` keeps it and it is truthy, so the later maps are never consulted. |
| Reversals.ScoutsWhenOthersEmpty | data_utils.py:238-249 | With the first two maps empty, a scout the scouts map knows resolves to its name. |
| Reversals.PermissionsFirst | data_utils.py:238-241 | An identifier named in the permissions map resolves there, whatever the other maps hold. |
| Reversals.NoMapsRaw | data_utils.py:250 | With every map empty, the value is read as it is. |
| Reversals.ReadRowRaises | data_utils.py:213-253 | Reading a row raises exactly when mapping its scout, its responsible person or its reason raises. |
| Reversals.ReadRowMapped | data_utils.py:213-253 | The scout is read through the scouts map and the responsible person through the permissions, names and scouts maps in turn. The reason is read with no map. Each is missing without its column. |
| Reversals.ReadRowPlain | data_utils.py:227-234 | The payment is the first element of a list in the current version and the cell itself in the older one. The date is read through `ToDate` from the same choice. Each is missing without its column. |
| Reversals.ReadRow | data_utils.py:211-254 | The amount is the absolute value of the coerced cell, so it is never negative. The current copy first extracts the amount from lists and mappings. Without a reason column the reason is missing. The older copy (lobitos/pages/home.py:339-346) coerces the amount cell as it is. |
| Reversals.Collect | data_utils.py:256-258 | Reading raises exactly when some selected row raises; every row collected was read at its own position and survives the drops. |
| Reversals.CollectComplete | data_utils.py:256-258 | Every selected row that reads and survives the drops is collected. |
| Reversals.CollectOrdered | data_utils.py:256-258 | Rows are collected in source order. |
| Reversals.Selection | data_utils.py:141-169 | A dedicated table gives every row. The receipts table gives exactly its reversal rows, increasing. |
| Reversals.ReadAt | data_utils.py:211-254 | Reading position `p` reads row `p` of the table. |
| Reversals.Assemble | data_utils.py:211-258 | Every kept row survives the drops and is the reading of its source row. The rows stay in source order. |
| Reversals.AssembleComplete | data_utils.py:211-258 | Assembling raises exactly when reading one of the selected rows raises. Every selected row whose reading survives the drops is in the result. |
| Reversals.BuildIsAssemble | data_utils.py:111-260 | With a source found and a non-empty selection, the frame is the assembly of the selected rows with the columns chosen from them. |
| Reversals.BuildReadsSelection | data_utils.py:111-260 | With a source found, the builder raises exactly when one of the selected rows raises. It uses the columns chosen from those rows, and every selected row that survives the drops is in the frame. |
| Reversals.Build | data_utils.py:111-260 | With no source the frame is empty. Kept rows are never all missing, and their amounts are never negative. An amount column means every row has an amount. Rows keep source order. Receipts-based rows are reversals. In the older copy (lobitos/pages/home.py:245-370) the reason is always missing. |
| Store.EntriesMap | services/airtable_service.py:59 | A dictionary built from fields: a later field with the same name replaces an earlier one. |
| Store.RowOf | services/airtable_service.py:58-61 | A row holds `id` and every field. A field named `id` replaces the record identifier. |
| Store.AllKeys | services/airtable_service.py:58-62 | The columns are exactly the keys of some row. |
| Store.Frame | services/airtable_service.py:58-62 | There is one row per record. The columns are distinct and are exactly the keys of the rows. The frame is empty exactly when no record was fetched. |
| Store.StatusOf | services/airtable_service.py:91-98 | The exception's own status code, else its response's, else none. |
| Store.Backoff | services/airtable_service.py:77-87 | Each pause doubles the previous one, starting at the initial backoff. |
| Store.WithRetry | services/airtable_service.py:76-88 | The result is the outcome of the last call, and every earlier call failed retryably. The pauses follow the backoff schedule. There are at most `max_retries` calls. A success or a non-retryable first failure makes no retry. Retryable failures throughout make exactly `max_retries` calls and re-raise. |
| Store.StopFacts | services/airtable_service.py:84-85 | Stopping means success, a non-retryable status or the attempt limit. |
| Contexts.Extra | airtable_config.py:27-28 | The extra stored under the upper-cased name when there is one, otherwise the default. |
| Contexts.ExtraOfBlock | airtable_config.py:27-28 | For a parsed block, reading a name gives the text of the last entry stored under its upper-cased form, or the default when no entry is stored there. |
| Contexts.ExtraIgnoresCase | airtable_config.py:27-28 | Names that differ only in case read the same extra. |
| Contexts.SlugToLabel | airtable_config.py:47-49 | A slug without words falls back to `title()`. Otherwise the label splits back into exactly the slug's words, each capitalised. |
| Contexts.CapitalizedWords | airtable_config.py:49 | Capitalising words keeps them non-empty and free of whitespace. |
| Text.WordsOfJoin | airtable_config.py:49 | Splitting words joined by single spaces gives the same words back. |
| Text.CapitalizeWord | airtable_config.py:49 | `capitalize()` never makes or removes whitespace in a word. |
| Contexts.SlugWithoutWords | airtable_config.py:47-49 | A slug made only of separators and spaces comes back unchanged. |
| Contexts.ExtrasOf | airtable_config.py:81-93 | The extras are exactly the non-reserved keys, upper-cased. |
| Contexts.ExtrasLastWins | airtable_config.py:81-93 | The extra under a key is the text of the last entry stored there. |
| Contexts.DerivedIds | airtable_config.py:66-76 | With three or more parts, the group id is the second part, which holds no "_", and the key is the prefix, group id and section slug joined by "_". With exactly two parts, both ids are the last part. A key without "_" gives the group "default" and the key itself as the section. |
| Contexts.DerivedIdsOfKey | airtable_config.py:66-72 | A key built as prefix, group and section joined by "_" gives back that group and section, when the prefix and group hold no "_". |
| Contexts.Label | airtable_config.py:78-79 | A truthy explicit label is used, and raises unless it is text. Otherwise the label is derived from the identifier, which must be text. |
| Contexts.ParseBlock | airtable_config.py:57-106 | A block is skipped exactly when it is not a credential block. A parsed context carries the key, token, base id and extras. Its ids are given or derived, and its labels are explicit or derived. It raises only through a label. |
| Contexts.ParseAll | airtable_config.py:57-106 | Parsing raises exactly when some block raises. Otherwise it lists exactly the parsed blocks. |
| Contexts.LabelLeTotalPreorder | airtable_config.py:108 | The label sort key order is a total preorder. |
| Contexts.Registry | airtable_config.py:52-109 | The registry is a permutation of the parsed contexts, sorted by lower-case group and section label. |
| Contexts.RegistryMembers | airtable_config.py:57-109 | A context is listed exactly when some block parses to it. |
| Contexts.ByKey | airtable_config.py:117-121 | The first listed context with the key. There is none exactly when no context has that key. |
| Contexts.ByKeyFindsListed | airtable_config.py:117-121 | With distinct secret keys, looking up a listed context's key finds that context. |
| Contexts.ByKeyUnknown | airtable_config.py:117-121 | A key no block has finds nothing. |
| Contexts.ListedAreCredentials | airtable_config.py:57-64 | Every listed context has an `airtable_` key, a truthy token and a truthy base id. |
| Session.Current | airtable_config.py:124-128 | There is no context without a truthy stored key. Otherwise it is the listed context with that key. |
| Session.EnsureSelected | airtable_config.py:135-146 | The current context is kept. Otherwise a sole context is selected and stored. Otherwise there is nothing. No other session key changes. |
| Session.EnsureSelectedIdempotent | airtable_config.py:135-146 | Selecting again returns the same context and leaves the session as it is. |
| Session.SingleContextSelected | airtable_config.py:135-146 | After selecting in a one-context registry, credentials and labels are available. |
| Session.Clear | airtable_config.py:149-154 | Every key is removed, except the context key when it is kept. |
| Session.Reset | airtable_config.py:157-159 | Resetting empties the session. |
| Session.ClearKeepsSelection | airtable_config.py:149-159 | Clearing while keeping the context keeps the selection, and resetting drops it. |
| Session.Credentials | airtable_config.py:162-166 | The token and base id of the current context. Without one, the call raises (None). |
| Session.Labels | airtable_config.py:169-173 | "group · section" of the current context, and none without one. |
| Session.ContextExtra | airtable_config.py:176-180 | The default without a current context. Otherwise it is the context's extra. |
| Money.Separators | pages/home.py:443-448 | No comma survives. Without a point, commas become points. With both, points are dropped and the comma becomes the decimal point. |
| Money.Amount | pages/home.py:945-967 | A number is kept and missing gives None. Text is parsed after cleaning. A list gives its first parsable element. The quota table repeats the conversion at pages/home.py:2047-2069. |
| Money.FirstAmount | pages/home.py:946-951 | The first element with an amount. There is none exactly when no element has one. |
| Money.ToFloat | pages/home.py:430-452 | On scalars, `_to_float` agrees with the monetary conversion and reads failures as 0. |
| Money.SumFloatsConcat | pages/home.py:431-432 | The sum over a list splits over concatenation. |
| Money.EuropeanAmount | pages/home.py:956-967 | "w,f €" reads as w.f. |
| Money.ThousandsAmount | pages/home.py:958-967 | "a.b,f" reads as ab.f, so the point is a thousands separator. |
| Money.ListOfOne | pages/home.py:430-432 | A one-element list sums to its element's amount, or 0 when it has none. |
| Periods.DayItems | pages/home.py:1381-1383 | The dates of a list, in order. Non-dates are dropped. |
| Periods.DatesOf | pages/home.py:1380-1386 | A list gives its dates, and a date gives itself. Anything else gives none. |
| Periods.Ordered | pages/home.py:1395-1397 | The two dates, swapped when needed so that the start is not after the end. |
| Periods.Normalize | pages/home.py:1380-1397 | The period is ordered. It takes the first two dates given, or a single date twice, or the fallback. The statistics page repeats it at pages/5_Estatisticas.py:65-90. |
| Periods.NormalizeOrdered | pages/home.py:1380-1397 | An ordered period normalises to itself. |
| Periods.NormalizeIdempotent | pages/home.py:1380-1397 | Normalising a normalised period changes nothing. |
| Periods.Previous | pages/5_Estatisticas.py:233-236 | The previous period is as long as the period and ends the day before it starts. It is absent when it would start before year 1. |
| Periods.PreviousDisjoint | pages/5_Estatisticas.py:233-236 | No date lies in both the period and the previous period. |
| Periods.PreviousAdjacent | pages/5_Estatisticas.py:233-236 | The day after the previous period's end is the period's start. |
| Periods.FilterPeriod | pages/5_Estatisticas.py:238-242 | The columns are kept. There are no rows without data or a `Data` column. Otherwise the rows are exactly those dated inside the period, each as many times as in the table. |
| Periods.FilterPeriodConcat | pages/5_Estatisticas.py:238-242 | The kept rows keep the table's order: splitting the rows anywhere and filtering each part gives the same rows. |
| Periods.RowsIn | pages/5_Estatisticas.py:241-242 | Exactly the rows whose date lies in the period, each as many times as in the input. |
| Periods.RowsInConcat | pages/5_Estatisticas.py:241-242 | The boolean mask keeps row order: filtering a concatenation is concatenating the filtered parts. |
| Periods.Today | pages/5_Estatisticas.py:206-207 | The period of today alone. |
| Periods.LastThreeDays | pages/5_Estatisticas.py:208-209 | Three days ending today. |
| Periods.ThisWeek | pages/5_Estatisticas.py:210-213 | Starts on the Monday of the week and ends today. |
| Periods.MondayOf | pages/5_Estatisticas.py:211 | `today - weekday(today)` days is a Monday, and at most six days before today. |
| Periods.MonthEnd | pages/5_Estatisticas.py:214-220 | The last day of the month. |
| Periods.ThisMonth | pages/5_Estatisticas.py:214-221 | The whole month, containing today. |
| Periods.CurrentMonth | pages/home.py:1399-1405 | The month period of the treasury page is a valid period, its start not after its end. |
| Periods.MonthPeriodsAgree | pages/home.py:1399-1405 | Both pages compute the same month period. |
| Periods.DefaultStatsPeriod | pages/5_Estatisticas.py:187 | The 28 days ending today. |
| Stats.ValuesOf | pages/5_Estatisticas.py:137-140 | Text gives its stripped self. A list gives its non-blank stripped elements. Anything else gives nothing. |
| Stats.ItemTexts | pages/5_Estatisticas.py:138 | At most one value per element; every value is non-blank and is the stripped text of some element; every element whose text is not blank contributes its stripped text. |
| Stats.Collect | pages/5_Estatisticas.py:135-140 | Cells that are neither text nor lists contribute nothing. |
| Stats.CollectTexts | pages/5_Estatisticas.py:135-140 | A column of texts gives one value per cell, its stripped text, in row order. |
| Stats.CollectMembers | pages/5_Estatisticas.py:135-140 | A value is collected exactly when some cell of the column contributes it. |
| Stats.CollectLength | pages/5_Estatisticas.py:135-140 | The number of collected values is the sum of each cell's contribution: one per text, the non-blank elements of a list, none otherwise. |
| Stats.Bump | pages/5_Estatisticas.py:144 | Counting one more value keeps every item in place and keeps items distinct; it appends a tally of 1 exactly when the value is new. |
| Stats.BumpTotals | pages/5_Estatisticas.py:144 | Counting one more value adds one to its own total and leaves every other total alone. |
| Stats.Count | pages/5_Estatisticas.py:144 | Each value is tallied once. |
| Stats.CountSum | pages/5_Estatisticas.py:144 | The totals add up to the number of values. |
| Stats.CountItems | pages/5_Estatisticas.py:144 | A value is tallied exactly when it occurs. |
| Stats.CountTotals | pages/5_Estatisticas.py:144 | Each total is the number of occurrences of its value. |
| Stats.Occurrences | pages/5_Estatisticas.py:132-146 | An empty frame, or a missing column, gives no tallies. Tallies are distinct. |
| Stats.OccurrencesSum | pages/5_Estatisticas.py:132-146 | The totals add up to the number of values collected. |
| Stats.Band | pages/5_Estatisticas.py:154-156 | The four right-closed bins: up to -20, up to -10, up to 0, and positive. |
| Stats.Balance | pages/5_Estatisticas.py:153 | A balance that does not coerce counts as 0. |
| Stats.BandsPartition | pages/5_Estatisticas.py:154-158 | Every balance falls in exactly one band. |
| Stats.Aging | pages/5_Estatisticas.py:149-162 | No rows for an empty frame or a missing column. Otherwise the four bands in label order, each counting its balances. |
| Stats.AgingSum | pages/5_Estatisticas.py:149-162 | The band totals add up to the number of rows. |
| Home.Parts | pages/home.py:1753 | The parts are non-blank. Every non-blank comma-separated piece appears in normalised form. |
| Home.PartsSound | pages/home.py:1753 | Every part is the stripped, lower-cased form of a non-blank comma-separated piece. |
| Home.Belongs | pages/home.py:1748-1757 | A missing value belongs nowhere. Text belongs when one of its parts is the target. A list belongs when one of its elements does. |
| Home.BlankTargetMatchesNoText | pages/home.py:1751-1754 | A blank target matches no text. |
| Home.SinglePart | pages/home.py:1753-1754 | Text without commas belongs to the target it spells. |
| Home.BelongsAsWritten | pages/home.py:1749 | `pd.isna` on a list of two or more elements raises in the `if`. |
| Home.TwoCategoriesRaise | pages/home.py:1749 | A two-category list that belongs as intended makes the function as written raise. |
| Home.BelongsAgrees | pages/home.py:1748-1757 | Where the function as written answers, it agrees with the intended one. |
| Home.DetectType | pages/home.py:1979-1985 | "mensal" exactly when the normalised text mentions "mens". Otherwise "anual" exactly when it mentions "anu". Otherwise empty. |
| Home.DetectTypeAt | pages/home.py:1979-1985 | By position: "mensal" exactly when "mens" occurs somewhere in the normalised text, even after an "anu". "anual" exactly when "mens" occurs nowhere and "anu" occurs somewhere. |
| Agenda.Status | pages/home.py:2679-2681 | "Cancelado" exactly when the stripped agenda starts with the marker, otherwise "Ativo". |
| Agenda.Clean | pages/home.py:2668-2671 | An unmarked agenda is kept. A marked one loses its marker and is stripped. |
| Agenda.Cancel | pages/home.py:2891-2896 | A cancelled agenda is marked and stripped. A marked one is kept. Otherwise the text is prefixed with the marker and a space. |
| Agenda.Activate | pages/home.py:2898-2900 | An active agenda is stripped, and unmarked text is kept stripped. |
| Agenda.NewAgenda | pages/home.py:2890-2900 | A cancelled state gives a marked agenda. An active state keeps unmarked text stripped. |
| Agenda.CancelIdempotent | pages/home.py:2892-2896 | Cancelling twice is cancelling once. |
| Agenda.ActivateCancel | pages/home.py:2892-2900 | Reactivating a cancelled agenda gives back the stripped text. |
| Agenda.CleanCancel | pages/home.py:2668-2681 | A cancelled agenda is shown as its text, with state "Cancelado". |
| Agenda.ToBool | pages/home.py:2799-2810 | A boolean is kept and a missing value is false. Text is true exactly when it is a yes-word. A number is true exactly when it is non-zero. |
| Agenda.ToBoolNonText | pages/home.py:2806-2810 | Away from text, the coercion is plain truthiness. |
| Agenda.ToBoolOfText | pages/home.py:2799-2810 | The text of a boolean reads back as that boolean, although "False" is a truthy text. |
| Agenda.NormalizeId | pages/home.py:2826-2832 | Missing or blank gives no identifier. Otherwise the identifier is the stripped text, which is non-empty. |
| Agenda.NormalizeIdIdempotent | pages/home.py:2826-2832 | A normalised identifier normalises to itself. |
| Agenda.StoredLocalText | pages/home.py:2926 | `local or ""` with a missing location read as empty. |
| Agenda.Changes | pages/home.py:2884-2927 | A cancelled event always writes preparation false, and its agenda ends marked. An active event writes its edited preparation exactly when it changed. The new agenda is written exactly when it differs from the stored text, and the stored agenda afterwards is always the new one. The edited date is written exactly when it is a non-empty change. The edited location is written exactly when its text differs from the stored one. |
| Agenda.LocalAsWritten | pages/home.py:2919-2927 | As written, a missing stored location is NaN and truthy, so any edited location is written. |
| Agenda.Display | pages/home.py:2663-2681 | The shown row has the state and cleaned agenda of the stored text, and the stored flags and date. |
| Agenda.ResaveActive | pages/home.py:2884-2930 | Saving an active, canonical event as shown writes nothing. |
| Agenda.ResaveCancelled | pages/home.py:2890-2917 | Saving a cancelled event as shown rewrites only the preparation flag. |
| Agenda.MissingLocalRewritten | pages/home.py:2919-2927 | A missing location is rewritten as "" by the code as written, and not by the corrected comparison. |
| Agenda.Plan | pages/home.py:2864-2930 | No identifier, or an unknown one, is skipped. A deletion of a known event is blocked exactly when volunteers are linked, and otherwise deletes it. A known event with a non-empty update is written with that update, and a write never carries an empty one. |
| Agenda.PlanUnchangedActive | pages/home.py:2864-2930 | An active event left as shown is not written. |
| Lanche.NameFrom | utils.py:38-45 | The first non-blank name column, stripped, else the identifier's text. |
| Lanche.StripOrRaise | utils.py:34 | `(url or "").strip()`: text is stripped. A truthy non-text value, or a NaN, raises. |
| Lanche.UrlAsWritten | utils.py:31-34 | As written, a missing link cell raises. Text is stripped. |
| Lanche.RowAsWritten | utils.py:31-47 | A row raises exactly when its link raises. A kept link has a non-empty URL. |
| Lanche.Candidates | utils.py:19-27 | No rows without a frame, data, `id` or link column. Otherwise exactly the allowed rows, each as many times as in the frame. |
| Lanche.Keep | utils.py:25-27 | Exactly the rows whose identifier is allowed, each as many times as in the input. |
| Lanche.KeepConcat | utils.py:25-27 | `isin` keeps row order: filtering a concatenation is concatenating the filtered parts. |
| Lanche.LinksAsWritten | utils.py:15-49 | As written, the result raises exactly when some candidate lacks a link cell. |
| Lanche.MissingLinkRaises | utils.py:31-34 | A one-row frame whose row has no link cell raises. |
| Lanche.Url | utils.py:31-34 | The stripped link text, with a missing link read as "". |
| Lanche.RowLink | utils.py:31-47 | A row gives a link exactly when its URL is non-empty, paired with the scout's name. |
| Lanche.Links | utils.py:15-49 | Every link comes from a candidate row with a non-empty URL. Every such row gives its link. There are as many links as candidates with a URL, and the i-th link is that of the i-th such candidate. |
| Lanche.CorrectedAgrees | utils.py:15-49 | Where the code as written does not raise, it gives the corrected links. |
| Lanche.RowAgrees | utils.py:31-47 | The same, row by row. |
| Lanche.LinksAgree | utils.py:15-49 | The same, on whole frames. |
| Lanche.IdAsName | utils.py:44-45 | Without a name column, the identifier's text is the name. |
| Banner.ThemesOf | components/banner_convites.py:307-311 | Exactly the mapping-valued themes of a source. |
| Banner.MergeThemes | components/banner_convites.py:306-311 | The themes of both sources, and a secret theme replaces the file's. |
| Banner.Upsert | components/banner_convites.py:318 | Assigning a dictionary key keeps the insertion order. A new key goes last. |
| Banner.UpsertGet | components/banner_convites.py:318 | After assigning, the key reads the new entry and other keys are unchanged. |
| Banner.UpsertDistinct | components/banner_convites.py:318 | Keys stay distinct. |
| Banner.AddItems | components/banner_convites.py:316-318 | Adding the keyed entries of a list keeps keys distinct. |
| Banner.AddItemsUntouched | components/banner_convites.py:316-318 | A key no entry sets is unchanged. |
| Banner.AddItemsLastWins | components/banner_convites.py:316-318 | The last entry with a key wins. |
| Banner.MergeInvites | components/banner_convites.py:313-318 | The merged invitations have distinct keys. |
| Banner.SecretsInviteWins | components/banner_convites.py:314-318 | A secret invitation replaces the file's. |
| Banner.FileInviteKept | components/banner_convites.py:314-318 | A file invitation is kept when the secrets do not set its key. |
| Banner.KeysIn | components/banner_convites.py:322-326 | A falsy source gives no keys. Text gives itself, and a list gives its texts. |
| Banner.DefaultActive | components/banner_convites.py:330-333 | Exactly the keys of the invitations active by default. There is one key per such invitation, and the i-th key is that of the i-th such invitation. |
| Banner.DefaultActiveConcat | components/banner_convites.py:330-333 | The keys keep insertion order: the keys of concatenated slots are the concatenated keys. |
| Banner.ActiveKeys | components/banner_convites.py:320-333 | The secret keys, else the file keys, else the default-active keys. |
| Banner.ActiveFirst | components/banner_convites.py:335-339 | Each listed invitation is a non-empty entry of an active key. Every active key's non-empty entry is listed. |
| Banner.ActiveFirstInKeyOrder | components/banner_convites.py:335-339 | The first pass lists the active keys' entries in the order of the keys, skipping unknown keys and empty entries. |
| Banner.ExplicitlyActiveInOrder | components/banner_convites.py:341-345 | The second pass lists the slots' explicitly active entries in insertion order. |
| Banner.ExplicitlyActive | components/banner_convites.py:341-345 | Exactly the invitations outside the keys whose flag is set. |
| Banner.Merge | components/banner_convites.py:302-347 | The merged themes. The invitations are the active keys' entries in key order, then the other explicitly active entries in insertion order. |
| Banner.MergeMembers | components/banner_convites.py:302-347 | An entry is shown exactly when it is a merged slot's entry whose key is active and which is not empty, or whose key is not active and whose flag is set. |
| Banner.DefaultKeysCoverExplicit | components/banner_convites.py:330-345 | With default keys, no invitation is added a second time. |
| Banner.MergedFromSlots | components/banner_convites.py:335-345 | Every merged invitation is one of the keyed entries. |
| Banner.ParseDate | components/banner_convites.py:350-360 | A falsy value gives none and a date is kept. Text is read as a stripped ISO date. Anything else gives none. |
| Banner.PositionItems | components/banner_convites.py:379-381 | Text becomes a one-element list and a list is kept. Other values raise when iterated. |
| Banner.StripTruthy | components/banner_convites.py:382 | The stripped texts of the truthy positions. |
| Banner.PositionsOf | components/banner_convites.py:379-384 | The positions are never empty. Conversion raises exactly when the positions value cannot be iterated. |
| Banner.DefaultPositions | components/banner_convites.py:379-384 | Without positions the invitation shows in "principal". |
| Banner.TextPosition | components/banner_convites.py:379-382 | A text position is the one position. |
| Banner.ThemeOf | components/banner_convites.py:364-365 | A known theme name gives that theme. Otherwise there is no theme. |
| Banner.Convert | components/banner_convites.py:363-404 | Conversion fails exactly when the positions fail. It copies the key, the positions, title and link, and the dates read through `or`. The subtitle, description and image are the first truthy of their keys. The background, accent and text colours come from the entry, then the theme. |
| Banner.ThemeColourUsed | components/banner_convites.py:367-373 | Without an entry colour, the theme's colour is used. |
| Banner.DefaultLink | components/banner_convites.py:389 | Without a link, the link is "#". |
| Banner.DefaultTitle | components/banner_convites.py:386 | Without a title, the key is the title. |
| Banner.ConvertKeyed | components/banner_convites.py:412-415 | Only entries with a key are converted. |
| Banner.Configured | components/banner_convites.py:407-418 | The merged entries are converted in order. Entries without `key` and entries whose conversion raises are skipped. |
| Banner.ConfiguredMembers | components/banner_convites.py:407-418 | An invitation is configured exactly when it is the conversion of a merged entry that has a `key`. |
| Banner.IsActiveWindow | components/banner_convites.py:436-442 | Active exactly when today is not before the start nor after the end. |
| Banner.ActiveFor | components/banner_convites.py:445-451 | Exactly the invitations that include the position and are active today, each as many times as configured. |
| Banner.ActiveForConcat | components/banner_convites.py:445-451 | The invitations keep their configured order: filtering a concatenation is concatenating the filtered parts. |
| Calendar.ParseIso | components/banner_convites.py:357 | `date.fromisoformat` on the extended form accepts a valid YYYY-MM-DD date, and the date it reads prints back as the text. |
| Calendar.ParseIsoFormat | components/banner_convites.py:357 | A valid date with a four-digit year prints and reads back as itself. |

## Left out

- Rendering, Streamlit widgets and page layout are left out. The pages
  only show the values modelled here.
- Loading secrets and TOML files is left out. The secrets pool is a
  parameter, given as entries in order.
- The `lru_cache` around the registry is left out. The registry is a pure
  function of the pool.
- Network I/O is left out. Record fetching and writing are parameters: a
  call script for the retry loop, and the list of fetched records for the
  frame.
- Clocks are left out. "Today" is a parameter, and `time.sleep` is a
  recorded list of pauses.
- The text normaliser `_normalizar_texto` is a function parameter. It uses
  Unicode NFKD, which is not modelled.
- `Lower` and `Upper` cover ASCII and Latin-1 letters only. Other scripts
  are not case-folded.
- Floating point is modelled with exact reals. Amounts parse to reals,
  exponents, `inf` and `nan` texts and digit groups written with `_` are
  not accepted, and currency formatting (`formatar_moeda_euro`) is left
  out.
- NaN results of the monetary conversions are `None`.
- Money.ToFloat: a float NaN cell passes the `isinstance(valor, (int,
  float))` test before `pd.isna` is reached, so `_to_float` returns NaN for
  it. Reals have no NaN, so the model reads every missing cell as 0.0.
- Cells.ParseNumber: its own contract states only that success needs a
  non-blank text. Which texts parse, and to what value, is stated by the
  lemmas Cells.ParseNumberAccepts and Cells.ParseSigned, because a function
  cannot call lemmas about itself.
- Stats.Collect: its own contract states only that cells without text
  contribute nothing. The contents are stated by the lemmas
  Stats.CollectMembers, Stats.CollectLength and Stats.CollectTexts, which
  keeps the functions that call Collect small to verify.
- Home.Parts: its own contract states completeness and no blank parts.
  Soundness is stated by the lemma Home.PartsSound, for the same reason.
- Stats.Count: `value_counts` orders tallies by decreasing count. The model
  keeps them in first-occurrence order, because the order only affects
  display.
- Datetimes are dates only. Time-of-day parts are dropped, as `.normalize()`
  does.
- Reversals.ToDate: `pd.to_datetime` also reads many non-ISO texts (day- or
  month-first dates, month names, UTC offsets such as `+01:00`), and it
  infers one format for a whole column from its first value, which can turn
  numbers in a column of texts into `NaT`. The model reads only ISO dates,
  alone or with a time of day, and numbers as nanosecond counts, one cell at
  a time. The range is checked on the day, so a time of day past
  `Timestamp.max` on 2262-04-11 is not `NaT` in the model. A fraction of a
  nanosecond is floored with the number rather than cut off first.
- Calendar.ParseIso: from Python 3.11, `date.fromisoformat` also accepts the
  basic form (`20240105`) and ISO week dates (`2024-W01-5`). The model
  accepts only the extended `YYYY-MM-DD` form, which is what older versions
  accept.
- Dates before year 1 make Periods.Previous and Periods.LastThreeDays absent
  (Python raises). Dates after year 9999 are not bounded.
- Lanche.Keep: `allowed_ids` is a sequence. An empty one stands for `None`,
  and the truthiness of a generator is not modelled.
- Agenda.Changes:
  - `_to_iso` is not modelled. Dates arrive as ISO texts or nothing.
  - The frame lookups for the stored agenda, preparation and location are
    taken to find the same record as the edited row.
  - Non-text agenda cells are not modelled.
  - The location comparison is structural, so Python's equality between a
    number and a text is not modelled.
- Agenda.Plan: `_tem_voluntarios` is a parameter, and the delete and update
  calls are the returned action.
- Home.Belongs: tuples and sets are modelled as lists. The recursive call's
  normalised target is normalised again, which changes nothing.
- Reversals.ReversalPositions: a NumPy-array cell in a flag column is not
  modelled.
- The rest of the pages (forms, charts, menus, exports) is left out. These
  pages only display the values above.

## Findings

| source | as written | input that shows it | evidently intended | confidence | as-written member | corrected member |
|---|---|---|---|---|---|---|
| utils.py:31-34 | `(url or "").strip()` on a row without the link cell: the cell is NaN, NaN is truthy, and `.strip()` raises | a frame with columns `id` and the link column, and a row holding no link cell | such a row is skipped as having no link | not executed | Lanche.LinksAsWritten, Lanche.MissingLinkRaises | Lanche.Links, Lanche.LinksAgree |
| pages/home.py:1749 | `if pd.isna(valor)` on a list: `pd.isna` returns an array, and an array of two or more elements raises in `if` | a category cell `["Lanches", "Outros"]` with target `"lanches"` | the list belongs when one of its elements does | not executed | Home.BelongsAsWritten, Home.TwoCategoriesRaise | Home.Belongs, Home.BelongsAgrees |
| pages/home.py:2919-2927 | `(local_original or "")` keeps a missing stored location as NaN, which is truthy. `""` then differs from NaN, so every save writes an empty location | an active event with a stripped agenda, a `Local` column, and no stored location, saved as shown | an unchanged event is not written | not executed | Agenda.LocalAsWritten, Agenda.MissingLocalRewritten | Agenda.Changes, Agenda.ResaveActive |

=== FILE: agenda.dfy ===
/** The calendar editor of the treasury page (pages/home.py): the
    `[CANCELADO]` marking of agenda texts, the coercion of edited cells to
    booleans, and the update computed for each edited event. */
module Agenda {
  import opened Common
  import opened Text
  import opened Cells

  // ---------------------------------------------------------------------
  // The cancellation marker

  const Marker: string := "[CANCELADO]"

  /** The text an empty agenda becomes when its event is cancelled. */
  const CancelledPlaceholder: string := "CANCELADO"

  predicate Marked(s: string) {
    StartsWith(s, Marker)
  }

  /** The state shown for a stored agenda: "Cancelado" when the stripped
      text starts with the marker, else "Ativo". */
  function Status(raw: string): (r: string)
    ensures r == "Cancelado" <==> Marked(Strip(raw))
    ensures r == "Cancelado" || r == "Ativo"
  {
    if Marked(Strip(raw)) then "Cancelado" else "Ativo"
  }

  /** `_limpar_agenda(valor)`: the agenda shown for a stored text; a marked
      text loses its first marker and surrounding whitespace, any other
      text is shown as stored. */
  function Clean(raw: string): (r: string)
    ensures !Marked(Strip(raw)) ==> r == raw
    ensures Marked(Strip(raw)) ==> Strip(r) == r
  {
    if Marked(Strip(raw)) then
      var r := Strip(RemoveFirst(raw, Marker));
      StripIdempotent(RemoveFirst(raw, Marker));
      r
    else raw
  }

  /** The agenda written when the state is set to "Cancelado": stripped,
      the placeholder when empty, prefixed by the marker and a space unless
      already marked. */
  function Cancel(agenda: string): (r: string)
    ensures Marked(r) && Strip(r) == r
    ensures Marked(Strip(agenda)) ==> r == Strip(agenda)
    ensures !IsBlank(agenda) && !Marked(Strip(agenda)) ==> r == Marker + " " + Strip(agenda)
  {
    var t := Strip(agenda);
    StripIdempotent(agenda);
    var u := if t == "" then CancelledPlaceholder else t;
    if Marked(u) then u
    else
      assert Strip(u) == u by {
        if t == "" { PlaceholderSolid(); }
      }
      MarkedSolid(u);
      Strip(Marker + " " + u)
  }

  /** The agenda written when the state is anything else: stripped, and
      without its first marker when it starts with one. */
  function Activate(agenda: string): (r: string)
    ensures Strip(r) == r
    ensures !Marked(Strip(agenda)) ==> r == Strip(agenda)
  {
    var t := Strip(agenda);
    StripIdempotent(agenda);
    if Marked(t) then
      StripIdempotent(t[|Marker|..]);
      Strip(t[|Marker|..])
    else t
  }

  /** The agenda written for an edited state and text. */
  function NewAgenda(status: string, agenda: string): (r: string)
    ensures status == "Cancelado" ==> Marked(r)
    ensures status != "Cancelado" && !Marked(Strip(agenda)) ==> r == Strip(agenda)
  {
    if status == "Cancelado" then Cancel(agenda) else Activate(agenda)
  }

  lemma Solid(s: string)
    requires |s| > 0 && !IsSpace(s[0]) && !IsSpace(s[|s| - 1])
    ensures Strip(s) == s
  {
    TrimStartOfTrimmed(s);
    TrimEndOfTrimmed(s);
  }

  lemma PlaceholderSolid()
    ensures Strip(CancelledPlaceholder) == CancelledPlaceholder
  {
    Solid(CancelledPlaceholder);
  }

  /** A non-empty stripped text behind the marker and a space is stripped. */
  lemma MarkedSolid(u: string)
    requires u != "" && Strip(u) == u
    ensures Strip(Marker + " " + u) == Marker + " " + u
    ensures Marked(Marker + " " + u)
  {
    var x := Marker + " " + u;
    assert x[0] == '[';
    assert x[|x| - 1] == u[|u| - 1];
    Solid(x);
    assert x[..|Marker|] == Marker;
  }

  /** A space before a stripped text is stripped away. */
  lemma StripAfterSpace(u: string)
    requires Strip(u) == u
    ensures Strip(" " + u) == u
  {
    var x := " " + u;
    assert x[1..] == u;
    TrimStartOfTrimmed(u);
    assert TrimStart(x) == TrimStart(u);
    TrimEndOfTrimmed(u);
  }

  /** Cancelling twice is cancelling once. */
  lemma CancelIdempotent(agenda: string)
    ensures Cancel(Cancel(agenda)) == Cancel(agenda)
  {
  }

  /** Reactivating a cancelled agenda gives back the stripped text, as long
      as the text was not blank and carried no marker of its own. */
  lemma ActivateCancel(agenda: string)
    requires !IsBlank(agenda) && !Marked(Strip(agenda))
    ensures Activate(Cancel(agenda)) == Strip(agenda)
  {
    var u := Strip(agenda);
    StripIdempotent(agenda);
    MarkedSolid(u);
    var x := Marker + " " + u;
    assert x[|Marker|..] == " " + u;
    StripAfterSpace(u);
  }

  /** A stored cancelled agenda is shown as the text it was cancelled with,
      in state "Cancelado". */
  lemma CleanCancel(agenda: string)
    requires !IsBlank(agenda) && !Marked(Strip(agenda))
    ensures Clean(Cancel(agenda)) == Strip(agenda)
    ensures Status(Cancel(agenda)) == "Cancelado"
  {
    var u := Strip(agenda);
    StripIdempotent(agenda);
    MarkedSolid(u);
    var x := Marker + " " + u;
    assert RemoveFirst(x, Marker) == " " + u;
    StripAfterSpace(u);
  }

  // ---------------------------------------------------------------------
  // Boolean coercion

  /** `_to_bool(valor)`: a boolean as it is, a missing value false, a text
      true when it reads as one of "true", "1", "sim", "yes", "on" (case and
      surrounding whitespace ignored), a number true when non-zero, and any
      other value by its truthiness. */
  function ToBool(v: Cell): (r: bool)
    ensures v.Bool? ==> r == v.b
    ensures v.Absent? ==> !r
    ensures v.Str? ==> (r <==> Lower(Strip(v.s)) in TrueWords)
    ensures v.Num? ==> (r <==> v.n != 0.0)
  {
    match v
    case Bool(b) => b
    case Absent => false
    case Str(s) => Lower(Strip(s)) in TrueWords
    case Num(n, _) => n != 0.0
    case _ => Truthy(v)
  }

  const TrueWords: set<string> := {"true", "1", "sim", "yes", "on"}

  /** Away from texts the coercion is plain truthiness. */
  lemma ToBoolNonText(v: Cell)
    requires !v.Str?
    ensures ToBool(v) == Truthy(v)
  {
  }

  /** The text of a boolean reads back as that boolean, although the text
      "False" is truthy. */
  lemma {:induction false} ToBoolOfText(b: bool)
    ensures ToBool(Str(BoolText(b))) == b
    ensures Truthy(Str(BoolText(false)))
  {
    var s := BoolText(b);
    Solid(s);
    var l := Lower(s);
    if b {
      assert l == "true" by {
        assert forall i :: 0 <= i < 4 ==> l[i] == LowerChar(s[i]);
      }
    } else {
      assert l[1] == 'a' by {
        assert l[1] == LowerChar(s[1]);
      }
      assert forall w :: w in TrueWords ==> |w| < 5 || w[1] != 'a';
    }
  }

  // ---------------------------------------------------------------------
  // Change detection

  /** `_normalize_id(value)`: the stripped text of an identifier, nothing
      for a missing value or a blank text. */
  function NormalizeId(v: Cell): (r: Option<string>)
    ensures v.Absent? ==> r.None?
    ensures r.Some? ==> r.value != "" && Strip(r.value) == r.value
    ensures !v.Absent? && !IsBlank(ConfigText(v)) ==> r.Some?
    ensures r.Some? ==> r.value == Strip(ConfigText(v))
    ensures IsBlank(ConfigText(v)) ==> r.None?
  {
    if v.Absent? then None
    else
      var t := Strip(ConfigText(v));
      StripIdempotent(ConfigText(v));
      if t == "" then None else Some(t)
  }

  /** A normalised identifier normalises to itself. */
  lemma NormalizeIdIdempotent(v: Cell)
    requires NormalizeId(v).Some?
    ensures NormalizeId(Str(NormalizeId(v).value)) == NormalizeId(v)
  {
  }

  /** One edited row, after the page's coercions: the state and the agenda
      are texts, the booleans coerced, the date already in ISO form
      (nothing when it does not read as a date), and the location present
      exactly when the frame has a "Local" column. */
  datatype Edited = Edited(
    id: Cell, delete: bool, date: Option<string>, status: string,
    agenda: string, prep: bool, local: Option<string>)

  /** What the page held for the event before editing: the ISO date, the
      raw agenda (missing read as empty), the preparation flag and the
      raw location cell (`Absent` where the frame holds NaN). */
  datatype Stored = Stored(date: Option<string>, raw: string, prep: bool, local: Cell)

  /** The fields sent to the calendar table; `None` leaves a field alone. */
  datatype Update = Update(date: Option<string>, agenda: Option<string>, prep: Option<bool>, local: Option<string>)

  predicate IsEmptyUpdate(u: Update) {
    u.date.None? && u.agenda.None? && u.prep.None? && u.local.None?
  }

  /** The agenda stored once the update is applied. */
  function AgendaAfter(u: Update, st: Stored): string {
    match u.agenda
    case Some(a) => a
    case None => st.raw
  }

  /** `local_original or ""` as intended: a missing location reads as an
      empty one. */
  function StoredLocalText(c: Cell): (r: Cell)
    ensures !Truthy(c) ==> r == Str("")
    ensures Truthy(c) ==> r == c
  {
    if Truthy(c) then c else Str("")
  }

  /** The update for an edited row against what was stored: the date when it
      changed, the new agenda when it differs from the raw one, preparation
      forced off for a cancelled event and otherwise sent when it changed,
      the location when its text differs. */
  function Changes(row: Edited, st: Stored): (r: Update)
    ensures row.status == "Cancelado" ==> r.prep == Some(false) && Marked(AgendaAfter(r, st))
    ensures row.status != "Cancelado" ==> (r.prep.Some? <==> row.prep != st.prep)
    ensures row.status != "Cancelado" && r.prep.Some? ==> r.prep.value == row.prep
    ensures r.agenda.Some? <==> NewAgenda(row.status, row.agenda) != st.raw
    ensures AgendaAfter(r, st) == NewAgenda(row.status, row.agenda)
    ensures r.date.Some? <==> row.date.Some? && row.date.value != "" && row.date != st.date
    ensures r.date.Some? ==> r.date == row.date
    ensures r.local.Some? <==> row.local.Some? && Str(row.local.value) != StoredLocalText(st.local)
    ensures r.local.Some? ==> r.local == row.local
  {
    var agenda := NewAgenda(row.status, row.agenda);
    Update(
      if row.date.Some? && row.date.value != "" && row.date != st.date then row.date else None,
      if agenda != st.raw then Some(agenda) else None,
      if row.status == "Cancelado" then Some(false)
      else if row.prep != st.prep then Some(row.prep) else None,
      match row.local
      case Some(l) => if Str(l) != StoredLocalText(st.local) then Some(l) else None
      case None => None)
  }

  /** The location comparison as written: a missing location is NaN, which
      `or` keeps (NaN is truthy) and which no text equals. */
  function LocalAsWritten(row: Edited, st: Stored): (r: Option<string>)
    ensures row.local.None? ==> r.None?
    ensures row.local.Some? && st.local.Absent? ==> r == row.local
    ensures !st.local.Absent? ==> r == Changes(row, st).local
  {
    match row.local
    case None => None
    case Some(l) =>
      if st.local.Absent? then Some(l)
      else if Str(l) != StoredLocalText(st.local) then Some(l) else None
  }

  /** What the page shows for a stored event: the state, the cleaned agenda,
      the flag, and the location as text (a missing one empty). */
  function Display(id: Cell, st: Stored, hasLocal: bool): (r: Edited)
    ensures r.status == Status(st.raw) && r.agenda == Clean(st.raw)
    ensures r.local.Some? <==> hasLocal
    ensures !r.delete && r.prep == st.prep && r.date == st.date
  {
    Edited(id, false, st.date, Status(st.raw), Clean(st.raw), st.prep,
           if hasLocal then Some(if st.local.Absent? then "" else ConfigText(st.local)) else None)
  }

  /** A location cell that survives display unchanged: missing, or a text. */
  predicate PlainLocal(c: Cell) {
    c.Absent? || c.Str?
  }

  /** Saving an active event as shown writes nothing, when its agenda is
      stored stripped and unmarked. */
  lemma ResaveActive(id: Cell, st: Stored, hasLocal: bool)
    requires Strip(st.raw) == st.raw && !Marked(st.raw) && PlainLocal(st.local)
    ensures IsEmptyUpdate(Changes(Display(id, st, hasLocal), st))
  {
  }

  /** Saving a cancelled event as shown rewrites only its preparation flag,
      when its agenda is stored as cancelling a stripped unmarked text. */
  lemma ResaveCancelled(id: Cell, st: Stored, hasLocal: bool, text: string)
    requires !IsBlank(text) && !Marked(Strip(text)) && st.raw == Cancel(text) && PlainLocal(st.local)
    ensures Changes(Display(id, st, hasLocal), st) == Update(None, None, Some(false), None)
  {
    CleanCancel(text);
    CancelOfStripped(text);
  }

  lemma CancelOfStripped(text: string)
    requires !IsBlank(text) && !Marked(Strip(text))
    ensures Cancel(Strip(text)) == Cancel(text)
  {
    StripIdempotent(text);
  }

  /** With the location compared as written, saving an active event whose
      location is missing still sends an empty location. */
  lemma MissingLocalRewritten(id: Cell, st: Stored)
    requires Strip(st.raw) == st.raw && !Marked(st.raw) && st.local.Absent?
    ensures LocalAsWritten(Display(id, st, true), st) == Some("")
    ensures Changes(Display(id, st, true), st).local.None?
  {
  }

  // ---------------------------------------------------------------------
  // The action for one row

  datatype Action = Skip | Delete(id: string) | Blocked(id: string) | Write(id: string, update: Update)

  /** The action for one edited row: nothing without an identifier or a
      known original; a deletion unless volunteers are linked to the event;
      otherwise the update, when it is not empty. The original records and
      the volunteer check are parameters. */
  function Plan(row: Edited, original: string -> Option<Stored>, linked: string -> bool): (r: Action)
    ensures NormalizeId(row.id).None? ==> r.Skip?
    ensures r.Delete? || r.Blocked? ==> row.delete && Some(r.id) == NormalizeId(row.id) && original(r.id).Some?
    ensures r.Blocked? <==> row.delete && NormalizeId(row.id).Some? && original(NormalizeId(row.id).value).Some? && linked(NormalizeId(row.id).value)
    ensures r.Write? ==> (!row.delete && Some(r.id) == NormalizeId(row.id) && original(r.id).Some?
                          && r.update == Changes(row, original(r.id).value) && !IsEmptyUpdate(r.update))
    ensures NormalizeId(row.id).Some? && original(NormalizeId(row.id).value).Some? ==>
              var id := NormalizeId(row.id).value;
              (row.delete && !linked(id) ==> r == Delete(id))
              && (!row.delete && !IsEmptyUpdate(Changes(row, original(id).value)) ==> r == Write(id, Changes(row, original(id).value)))
  {
    match NormalizeId(row.id)
    case None => Skip
    case Some(id) =>
      match original(id)
      case None => Skip
      case Some(st) =>
        if row.delete then (if linked(id) then Blocked(id) else Delete(id))
        else
          var u := Changes(row, st);
          if IsEmptyUpdate(u) then Skip else Write(id, u)
  }

  /** A row left as shown is not written, for an active event stored in
      the form the editor writes. */
  lemma PlanUnchangedActive(id: Cell, st: Stored, hasLocal: bool, original: string -> Option<Stored>, linked: string -> bool)
    requires NormalizeId(id).Some? && original(NormalizeId(id).value) == Some(st)
    requires Strip(st.raw) == st.raw && !Marked(st.raw) && PlainLocal(st.local)
    ensures Plan(Display(id, st, hasLocal), original, linked) == Skip
  {
    ResaveActive(id, st, hasLocal);
  }
}

=== FILE: banner.dfy ===
/** Invitation banners (components/banner_convites.py): two configuration
    sources merged into themes and an ordered list of invitations, each
    converted with fallbacks and shown inside its date window. */
module Banner {
  import opened Common
  import opened Text
  import opened Cells
  import Calendar

  /** A configuration mapping, in insertion order. */
  type Entries = seq<Entry>

  // ---------------------------------------------------------------------
  // Python's `or`

  /** `xs[0] or xs[1] or ... or xs[n-1]`: the first truthy value, else the
      last value. */
  function Or(xs: seq<Cell>): (r: Cell)
    requires |xs| > 0
    ensures (exists i :: 0 <= i < |xs| && Truthy(xs[i])) ==>
              exists i :: 0 <= i < |xs| && Truthy(xs[i]) && r == xs[i] && forall j :: 0 <= j < i ==> !Truthy(xs[j])
    ensures (forall i :: 0 <= i < |xs| ==> !Truthy(xs[i])) ==> r == xs[|xs| - 1]
  {
    if |xs| == 1 || Truthy(xs[0]) then xs[0]
    else
      var r := Or(xs[1..]);
      assert forall i :: 1 <= i < |xs| ==> xs[i] == xs[1..][i - 1];
      r
  }

  /** A chain ending in a truthy default yields a truthy value. */
  lemma OrTruthyDefault(xs: seq<Cell>)
    requires |xs| > 0 && Truthy(xs[|xs| - 1])
    ensures Truthy(Or(xs))
  {
  }

  // ---------------------------------------------------------------------
  // Merging the two sources

  /** The themes a source gives: each name whose value is a mapping. */
  function ThemesOf(source: Cell): (r: map<string, Entries>)
    ensures !source.Dict? ==> r == map[]
    ensures source.Dict? ==> forall name :: name in r <==> Lookup(source.entries, name).Some? && Lookup(source.entries, name).value.Dict?
    ensures source.Dict? ==> forall name :: name in r ==> r[name] == Lookup(source.entries, name).value.entries
  {
    if !source.Dict? then map[]
    else
      var es := source.entries;
      map name | name in NamesOf(es) && Lookup(es, name).Some? && Lookup(es, name).value.Dict? :: Lookup(es, name).value.entries
  }

  function NamesOf(es: Entries): (r: set<string>)
    ensures forall name :: Lookup(es, name).Some? ==> name in r
  {
    set i | 0 <= i < |es| :: es[i].key
  }

  /** The merged themes: a theme of the secrets replaces the file's theme
      of the same name, and values that are not mappings are dropped. */
  function MergeThemes(file: Cell, secrets: Cell): (r: map<string, Entries>)
    ensures forall name :: name in r <==> name in ThemesOf(file) || name in ThemesOf(secrets)
    ensures forall name :: name in ThemesOf(secrets) ==> r[name] == ThemesOf(secrets)[name]
    ensures forall name :: name in r && name !in ThemesOf(secrets) ==> r[name] == ThemesOf(file)[name]
  {
    ThemesOf(file) + ThemesOf(secrets)
  }

  /** One invitation slot of the ordered mapping from key to entry. */
  datatype Slot = Slot(key: string, entry: Entries)

  predicate DistinctSlots(slots: seq<Slot>) {
    forall i, j :: 0 <= i < j < |slots| ==> slots[i].key != slots[j].key
  }

  /** The position of the slot holding `key`. */
  function FirstIndex(slots: seq<Slot>, key: string): (r: Option<nat>)
    ensures r.None? <==> forall i :: 0 <= i < |slots| ==> slots[i].key != key
    ensures r.Some? ==> r.value < |slots| && slots[r.value].key == key
    ensures r.Some? ==> forall j :: 0 <= j < r.value ==> slots[j].key != key
  {
    if |slots| == 0 then None
    else if slots[0].key == key then Some(0)
    else
      match FirstIndex(slots[1..], key)
      case None => None
      case Some(i) => Some(i + 1)
  }

  /** `slots.get(key)` */
  function Get(slots: seq<Slot>, key: string): (r: Option<Entries>)
    ensures r.None? <==> forall i :: 0 <= i < |slots| ==> slots[i].key != key
    ensures r.Some? ==> exists i :: 0 <= i < |slots| && slots[i] == Slot(key, r.value)
  {
    match FirstIndex(slots, key)
    case Some(i) => Some(slots[i].entry)
    case None => None
  }

  /** `slots[key] = entry`: an existing key keeps its place and gets the new
      entry; a new key goes at the end. */
  function Upsert(slots: seq<Slot>, key: string, entry: Entries): (r: seq<Slot>)
    ensures Get(slots, key).Some? ==> |r| == |slots|
    ensures Get(slots, key).None? ==> r == slots + [Slot(key, entry)]
    ensures forall i :: 0 <= i < |slots| ==> r[i].key == slots[i].key
  {
    match FirstIndex(slots, key)
    case Some(i) => slots[i := Slot(key, entry)]
    case None => slots + [Slot(key, entry)]
  }

  /** After `slots[key] = entry` the key reads the new entry and every other
      key reads what it read before. */
  lemma UpsertGet(slots: seq<Slot>, key: string, entry: Entries, k: string)
    ensures Get(Upsert(slots, key, entry), k) == (if k == key then Some(entry) else Get(slots, k))
  {
    var r := Upsert(slots, key, entry);
    var n := FirstIndex(slots, k);
    var m := FirstIndex(r, k);
    if k == key {
      match FirstIndex(slots, key)
      case Some(i) =>
        assert r[i] == Slot(key, entry);
        assert m == Some(i);
      case None =>
        assert r[|slots|] == Slot(key, entry);
        assert m == Some(|slots|);
    } else {
      assert forall i :: 0 <= i < |slots| && slots[i].key == k ==> r[i] == slots[i];
      if n.Some? {
        assert m == n;
      } else if FirstIndex(slots, key).None? {
        assert r[|slots|].key == key;
        assert m.None?;
      }
    }
  }

  lemma UpsertDistinct(slots: seq<Slot>, key: string, entry: Entries)
    ensures DistinctSlots(slots) ==> DistinctSlots(Upsert(slots, key, entry))
  {
  }

  /** An invitation entry that counts: a mapping with a truthy `key`. */
  predicate Keyed(item: Cell) {
    item.Dict? && Truthy(Field(item.entries, "key"))
  }

  function KeyOf(item: Cell): string
    requires Keyed(item)
  {
    ConfigText(Field(item.entries, "key"))
  }

  /** The item sets `k`. */
  predicate Sets(item: Cell, k: string) {
    Keyed(item) && KeyOf(item) == k
  }

  /** Adds the keyed entries of a list, in order. */
  function AddItems(slots: seq<Slot>, items: seq<Cell>): (r: seq<Slot>)
    ensures DistinctSlots(slots) ==> DistinctSlots(r)
    decreases |items|
  {
    if |items| == 0 then slots
    else
      if Keyed(items[0]) then
        UpsertDistinct(slots, KeyOf(items[0]), items[0].entries);
        AddItems(Upsert(slots, KeyOf(items[0]), items[0].entries), items[1..])
      else AddItems(slots, items[1..])
  }

  /** A key no item of the list sets keeps its entry. */
  lemma {:induction false} AddItemsUntouched(slots: seq<Slot>, items: seq<Cell>, k: string)
    requires forall i :: 0 <= i < |items| ==> !Sets(items[i], k)
    ensures Get(AddItems(slots, items), k) == Get(slots, k)
    decreases |items|
  {
    if |items| > 0 {
      var next := if Keyed(items[0]) then Upsert(slots, KeyOf(items[0]), items[0].entries) else slots;
      if Keyed(items[0]) {
        UpsertGet(slots, KeyOf(items[0]), items[0].entries, k);
      }
      assert forall i :: 1 <= i < |items| ==> items[i] == items[1..][i - 1];
      AddItemsUntouched(next, items[1..], k);
    }
  }

  /** A key holds the entry of the last item of the list setting it. */
  lemma {:induction false} AddItemsLastWins(slots: seq<Slot>, items: seq<Cell>, k: string, i: nat)
    requires i < |items| && Sets(items[i], k)
    requires forall j :: i < j < |items| ==> !Sets(items[j], k)
    ensures Get(AddItems(slots, items), k) == Some(items[i].entries)
    decreases |items|
  {
    var next := if Keyed(items[0]) then Upsert(slots, KeyOf(items[0]), items[0].entries) else slots;
    assert forall j :: 1 <= j < |items| ==> items[j] == items[1..][j - 1];
    if i == 0 {
      UpsertGet(slots, k, items[0].entries, k);
      AddItemsUntouched(next, items[1..], k);
    } else {
      AddItemsLastWins(next, items[1..], k, i - 1);
    }
  }

  /** The slots a source adds, when it is a list. */
  function AddSource(slots: seq<Slot>, source: Cell): (r: seq<Slot>)
    ensures DistinctSlots(slots) ==> DistinctSlots(r)
    ensures !source.List? ==> r == slots
  {
    if source.List? then AddItems(slots, source.items) else slots
  }

  /** The invitations by key: the file's, then the secrets', a secrets
      entry replacing the file entry of the same key wholesale. */
  function MergeInvites(file: Cell, secrets: Cell): (r: seq<Slot>)
    ensures DistinctSlots(r)
  {
    AddSource(AddSource([], file), secrets)
  }

  /** A key given by the secrets takes the secrets' entry, whatever the file
      holds. */
  lemma SecretsInviteWins(file: Cell, secrets: Cell, k: string, i: nat)
    requires secrets.List? && i < |secrets.items| && Sets(secrets.items[i], k)
    requires forall j :: i < j < |secrets.items| ==> !Sets(secrets.items[j], k)
    ensures Get(MergeInvites(file, secrets), k) == Some(secrets.items[i].entries)
  {
    AddItemsLastWins(AddSource([], file), secrets.items, k, i);
  }

  /** A key the secrets do not set keeps the file's entry. */
  lemma FileInviteKept(file: Cell, secrets: Cell, k: string)
    requires !secrets.List? || forall j :: 0 <= j < |secrets.items| ==> !Sets(secrets.items[j], k)
    ensures Get(MergeInvites(file, secrets), k) == Get(AddSource([], file), k)
  {
    if secrets.List? {
      AddItemsUntouched(AddSource([], file), secrets.items, k);
    }
  }

  /** The keys a source names: a list of keys as texts, or one text. */
  function KeysIn(source: Cell): (r: seq<string>)
    ensures !Truthy(source) ==> r == []
    ensures Truthy(source) && source.Str? ==> r == [source.s]
    ensures Truthy(source) && source.List? ==> |r| == |source.items| && forall i :: 0 <= i < |r| ==> r[i] == ConfigText(source.items[i])
    ensures !source.Str? && !source.List? ==> r == []
  {
    if !Truthy(source) then []
    else if source.List? then seq(|source.items|, i requires 0 <= i < |source.items| => ConfigText(source.items[i]))
    else if source.Str? then [source.s]
    else []
  }

  /** `entrada.get("active", default)` read as a boolean. */
  predicate ActiveFlag(entry: Entries, default: bool) {
    match Lookup(entry, "active")
    case None => default
    case Some(v) => Truthy(v)
  }

  /** The key of a slot that is not switched off. */
  function DefaultKey(slot: Slot): Option<string> {
    if ActiveFlag(slot.entry, true) then Some(slot.key) else None
  }

  /** The keys of the invitations not switched off, in order: the i-th key
      is the key of the i-th slot not switched off. */
  function DefaultActive(slots: seq<Slot>): (r: seq<string>)
    ensures forall k :: k in r <==> exists i :: 0 <= i < |slots| && slots[i].key == k && ActiveFlag(slots[i].entry, true)
    ensures |r| == |Filter(slots, Defined(DefaultKey))|
    ensures forall i :: 0 <= i < |r| ==>
              Filter(slots, Defined(DefaultKey))[i].key == r[i] && ActiveFlag(Filter(slots, Defined(DefaultKey))[i].entry, true)
  {
    FilterMapOfFilter(slots, DefaultKey);
    FilterMap(slots, DefaultKey)
  }

  /** DefaultActive keeps insertion order: it distributes over
      concatenation. */
  lemma DefaultActiveConcat(xs: seq<Slot>, ys: seq<Slot>)
    ensures DefaultActive(xs + ys) == DefaultActive(xs) + DefaultActive(ys)
  {
    FilterMapConcat(xs, ys, DefaultKey);
  }

  /** The active keys: the secrets' if they name any, else the file's, else
      every invitation not switched off. */
  function ActiveKeys(fileKeys: Cell, secretKeys: Cell, slots: seq<Slot>): (r: seq<string>)
    ensures KeysIn(secretKeys) != [] ==> r == KeysIn(secretKeys)
    ensures KeysIn(secretKeys) == [] && KeysIn(fileKeys) != [] ==> r == KeysIn(fileKeys)
    ensures KeysIn(secretKeys) == [] && KeysIn(fileKeys) == [] ==> r == DefaultActive(slots)
  {
    if KeysIn(secretKeys) != [] then KeysIn(secretKeys)
    else if KeysIn(fileKeys) != [] then KeysIn(fileKeys)
    else DefaultActive(slots)
  }

  /** The entries named by the active keys, in that order, skipping unknown
      keys; a key named twice gives its entry twice. */
  function ActiveFirst(keys: seq<string>, slots: seq<Slot>): (r: seq<Entries>)
    ensures |r| <= |keys|
    ensures forall e :: e in r ==> |e| > 0 && exists k :: k in keys && Get(slots, k) == Some(e)
    ensures forall k :: k in keys && Get(slots, k).Some? && |Get(slots, k).value| > 0 ==> Get(slots, k).value in r
  {
    if |keys| == 0 then []
    else
      var rest := ActiveFirst(keys[1..], slots);
      assert forall k :: k in keys[1..] ==> k in keys;
      assert forall k :: k in keys ==> k == keys[0] || k in keys[1..];
      match Get(slots, keys[0])
      case Some(e) => if |e| > 0 then [e] + rest else rest
      case None => rest
  }

  /** The entry a key names, when it names a non-empty one. */
  function KeyEntry(slots: seq<Slot>, k: string): Option<Entries> {
    match Get(slots, k)
    case Some(e) => if |e| > 0 then Some(e) else None
    case None => None
  }

  function KeyEntryOf(slots: seq<Slot>): string -> Option<Entries> {
    k => KeyEntry(slots, k)
  }

  /** The entry of a slot the second pass adds. */
  function ExplicitEntry(keys: seq<string>, slot: Slot): Option<Entries> {
    if slot.key !in keys && ActiveFlag(slot.entry, false) then Some(slot.entry) else None
  }

  function ExplicitEntryOf(keys: seq<string>): Slot -> Option<Entries> {
    slot => ExplicitEntry(keys, slot)
  }

  /** The first pass keeps the keys' order: it is the keys' entries,
      filtered. */
  lemma {:induction false} ActiveFirstInKeyOrder(keys: seq<string>, slots: seq<Slot>)
    ensures ActiveFirst(keys, slots) == FilterMap(keys, KeyEntryOf(slots))
  {
    if |keys| > 0 {
      ActiveFirstInKeyOrder(keys[1..], slots);
    }
  }

  /** The other entries that are explicitly active, in insertion order. */
  function ExplicitlyActive(slots: seq<Slot>, keys: seq<string>): (r: seq<Entries>)
    ensures forall e :: e in r <==> exists i :: 0 <= i < |slots| && slots[i].entry == e && slots[i].key !in keys && ActiveFlag(e, false)
  {
    if |slots| == 0 then []
    else
      var rest := ExplicitlyActive(slots[1..], keys);
      assert forall i :: 1 <= i < |slots| ==> slots[i] == slots[1..][i - 1];
      if slots[0].key !in keys && ActiveFlag(slots[0].entry, false) then [slots[0].entry] + rest else rest
  }

  /** The second pass keeps insertion order: it is the slots' entries,
      filtered. */
  lemma {:induction false} ExplicitlyActiveInOrder(slots: seq<Slot>, keys: seq<string>)
    ensures ExplicitlyActive(slots, keys) == FilterMap(slots, ExplicitEntryOf(keys))
  {
    if |slots| > 0 {
      ExplicitlyActiveInOrder(slots[1..], keys);
    }
  }

  /** With distinct keys, a slot's key names the slot's entry. */
  lemma GetSlot(slots: seq<Slot>, i: nat)
    requires DistinctSlots(slots) && i < |slots|
    ensures Get(slots, slots[i].key) == Some(slots[i].entry)
  {
    var k := slots[i].key;
    var j := FirstIndex(slots, k).value;
    assert slots[j].key == k;
  }

  /** `_merge_configs()`: the themes and the ordered invitation entries. */
  datatype Merged = Merged(themes: map<string, Entries>, invites: seq<Entries>)

  /** `_merge_configs()` over the file and secrets configurations: the
      entries of the active keys in key order, then the other explicitly
      active entries in insertion order. */
  function Merge(file: Entries, secrets: Entries): (r: Merged)
    ensures r.themes == MergeThemes(Field(file, "themes"), Field(secrets, "themes"))
    ensures var slots := MergeInvites(Field(file, "convites"), Field(secrets, "convites"));
            var keys := ActiveKeys(Field(file, "active_keys"), Field(secrets, "active_keys"), slots);
            r.invites == FilterMap(keys, KeyEntryOf(slots)) + FilterMap(slots, ExplicitEntryOf(keys))
  {
    var slots := MergeInvites(Field(file, "convites"), Field(secrets, "convites"));
    var keys := ActiveKeys(Field(file, "active_keys"), Field(secrets, "active_keys"), slots);
    ActiveFirstInKeyOrder(keys, slots);
    ExplicitlyActiveInOrder(slots, keys);
    Merged(MergeThemes(Field(file, "themes"), Field(secrets, "themes")), ActiveFirst(keys, slots) + ExplicitlyActive(slots, keys))
  }

  /** An entry is shown exactly when its slot's key is active and the entry
      is not empty, or its key is not active and the entry says it is
      active. */
  lemma MergeMembers(file: Entries, secrets: Entries, e: Entries)
    ensures var slots := MergeInvites(Field(file, "convites"), Field(secrets, "convites"));
            var keys := ActiveKeys(Field(file, "active_keys"), Field(secrets, "active_keys"), slots);
            e in Merge(file, secrets).invites <==>
              exists i :: 0 <= i < |slots| && slots[i].entry == e
                && ((slots[i].key in keys && |e| > 0) || (slots[i].key !in keys && ActiveFlag(e, false)))
  {
    var slots := MergeInvites(Field(file, "convites"), Field(secrets, "convites"));
    var keys := ActiveKeys(Field(file, "active_keys"), Field(secrets, "active_keys"), slots);
    assert Merge(file, secrets).invites == ActiveFirst(keys, slots) + ExplicitlyActive(slots, keys);
    ShownMembers(slots, keys, e);
  }

  lemma ShownMembers(slots: seq<Slot>, keys: seq<string>, e: Entries)
    requires DistinctSlots(slots)
    ensures e in ActiveFirst(keys, slots) + ExplicitlyActive(slots, keys) <==>
              exists i :: 0 <= i < |slots| && slots[i].entry == e
                && ((slots[i].key in keys && |e| > 0) || (slots[i].key !in keys && ActiveFlag(e, false)))
  {
    if e in ActiveFirst(keys, slots) {
      ShownFromSlot(slots, keys, e);
    }
    forall i | 0 <= i < |slots| && slots[i].entry == e && slots[i].key in keys && |e| > 0
      ensures e in ActiveFirst(keys, slots)
    {
      GetSlot(slots, i);
    }
  }

  lemma ShownFromSlot(slots: seq<Slot>, keys: seq<string>, e: Entries)
    requires e in ActiveFirst(keys, slots)
    ensures exists i :: 0 <= i < |slots| && slots[i].entry == e && slots[i].key in keys && |e| > 0
  {
    var k :| k in keys && Get(slots, k) == Some(e);
    var i :| 0 <= i < |slots| && slots[i] == Slot(k, e);
    assert slots[i].entry == e && slots[i].key in keys;
  }

  /** With no active keys anywhere, the invitations shown are exactly those
      not switched off, and none comes from the second pass. */
  lemma DefaultKeysCoverExplicit(slots: seq<Slot>)
    ensures ExplicitlyActive(slots, DefaultActive(slots)) == []
  {
    var keys := DefaultActive(slots);
    var r := ExplicitlyActive(slots, keys);
    if |r| > 0 {
      assert r[0] in r;
      var i :| 0 <= i < |slots| && slots[i].entry == r[0] && slots[i].key !in keys && ActiveFlag(r[0], false);
      assert ActiveFlag(slots[i].entry, true);
    }
  }

  /** Every merged invitation is the entry of some key of the merged
      mapping: merging invents nothing. */
  lemma MergedFromSlots(file: Entries, secrets: Entries, e: Entries)
    requires e in Merge(file, secrets).invites
    ensures exists i :: 0 <= i < |MergeInvites(Field(file, "convites"), Field(secrets, "convites"))| &&
              MergeInvites(Field(file, "convites"), Field(secrets, "convites"))[i].entry == e
  {
    var slots := MergeInvites(Field(file, "convites"), Field(secrets, "convites"));
    var keys := ActiveKeys(Field(file, "active_keys"), Field(secrets, "active_keys"), slots);
    if e in ActiveFirst(keys, slots) {
      var k :| k in keys && Get(slots, k) == Some(e);
      var i :| 0 <= i < |slots| && slots[i] == Slot(k, e);
    } else {
      assert e in ExplicitlyActive(slots, keys);
    }
  }

  // ---------------------------------------------------------------------
  // Converting one invitation

  datatype Invite = Invite(
    key: string, title: string, place: string, description: string, link: string,
    positions: seq<string>, image: Cell, since: Option<Calendar.Date>, until: Option<Calendar.Date>,
    background: string, accent: string, text: string)

  /** `_parse_data`: falsy gives nothing, a date passes, a text is read as
      an ISO date once stripped, anything else gives nothing. */
  function ParseDate(v: Cell): (r: Option<Calendar.Date>)
    ensures !Truthy(v) ==> r.None?
    ensures v.Day? ==> r == Some(v.date)
    ensures v.Str? ==> r == Calendar.ParseIso(Strip(v.s))
    ensures !v.Day? && !v.Str? ==> r.None?
  {
    if !Truthy(v) then None
    else match v
      case Day(d) => Some(d)
      case Str(s) => Calendar.ParseIso(Strip(s))
      case _ => None
  }

  /** The positions as given: a text is one position, a list is its items,
      a mapping is its keys; `None` where iterating raises. */
  function PositionItems(v: Cell): (r: Option<seq<Cell>>)
    ensures v.Str? ==> r == Some([v])
    ensures v.List? ==> r == Some(v.items)
    ensures v.Absent? || v.Num? || v.Bool? || v.Day? ==> r.None?
  {
    match v
    case Str(_) => Some([v])
    case List(items) => Some(items)
    case Dict(es) => Some(seq(|es|, i requires 0 <= i < |es| => Str(es[i].key)))
    case _ => None
  }

  /** `tuple(str(p).strip() for p in items if p)` */
  function StripTruthy(items: seq<Cell>): (r: seq<string>)
    ensures |r| <= |items|
    ensures forall p :: p in r ==> exists i :: 0 <= i < |items| && Truthy(items[i]) && p == Strip(ConfigText(items[i]))
    ensures r == [] <==> forall i :: 0 <= i < |items| ==> !Truthy(items[i])
  {
    if |items| == 0 then []
    else
      var rest := StripTruthy(items[1..]);
      assert forall i :: 1 <= i < |items| ==> items[i] == items[1..][i - 1];
      if Truthy(items[0]) then [Strip(ConfigText(items[0]))] + rest else rest
  }

  /** `positions or posicoes or ["principal"]` */
  function GivenPositions(entry: Entries): Cell {
    Or([Field(entry, "positions"), Field(entry, "posicoes"), List([Str("principal")])])
  }

  /** The positions of an invitation: at least one, `principal` when none
      survives; `None` where iterating the given value raises. */
  function PositionsOf(entry: Entries): (r: Option<seq<string>>)
    ensures r.Some? ==> |r.value| > 0
    ensures r.None? <==> PositionItems(GivenPositions(entry)).None?
  {
    var items :- PositionItems(GivenPositions(entry));
    var kept := StripTruthy(items);
    if |kept| == 0 then Some(["principal"]) else Some(kept)
  }

  /** An entry naming no positions is shown in the main position only. */
  lemma DefaultPositions(entry: Entries)
    requires !Truthy(Field(entry, "positions")) && !Truthy(Field(entry, "posicoes"))
    ensures PositionsOf(entry) == Some(["principal"])
  {
    var xs := [Field(entry, "positions"), Field(entry, "posicoes"), List([Str("principal")])];
    assert Truthy(xs[2]);
    assert GivenPositions(entry) == List([Str("principal")]);
    MainPositionKept();
  }

  lemma MainPositionKept()
    ensures StripTruthy([Str("principal")]) == ["principal"]
  {
    var p := "principal";
    TrimStartOfTrimmed(p);
    TrimEndOfTrimmed(p);
    assert StripTruthy([Str(p)]) == [Strip(p)] + StripTruthy([]);
  }

  /** A single text names one position, stripped. */
  lemma TextPosition(entry: Entries, v: string)
    requires Field(entry, "positions") == Str(v) && v != ""
    ensures PositionsOf(entry) == Some([Strip(v)])
  {
    var xs := [Field(entry, "positions"), Field(entry, "posicoes"), List([Str("principal")])];
    assert Truthy(xs[0]);
    assert GivenPositions(entry) == Str(v);
    assert StripTruthy([Str(v)]) == [Strip(v)];
  }

  /** The theme an entry names, empty when it names none or an unknown
      one. */
  function ThemeOf(entry: Entries, themes: map<string, Entries>): (r: Entries)
    ensures Field(entry, "theme").Str? && Field(entry, "theme").s in themes ==> r == themes[Field(entry, "theme").s]
    ensures !(Field(entry, "theme").Str? && Field(entry, "theme").s in themes) ==> r == []
  {
    var ref := Field(entry, "theme");
    if ref.Str? && ref.s in themes then themes[ref.s] else []
  }

  /** The title: `title`, else `titulo`, else the key. */
  function TitleOf(entry: Entries): string {
    ConfigText(Or([Field(entry, "title"), Field(entry, "titulo"), Field(entry, "key")]))
  }

  /** The link: `link`, else `url`, else `#`. */
  function LinkOf(entry: Entries): string {
    ConfigText(Or([Field(entry, "link"), Field(entry, "url"), Str("#")]))
  }

  /** The background colour: the entry's, else the theme's, else the
      default. */
  function BackgroundOf(entry: Entries, theme: Entries): string {
    ConfigText(Or([Field(entry, "background"), Field(entry, "bg"), Field(theme, "background"), Field(theme, "bg"), Str("#162447")]))
  }

  function AccentOf(entry: Entries, theme: Entries): string {
    ConfigText(Or([Field(entry, "accent"), Field(entry, "accent_color"), Field(theme, "accent"), Str("#F6C65B")]))
  }

  function TextColourOf(entry: Entries, theme: Entries): string {
    ConfigText(Or([Field(entry, "text"), Field(entry, "texto"), Field(theme, "text"), Field(theme, "texto"), Str("#FFFFFF")]))
  }

  /** `_converter_convite`: `None` where it raises, so the invitation is
      skipped. */
  function Convert(entry: Entries, themes: map<string, Entries>): (r: Option<Invite>)
    ensures r.None? <==> PositionsOf(entry).None?
    ensures r.Some? ==> r.value.key == ConfigText(Field(entry, "key"))
    ensures r.Some? ==> |r.value.positions| > 0 && Some(r.value.positions) == PositionsOf(entry)
    ensures r.Some? ==> r.value.title == TitleOf(entry) && r.value.link == LinkOf(entry)
    ensures r.Some? ==> r.value.since == ParseDate(Or([Field(entry, "ativo_desde"), Field(entry, "start_date")]))
    ensures r.Some? ==> r.value.until == ParseDate(Or([Field(entry, "ativo_ate"), Field(entry, "end_date")]))
    ensures r.Some? ==> r.value.background == BackgroundOf(entry, ThemeOf(entry, themes))
    ensures r.Some? ==> r.value.accent == AccentOf(entry, ThemeOf(entry, themes))
    ensures r.Some? ==> r.value.text == TextColourOf(entry, ThemeOf(entry, themes))
    ensures r.Some? ==> r.value.place == ConfigText(Or([Field(entry, "data_local"), Field(entry, "subtitle"), Str("")]))
    ensures r.Some? ==> r.value.description == ConfigText(Or([Field(entry, "description"), Field(entry, "descricao"), Str("")]))
    ensures r.Some? ==> r.value.image == Or([Field(entry, "image_url"), Field(entry, "image"), Field(entry, "banner")])
  {
    var theme := ThemeOf(entry, themes);
    var positions :- PositionsOf(entry);
    Some(Invite(
      ConfigText(Field(entry, "key")),
      TitleOf(entry),
      ConfigText(Or([Field(entry, "data_local"), Field(entry, "subtitle"), Str("")])),
      ConfigText(Or([Field(entry, "description"), Field(entry, "descricao"), Str("")])),
      LinkOf(entry),
      positions,
      Or([Field(entry, "image_url"), Field(entry, "image"), Field(entry, "banner")]),
      ParseDate(Or([Field(entry, "ativo_desde"), Field(entry, "start_date")])),
      ParseDate(Or([Field(entry, "ativo_ate"), Field(entry, "end_date")])),
      BackgroundOf(entry, theme),
      AccentOf(entry, theme),
      TextColourOf(entry, theme)))
  }

  /** An entry with no colour of its own takes its theme's. */
  lemma ThemeColourUsed(entry: Entries, theme: Entries)
    requires !Truthy(Field(entry, "background")) && !Truthy(Field(entry, "bg"))
    requires Truthy(Field(theme, "background"))
    ensures BackgroundOf(entry, theme) == ConfigText(Field(theme, "background"))
  {
    var xs := [Field(entry, "background"), Field(entry, "bg"), Field(theme, "background"), Field(theme, "bg"), Str("#162447")];
    assert Truthy(xs[2]);
  }

  /** An entry with neither link nor url links to `#`. */
  lemma DefaultLink(entry: Entries)
    requires !Truthy(Field(entry, "link")) && !Truthy(Field(entry, "url"))
    ensures LinkOf(entry) == "#"
  {
    var xs := [Field(entry, "link"), Field(entry, "url"), Str("#")];
    assert Truthy(xs[2]);
  }

  /** An entry without a title is titled by its key. */
  lemma DefaultTitle(entry: Entries)
    requires !Truthy(Field(entry, "title")) && !Truthy(Field(entry, "titulo"))
    ensures TitleOf(entry) == ConfigText(Field(entry, "key"))
  {
  }

  /** Converts an entry that has a `key`; `None` skips it. */
  function ConvertKeyed(entry: Entries, themes: map<string, Entries>): (r: Option<Invite>)
    ensures r.Some? ==> Lookup(entry, "key").Some? && Convert(entry, themes) == r
    ensures Lookup(entry, "key").Some? ==> r == Convert(entry, themes)
  {
    if Lookup(entry, "key").Some? then Convert(entry, themes) else None
  }

  function ConvertKeyedOf(themes: map<string, Entries>): Entries -> Option<Invite> {
    e => ConvertKeyed(e, themes)
  }

  /** `_convites_configurados()`: the converted invitations, in order,
      skipping entries without `key` and entries whose conversion raises. */
  function Configured(m: Merged): (r: seq<Invite>)
    ensures |r| <= |m.invites|
    ensures r == FilterMap(m.invites, ConvertKeyedOf(m.themes))
  {
    FilterMap(m.invites, ConvertKeyedOf(m.themes))
  }

  /** An invitation is configured exactly when it is the conversion of a
      merged entry that has a `key`. */
  lemma ConfiguredMembers(m: Merged, c: Invite)
    ensures c in Configured(m) <==>
              exists i :: 0 <= i < |m.invites| && Lookup(m.invites[i], "key").Some? && Convert(m.invites[i], m.themes) == Some(c)
  {
    var f := ConvertKeyedOf(m.themes);
    assert forall i :: 0 <= i < |m.invites| ==> f(m.invites[i]) == ConvertKeyed(m.invites[i], m.themes);
    if c in Configured(m) {
      var i :| 0 <= i < |m.invites| && f(m.invites[i]) == Some(c);
    }
  }

  // ---------------------------------------------------------------------
  // The date window

  /** `esta_ativo(today)`: not before the start, not after the end. */
  predicate IsActive(c: Invite, today: Calendar.Date) {
    !(c.since.Some? && Calendar.Lt(today, c.since.value)) && !(c.until.Some? && Calendar.Lt(c.until.value, today))
  }

  /** The window is inclusive at both ends, and a missing bound imposes
      nothing. */
  lemma IsActiveWindow(c: Invite, today: Calendar.Date)
    ensures IsActive(c, today) <==>
              (c.since.None? || Calendar.Le(c.since.value, today)) && (c.until.None? || Calendar.Le(today, c.until.value))
  {
  }

  /** Shown at `position` on `today`, as a filter condition. */
  function ShownAt(position: string, today: Calendar.Date): Invite -> bool {
    (c: Invite) => position in c.positions && IsActive(c, today)
  }

  /** `_iterar_convites_ativos(position)`: the configured invitations for
      that position that are active today, each as often as configured, in
      order. */
  function ActiveFor(invites: seq<Invite>, position: string, today: Calendar.Date): (r: seq<Invite>)
    ensures forall c :: c in r <==> c in invites && position in c.positions && IsActive(c, today)
    ensures forall c :: multiset(r)[c] == if position in c.positions && IsActive(c, today) then multiset(invites)[c] else 0
    ensures |r| <= |invites|
  {
    FilterCounts(invites, ShownAt(position, today));
    Filter(invites, ShownAt(position, today))
  }

  /** ActiveFor keeps the configured order: it distributes over
      concatenation. */
  lemma ActiveForConcat(xs: seq<Invite>, ys: seq<Invite>, position: string, today: Calendar.Date)
    ensures ActiveFor(xs + ys, position, today) == ActiveFor(xs, position, today) + ActiveFor(ys, position, today)
  {
    FilterConcat(xs, ys, ShownAt(position, today));
  }
}

=== FILE: calendar.dfy ===
/** Python's `datetime.date`: proleptic Gregorian dates, their ordinal
    numbering (`toordinal`), `timedelta(days=...)` arithmetic, `weekday()`
    and ISO parsing. */
module Calendar {
  import opened Common
  import Text

  datatype Date = Date(year: int, month: int, day: int)

  predicate IsLeap(y: int) {
    y % 4 == 0 && (y % 100 != 0 || y % 400 == 0)
  }

  function DaysInMonth(y: int, m: int): (n: int)
    requires 1 <= m <= 12
    ensures 28 <= n <= 31
  {
    if m == 2 then (if IsLeap(y) then 29 else 28)
    else if m == 4 || m == 6 || m == 9 || m == 11 then 30
    else 31
  }

  function DaysInYear(y: int): int {
    if IsLeap(y) then 366 else 365
  }

  /** A date Python can represent (the upper limit of year 9999 is not
      modelled). */
  predicate Valid(d: Date) {
    1 <= d.year && 1 <= d.month <= 12 && 1 <= d.day <= DaysInMonth(d.year, d.month)
  }

  /** Days in the years before `y` (Python's `_days_before_year`). */
  function DaysBeforeYear(y: int): int {
    var p := y - 1;
    p * 365 + p / 4 - p / 100 + p / 400
  }

  /** Days in the months of `y` before `m` (Python's `_days_before_month`). */
  function DaysBeforeMonth(y: int, m: int): int
    requires 1 <= m <= 12
  {
    var table := [0, 31, 59, 90, 120, 151, 181, 212, 243, 273, 304, 334];
    table[m - 1] + (if m > 2 && IsLeap(y) then 1 else 0)
  }

  /** `d.toordinal()`: 0001-01-01 is day 1. */
  function Ordinal(d: Date): int
    requires Valid(d)
  {
    DaysBeforeYear(d.year) + DaysBeforeMonth(d.year, d.month) + d.day
  }

  /** Python's comparison of dates, field by field. */
  predicate Le(a: Date, b: Date) {
    if a.year != b.year then a.year < b.year
    else if a.month != b.month then a.month < b.month
    else a.day <= b.day
  }

  predicate Lt(a: Date, b: Date) {
    Le(a, b) && a != b
  }

  function Min(a: Date, b: Date): (r: Date)
    ensures r == a || r == b
    ensures Le(r, a) && Le(r, b)
  {
    if Le(b, a) then b else a
  }

  /** Integer division by 4, 100 and 400 steps up by one exactly at the
      multiples. */
  lemma DivStep4(p: int)
    ensures (p + 1) / 4 == p / 4 + (if (p + 1) % 4 == 0 then 1 else 0)
  {
  }

  lemma DivStep100(p: int)
    ensures (p + 1) / 100 == p / 100 + (if (p + 1) % 100 == 0 then 1 else 0)
  {
  }

  lemma DivStep400(p: int)
    ensures (p + 1) / 400 == p / 400 + (if (p + 1) % 400 == 0 then 1 else 0)
  {
  }

  lemma DaysBeforeYearStep(y: int)
    ensures DaysBeforeYear(y + 1) == DaysBeforeYear(y) + DaysInYear(y)
  {
    var p := y - 1;
    DivStep4(p);
    DivStep100(p);
    DivStep400(p);
    LeapCount(y);
    assert DaysBeforeYear(y) == p * 365 + p / 4 - p / 100 + p / 400;
    assert DaysBeforeYear(y + 1) == y * 365 + y / 4 - y / 100 + y / 400;
  }

  /** The leap-year rule as the corrections the day count makes: one day
      every 4 years, less one every 100, plus one every 400. */
  lemma LeapCount(y: int)
    ensures (if y % 4 == 0 then 1 else 0) - (if y % 100 == 0 then 1 else 0)
            + (if y % 400 == 0 then 1 else 0) == DaysInYear(y) - 365
  {
    if y % 400 == 0 {
      Multiple400(y);
    }
    if y % 100 == 0 {
      Multiple100(y);
    }
  }

  lemma Multiple400(y: int)
    requires y % 400 == 0
    ensures y % 100 == 0
  {
    var k := y / 400;
    assert y == 100 * (4 * k);
  }

  lemma Multiple100(y: int)
    requires y % 100 == 0
    ensures y % 4 == 0
  {
    var k := y / 100;
    assert y == 4 * (25 * k);
  }

  lemma {:induction false} DaysBeforeYearMonotone(y1: int, y2: int)
    requires y1 < y2
    ensures DaysBeforeYear(y1) + DaysInYear(y1) <= DaysBeforeYear(y2)
    decreases y2 - y1
  {
    DaysBeforeYearStep(y1);
    if y1 + 1 < y2 {
      DaysBeforeYearMonotone(y1 + 1, y2);
    }
  }

  lemma DaysBeforeMonthStep(y: int, m: int)
    requires 1 <= m < 12
    ensures DaysBeforeMonth(y, m + 1) == DaysBeforeMonth(y, m) + DaysInMonth(y, m)
  {
  }

  lemma {:induction false} DaysBeforeMonthMonotone(y: int, m1: int, m2: int)
    requires 1 <= m1 < m2 <= 12
    ensures DaysBeforeMonth(y, m1) + DaysInMonth(y, m1) <= DaysBeforeMonth(y, m2)
    decreases m2 - m1
  {
    DaysBeforeMonthStep(y, m1);
    if m1 + 1 < m2 {
      DaysBeforeMonthMonotone(y, m1 + 1, m2);
    }
  }

  /** A date's ordinal is at most the last ordinal of its year. */
  lemma OrdinalWithinYear(d: Date)
    requires Valid(d)
    ensures Ordinal(d) <= DaysBeforeYear(d.year) + DaysInYear(d.year)
  {
    if d.month < 12 {
      DaysBeforeMonthMonotone(d.year, d.month, 12);
    }
  }

  /** Comparing dates is comparing their ordinals. */
  lemma OrdinalOrder(a: Date, b: Date)
    requires Valid(a) && Valid(b)
    ensures Le(a, b) <==> Ordinal(a) <= Ordinal(b)
    ensures a == b <==> Ordinal(a) == Ordinal(b)
  {
    if a.year < b.year {
      OrdinalWithinYear(a);
      DaysBeforeYearMonotone(a.year, b.year);
    } else if b.year < a.year {
      OrdinalWithinYear(b);
      DaysBeforeYearMonotone(b.year, a.year);
    } else if a.month < b.month {
      DaysBeforeMonthMonotone(a.year, a.month, b.month);
    } else if b.month < a.month {
      DaysBeforeMonthMonotone(a.year, b.month, a.month);
    }
  }

  /** `d + timedelta(days=1)` */
  function NextDay(d: Date): (r: Date)
    requires Valid(d)
    ensures Valid(r)
    ensures Ordinal(r) == Ordinal(d) + 1
  {
    if d.day < DaysInMonth(d.year, d.month) then Date(d.year, d.month, d.day + 1)
    else if d.month < 12 then
      DaysBeforeMonthStep(d.year, d.month);
      Date(d.year, d.month + 1, 1)
    else
      DaysBeforeYearStep(d.year);
      Date(d.year + 1, 1, 1)
  }

  /** `d - timedelta(days=1)`; Python raises `OverflowError` before year 1. */
  function PrevDay(d: Date): (r: Date)
    requires Valid(d) && Ordinal(d) > 1
    ensures Valid(r)
    ensures Ordinal(r) == Ordinal(d) - 1
  {
    if d.day > 1 then Date(d.year, d.month, d.day - 1)
    else if d.month > 1 then
      DaysBeforeMonthStep(d.year, d.month - 1);
      Date(d.year, d.month - 1, DaysInMonth(d.year, d.month - 1))
    else
      assert d.year > 1;
      DaysBeforeYearStep(d.year - 1);
      Date(d.year - 1, 12, 31)
  }

  /** `d + timedelta(days=k)` */
  function AddDays(d: Date, k: int): (r: Date)
    requires Valid(d) && Ordinal(d) + k >= 1
    ensures Valid(r)
    ensures Ordinal(r) == Ordinal(d) + k
    decreases if k < 0 then -k else k
  {
    if k == 0 then d
    else if k > 0 then AddDays(NextDay(d), k - 1)
    else AddDays(PrevDay(d), k + 1)
  }

  /** `d.weekday()`: Monday is 0 and Sunday is 6. */
  function Weekday(d: Date): (w: int)
    requires Valid(d)
    ensures 0 <= w < 7
  {
    (Ordinal(d) + 6) % 7
  }

  /** `(b - a).days` */
  function DaysBetween(a: Date, b: Date): int
    requires Valid(a) && Valid(b)
  {
    Ordinal(b) - Ordinal(a)
  }

  /** 1970-01-01, the origin of pandas' nanosecond timestamps. */
  const Epoch := Date(1970, 1, 1)

  /** A day whose midnight pandas can hold as a nanosecond timestamp: from
      1677-09-22 to 2262-04-11 (`Timestamp.min` and `Timestamp.max` fall
      on the two neighbouring days). */
  predicate InNsRange(d: Date) {
    Valid(d) && Le(Date(1677, 9, 22), d) && Le(d, Date(2262, 4, 11))
  }

  /** The range by ordinal: 1970-01-01 is day 719163, the first day of
      the range is 106751 days before it and the last 106751 days after. */
  lemma NsRangeOrdinal(d: Date)
    requires Valid(d)
    ensures Ordinal(Epoch) == 719163
    ensures InNsRange(d) <==> Ordinal(Epoch) - 106751 <= Ordinal(d) <= Ordinal(Epoch) + 106751
  {
    assert Ordinal(Date(1677, 9, 22)) == 612412;
    assert Ordinal(Date(2262, 4, 11)) == 825914;
    OrdinalOrder(Date(1677, 9, 22), d);
    OrdinalOrder(d, Date(2262, 4, 11));
  }

  /** Two dates with the same ordinal are the same date. */
  lemma OrdinalInjective(a: Date, b: Date)
    requires Valid(a) && Valid(b) && Ordinal(a) == Ordinal(b)
    ensures a == b
  {
    OrdinalOrder(a, b);
  }

  function DigitValue(c: char): int {
    c as int - '0' as int
  }

  predicate AllDigits(s: string) {
    forall i :: 0 <= i < |s| ==> '0' <= s[i] <= '9'
  }

  function DigitsValue(s: string): (n: nat)
    requires AllDigits(s)
  {
    if |s| == 0 then 0 else DigitsValue(s[..|s| - 1]) * 10 + DigitValue(s[|s| - 1])
  }

  function Pow10(k: nat): (r: nat)
    ensures r >= 1
  {
    if k == 0 then 1 else 10 * Pow10(k - 1)
  }

  /** `date.fromisoformat(s)` for the `YYYY-MM-DD` form; `None` where Python
      raises `ValueError`. */
  function ParseIso(s: string): (r: Option<Date>)
    ensures r.Some? ==> Valid(r.value)
    ensures r.Some? ==> |s| == 10 && s[4] == '-' && s[7] == '-'
    ensures r.Some? ==> r.value.year < 10000 && IsoFormat(r.value) == s
  {
    if |s| == 10 && s[4] == '-' && s[7] == '-'
       && AllDigits(s[..4]) && AllDigits(s[5..7]) && AllDigits(s[8..])
    then
      IsoFieldsPadded(s);
      var d := Date(DigitsValue(s[..4]), DigitsValue(s[5..7]), DigitsValue(s[8..]));
      if Valid(d) then Some(d) else None
    else None
  }

  /** `d.isoformat()` */
  function IsoFormat(d: Date): string
    requires Valid(d)
  {
    Text.ZeroPad(d.year, 4) + "-" + Text.ZeroPad(d.month, 2) + "-" + Text.ZeroPad(d.day, 2)
  }

  /** A date with a four-digit year prints and reads back as itself. */
  lemma ParseIsoFormat(d: Date)
    requires Valid(d) && d.year < 10000
    ensures ParseIso(IsoFormat(d)) == Some(d)
  {
    assert Pow10(2) == 100 && Pow10(4) == 10000;
    PadDigits(d.year, 4);
    PadDigits(d.month, 2);
    PadDigits(d.day, 2);
    IsoFormatFields(d);
  }

  lemma IsoFormatFields(d: Date)
    requires Valid(d)
    requires |Text.ZeroPad(d.year, 4)| == 4 && |Text.ZeroPad(d.month, 2)| == 2 && |Text.ZeroPad(d.day, 2)| == 2
    ensures var s := IsoFormat(d);
            |s| == 10 && s[4] == '-' && s[7] == '-'
            && s[..4] == Text.ZeroPad(d.year, 4) && s[5..7] == Text.ZeroPad(d.month, 2)
            && s[8..] == Text.ZeroPad(d.day, 2)
  {
  }

  /** The fields of an accepted text are already in printed form. */
  lemma IsoFieldsPadded(s: string)
    requires |s| == 10 && AllDigits(s[..4]) && AllDigits(s[5..7]) && AllDigits(s[8..])
    requires s[4] == '-' && s[7] == '-'
    ensures DigitsValue(s[..4]) < 10000
    ensures Text.ZeroPad(DigitsValue(s[..4]), 4) + "-" + Text.ZeroPad(DigitsValue(s[5..7]), 2)
            + "-" + Text.ZeroPad(DigitsValue(s[8..]), 2) == s
  {
    PaddedOfDigits(s[..4]);
    PaddedOfDigits(s[5..7]);
    PaddedOfDigits(s[8..]);
    DigitsBound(s[..4]);
    assert Pow10(4) == 10000;
    assert s == s[..4] + "-" + s[5..7] + "-" + s[8..];
  }

  lemma {:induction false} DigitsBound(s: string)
    requires AllDigits(s)
    ensures DigitsValue(s) < Pow10(|s|)
  {
    if |s| > 0 {
      DigitsBound(s[..|s| - 1]);
    }
  }

  /** Padding to `width` one more place adds the last digit. */
  lemma ZeroPadStep(n: nat, width: nat)
    requires width >= 1
    ensures Text.ZeroPad(n, width + 1) == Text.ZeroPad(n / 10, width) + [Text.DigitChar(n % 10)]
  {
    var digits := Text.NatToString(n);
    if n < 10 {
      assert Text.NatToString(n / 10) == "0";
      assert Text.ZeroPad(n / 10, width) == seq(width - 1, _ => '0') + "0";
      assert seq(width, _ => '0') == seq(width - 1, _ => '0') + "0";
    } else {
      var head := Text.NatToString(n / 10);
      assert digits == head + [Text.DigitChar(n % 10)];
      if |head| < width {
        var zeros := seq(width - |head|, _ => '0');
        assert seq(width + 1 - |digits|, _ => '0') == zeros;
      }
    }
  }

  /** A digit text is the padded print of its value at its own width. */
  lemma {:induction false} PaddedOfDigits(s: string)
    requires |s| >= 1 && AllDigits(s)
    ensures Text.ZeroPad(DigitsValue(s), |s|) == s
  {
    var n := DigitsValue(s);
    var c := s[|s| - 1];
    var init := s[..|s| - 1];
    LastDigit(s);
    if |s| == 1 {
      assert init == [];
      assert Text.NatToString(n) == [Text.DigitChar(n)];
      assert s == [c];
    } else {
      PaddedOfDigits(init);
      ZeroPadStep(n, |init|);
      assert s == init + [c];
    }
  }

  /** The value of a digit text, split at its last digit. */
  lemma LastDigit(s: string)
    requires |s| >= 1 && AllDigits(s)
    ensures DigitsValue(s) / 10 == DigitsValue(s[..|s| - 1])
    ensures DigitsValue(s) % 10 == DigitValue(s[|s| - 1])
    ensures Text.DigitChar(DigitsValue(s) % 10) == s[|s| - 1]
  {
    var q := DigitsValue(s[..|s| - 1]);
    var d := DigitValue(s[|s| - 1]);
    assert 0 <= d < 10;
    assert DigitsValue(s) == q * 10 + d;
  }

  /** A number below `10^width` pads to exactly `width` digits that read
      back as the number. */
  lemma {:induction false} PadDigits(n: nat, width: nat)
    requires width >= 1 && n < Pow10(width)
    ensures |Text.ZeroPad(n, width)| == width
    ensures AllDigits(Text.ZeroPad(n, width))
    ensures DigitsValue(Text.ZeroPad(n, width)) == n
  {
    if width == 1 {
      SingleDigit(n);
    } else {
      assert Pow10(width) == 10 * Pow10(width - 1);
      DivTen(n, Pow10(width - 1));
      PadDigits(n / 10, width - 1);
      PadAppend(n, width - 1);
    }
  }

  lemma PadAppend(n: nat, width: nat)
    requires width >= 1
    requires |Text.ZeroPad(n / 10, width)| == width && AllDigits(Text.ZeroPad(n / 10, width))
    requires DigitsValue(Text.ZeroPad(n / 10, width)) == n / 10
    ensures |Text.ZeroPad(n, width + 1)| == width + 1
    ensures AllDigits(Text.ZeroPad(n, width + 1))
    ensures DigitsValue(Text.ZeroPad(n, width + 1)) == n
  {
    ZeroPadStep(n, width);
    AppendDigit(Text.ZeroPad(n / 10, width), n % 10);
    DivTen(n, n + 1);
  }

  lemma DivTen(n: nat, p: nat)
    requires n < 10 * p
    ensures n / 10 < p && n == n / 10 * 10 + n % 10
  {
  }

  lemma SingleDigit(n: nat)
    requires n < 10
    ensures Text.ZeroPad(n, 1) == [Text.DigitChar(n)]
    ensures AllDigits(Text.ZeroPad(n, 1))
    ensures DigitsValue(Text.ZeroPad(n, 1)) == n
  {
    var r := [Text.DigitChar(n)];
    assert Text.NatToString(n) == r;
    assert r[..0] == [];
  }

  /** Appending a digit multiplies by ten and adds it. */
  lemma AppendDigit(s: string, d: nat)
    requires AllDigits(s) && d < 10
    ensures AllDigits(s + [Text.DigitChar(d)])
    ensures DigitsValue(s + [Text.DigitChar(d)]) == DigitsValue(s) * 10 + d
  {
    var r := s + [Text.DigitChar(d)];
    assert r[..|r| - 1] == s;
  }
}

=== FILE: cells.dfy ===
/** The loosely-typed values the program reads: spreadsheet cells fetched
    from the store, configuration values and session values. */
module Cells {
  import opened Common
  import Text
  import Calendar

  /** One value. `Absent` is Python's `None` in a mapping and pandas' `NaN`
      in a frame cell. A number carries the text Python's `str()` prints for
      it (`"5"` for an int, `"5.0"` for a float). */
  datatype Cell =
    | Absent
    | Str(s: string)
    | Num(n: real, text: string)
    | Bool(b: bool)
    | Day(date: Calendar.Date)
    | List(items: seq<Cell>)
    | Dict(entries: seq<Entry>)

  /** One key of a mapping value, in insertion order. */
  datatype Entry = Entry(key: string, value: Cell)

  /** `pd.isna(v)` for a scalar. */
  predicate IsNA(c: Cell) {
    c.Absent?
  }

  /** `bool(v)`, reading `Absent` as `None`. */
  predicate Truthy(c: Cell) {
    match c
    case Absent => false
    case Str(s) => |s| > 0
    case Num(n, _) => n != 0.0
    case Bool(b) => b
    case Day(_) => true
    case List(items) => |items| > 0
    case Dict(entries) => |entries| > 0
  }

  function BoolText(b: bool): string {
    if b then "True" else "False"
  }

  function IntText(n: int): string {
    if n >= 0 then Text.NatToString(n) else Text.IntToString(n)
  }

  /** `repr(v)`, the form a value takes inside a printed list or dict.
      Quotes inside strings are not escaped. */
  function Repr(c: Cell): string {
    match c
    case Absent => "None"
    case Str(s) => "'" + s + "'"
    case Num(_, text) => text
    case Bool(b) => BoolText(b)
    case Day(d) => "datetime.date(" + IntText(d.year) + ", " + IntText(d.month) + ", " + IntText(d.day) + ")"
    case List(items) => "[" + ReprItems(items) + "]"
    case Dict(entries) => "{" + ReprEntries(entries) + "}"
  }

  function ReprItems(items: seq<Cell>): string {
    if |items| == 0 then ""
    else if |items| == 1 then Repr(items[0])
    else Repr(items[0]) + ", " + ReprItems(items[1..])
  }

  function ReprEntries(entries: seq<Entry>): string {
    if |entries| == 0 then ""
    else
      var first := "'" + entries[0].key + "': " + Repr(entries[0].value);
      if |entries| == 1 then first else first + ", " + ReprEntries(entries[1..])
  }

  /** `str(v)` of a frame cell (`astype(str)`): a missing cell prints as
      `"nan"`. */
  function PyStr(c: Cell): string {
    match c
    case Absent => "nan"
    case Str(s) => s
    case Day(d) => if Calendar.Valid(d) then Calendar.IsoFormat(d) else Repr(c)
    case _ => Repr(c)
  }

  /** `str(v)` of a configuration value, where `Absent` is `None`. */
  function ConfigText(v: Cell): string {
    match v
    case Str(s) => s
    case Absent => "None"
    case Day(d) => if Calendar.Valid(d) then Calendar.IsoFormat(d) else Repr(v)
    case _ => Repr(v)
  }

  /** `mapping.get(key)` on a mapping value: the last entry with that key,
      as building a dict from its entries keeps the last one. */
  function Lookup(entries: seq<Entry>, key: string): (r: Option<Cell>)
    ensures r.Some? <==> exists i :: 0 <= i < |entries| && entries[i].key == key
    ensures r.Some? ==> exists i :: 0 <= i < |entries| && entries[i].key == key && entries[i].value == r.value
  {
    if |entries| == 0 then None
    else
      var last := entries[|entries| - 1];
      if last.key == key then Some(last.value) else Lookup(entries[..|entries| - 1], key)
  }

  /** `mapping.get(key)` with `None` for a missing key. */
  function Field(entries: seq<Entry>, key: string): Cell {
    match Lookup(entries, key)
    case Some(v) => v
    case None => Absent
  }

  // ---------------------------------------------------------------------
  // Numbers

  /** The longest prefix of decimal digits. */
  function TakeDigits(s: string): (d: string)
    ensures |d| <= |s| && d == s[..|d|]
    ensures Calendar.AllDigits(d)
    ensures |d| < |s| ==> !('0' <= s[|d|] <= '9')
  {
    if |s| == 0 || !('0' <= s[0] <= '9') then "" else [s[0]] + TakeDigits(s[1..])
  }

  /** The texts `float()` reads as an unsigned decimal: digits and at most
      one point, and not the point alone. */
  predicate UnsignedShape(t: string) {
    |t| > 0 && t != "."
    && (forall i :: 0 <= i < |t| ==> '0' <= t[i] <= '9' || t[i] == '.')
    && (forall i, j :: 0 <= i < j < |t| && t[i] == '.' ==> t[j] != '.')
  }

  /** The texts `float()` reads, once stripped: an optional sign and an
      unsigned decimal. */
  predicate NumberShape(t: string) {
    UnsignedShape(t) || (|t| > 0 && (t[0] == '-' || t[0] == '+') && UnsignedShape(t[1..]))
  }

  /** An unsigned decimal: digits with an optional fraction, or a fraction
      alone (`"12"`, `"12.5"`, `"12."`, `".5"`). */
  function ParseUnsigned(t: string): (r: Option<real>)
    ensures r.Some? ==> r.value >= 0.0
  {
    var whole := TakeDigits(t);
    var rest := t[|whole|..];
    if |rest| == 0 then
      if |whole| > 0 then Some(Calendar.DigitsValue(whole) as real) else None
    else if rest[0] == '.' && Calendar.AllDigits(rest[1..]) && (|whole| > 0 || |rest| > 1) then
      var frac := rest[1..];
      Some(Calendar.DigitsValue(whole) as real + Calendar.DigitsValue(frac) as real / Calendar.Pow10(|frac|) as real)
    else None
  }

  /** `float(s)` (and the text branch of `pd.to_numeric`): surrounding
      whitespace, an optional sign and an unsigned decimal. `None` where
      Python raises `ValueError`. */
  function ParseNumber(s: string): (r: Option<real>)
    ensures r.Some? ==> |Text.Strip(s)| > 0
  {
    var t := Text.Strip(s);
    if |t| > 0 && (t[0] == '-' || t[0] == '+') then
      match ParseUnsigned(t[1..])
      case Some(v) => Some(if t[0] == '-' then -v else v)
      case None => None
    else ParseUnsigned(t)
  }

  /** `float()` accepts exactly the texts of the decimal shape, once
      stripped. */
  lemma ParseNumberAccepts(s: string)
    ensures ParseNumber(s).Some? <==> NumberShape(Text.Strip(s))
  {
    var t := Text.Strip(s);
    UnsignedShapeIff(t);
    if |t| > 0 {
      UnsignedShapeIff(t[1..]);
      if t[0] == '-' || t[0] == '+' {
        assert !UnsignedShape(t);
      }
    }
  }

  /** The parser reads an unsigned decimal exactly when the text has its
      shape. */
  lemma UnsignedShapeIff(t: string)
    ensures ParseUnsigned(t).Some? <==> UnsignedShape(t)
  {
    if ParseUnsigned(t).Some? {
      ParsedHasShape(t);
    }
    if UnsignedShape(t) {
      ShapeIsParsed(t);
    }
  }

  lemma ParsedHasShape(t: string)
    requires ParseUnsigned(t).Some?
    ensures UnsignedShape(t)
  {
    var whole := TakeDigits(t);
    var n := |whole|;
    assert forall i :: 0 <= i < n ==> '0' <= t[i] <= '9';
    if n < |t| {
      var rest := t[n..];
      assert rest[0] == '.' && Calendar.AllDigits(rest[1..]);
      assert t[n] == '.';
      assert forall i :: n < i < |t| ==> t[i] == rest[1..][i - n - 1];
      assert t != ".";
    }
  }

  lemma ShapeIsParsed(t: string)
    requires UnsignedShape(t)
    ensures ParseUnsigned(t).Some?
  {
    var whole := TakeDigits(t);
    var n := |whole|;
    if n < |t| {
      var rest := t[n..];
      assert t[n] == '.';
      assert rest[0] == '.';
      forall i | 0 <= i < |rest[1..]|
        ensures '0' <= rest[1..][i] <= '9'
      {
        assert rest[1..][i] == t[n + 1 + i];
      }
    }
  }

  /** A sign in front of an unsigned decimal negates it or leaves it. */
  lemma ParseSigned(t: string)
    requires UnsignedShape(t)
    ensures ParseNumber(t) == ParseUnsigned(t) && ParseNumber(t).Some?
    ensures ParseNumber("-" + t) == Some(-ParseUnsigned(t).value)
    ensures ParseNumber("+" + t) == ParseUnsigned(t)
  {
    ShapeIsParsed(t);
    ParseUnsignedStripped(t);
    ParseSignStripped('-', t);
    ParseSignStripped('+', t);
  }

  lemma ParseUnsignedStripped(t: string)
    requires UnsignedShape(t)
    ensures ParseNumber(t) == ParseUnsigned(t)
  {
    assert !Text.IsSpace(t[0]) && !Text.IsSpace(t[|t| - 1]);
    ShapeStripped(t);
    assert t[0] != '-' && t[0] != '+';
  }

  lemma ParseSignStripped(sign: char, t: string)
    requires sign == '-' || sign == '+'
    requires UnsignedShape(t)
    ensures ParseNumber([sign] + t) ==
      match ParseUnsigned(t)
      case Some(v) => Some(if sign == '-' then -v else v)
      case None => None
  {
    var u := [sign] + t;
    assert u[0] == sign && u[|u| - 1] == t[|t| - 1];
    assert !Text.IsSpace(u[0]) && !Text.IsSpace(u[|u| - 1]);
    ShapeStripped(u);
    assert u[1..] == t;
  }

  lemma ShapeStripped(t: string)
    requires |t| > 0 && !Text.IsSpace(t[0]) && !Text.IsSpace(t[|t| - 1])
    ensures Text.Strip(t) == t
  {
    Text.TrimStartOfTrimmed(t);
    Text.TrimEndOfTrimmed(t);
  }

  lemma {:induction false} DigitsOfNat(n: nat)
    ensures Calendar.AllDigits(Text.NatToString(n))
    ensures Calendar.DigitsValue(Text.NatToString(n)) == n
  {
    var s := Text.NatToString(n);
    if n >= 10 {
      DigitsOfNat(n / 10);
      assert s[..|s| - 1] == Text.NatToString(n / 10);
    }
  }

  /** Printing a natural number and parsing it back gives the number. */
  lemma ParseNatText(n: nat)
    ensures ParseNumber(Text.NatToString(n)) == Some(n as real)
  {
    var s := Text.NatToString(n);
    DigitsOfNat(n);
    StripDigits(s);
    assert s[0] != '-' && s[0] != '+';
    UnsignedDigits(s);
  }

  lemma StripDigits(s: string)
    requires |s| > 0 && Calendar.AllDigits(s)
    ensures Text.Strip(s) == s
  {
    assert !Text.IsSpace(s[0]) && !Text.IsSpace(s[|s| - 1]);
    Text.TrimStartOfTrimmed(s);
    Text.TrimEndOfTrimmed(s);
  }

  lemma UnsignedDigits(s: string)
    requires |s| > 0 && Calendar.AllDigits(s)
    ensures ParseUnsigned(s) == Some(Calendar.DigitsValue(s) as real)
  {
    TakeAllDigits(s);
    assert s[|TakeDigits(s)|..] == [];
  }

  lemma {:induction false} TakeAllDigits(s: string)
    requires Calendar.AllDigits(s)
    ensures TakeDigits(s) == s
  {
    if |s| > 0 {
      TakeAllDigits(s[1..]);
    }
  }

  /** `pd.to_numeric(v, errors="coerce")` for one cell; `None` is `NaN`. */
  function ToNumeric(c: Cell): (r: Option<real>)
    ensures c.Num? ==> r == Some(c.n)
    ensures c.Absent? || c.List? || c.Dict? || c.Day? ==> r.None?
    ensures c.Bool? ==> r == Some(if c.b then 1.0 else 0.0)
    ensures c.Str? ==> r == ParseNumber(c.s)
  {
    match c
    case Num(n, _) => Some(n)
    case Bool(b) => Some(if b then 1.0 else 0.0)
    case Str(s) => ParseNumber(s)
    case _ => None
  }

  function Abs(x: real): (r: real)
    ensures r >= 0.0
    ensures r == x || r == -x
  {
    if x < 0.0 then -x else x
  }

  /** A mapping from record identifiers to values. */
  type IdMap = map<string, Cell>

  /** A mapping to display names, as an `IdMap`. */
  function TextMap(m: map<string, string>): (r: IdMap)
    ensures r.Keys == m.Keys
    ensures forall k :: k in r ==> r[k] == Str(m[k])
  {
    map k | k in m :: Str(m[k])
  }

  /** `mapping.get(v, v)` for one list element. */
  function MapItem(v: Cell, mapping: IdMap): Cell {
    if v.Str? && v.s in mapping then mapping[v.s] else v
  }

  /** The mapped elements of a list, as texts, if all are texts. */
  function MappedTexts(items: seq<Cell>, mapping: IdMap): (r: Option<seq<string>>)
    ensures r.Some? <==> forall i :: 0 <= i < |items| ==> MapItem(items[i], mapping).Str?
    ensures r.Some? ==> |r.value| == |items|
    ensures r.Some? ==> forall i :: 0 <= i < |items| ==> r.value[i] == MapItem(items[i], mapping).s
  {
    if |items| == 0 then Some([])
    else
      var head := MapItem(items[0], mapping);
      if !head.Str? then None
      else match MappedTexts(items[1..], mapping)
        case None => None
        case Some(rest) => Some([head.s] + rest)
  }

  /** `mapear_lista(valor, mapping)` (data_utils.py): a list becomes the
      `", "`-join of its mapped elements, a missing value becomes `""`, and a
      scalar becomes `mapping.get(v, v)`. `None` where Python raises
      `TypeError`: a list element that is not text once mapped (`join`) or a
      mapping value used as a key (unhashable). */
  function MapList(c: Cell, mapping: IdMap): (r: Option<Cell>)
    ensures c.Absent? ==> r == Some(Str(""))
    ensures c.Str? && c.s in mapping ==> r == Some(mapping[c.s])
    ensures c.Str? && c.s !in mapping ==> r == Some(c)
    ensures c.Num? || c.Bool? || c.Day? ==> r == Some(c)
    ensures c.Dict? ==> r.None?
    ensures c.List? ==> (r.Some? <==> forall i :: 0 <= i < |c.items| ==> MapItem(c.items[i], mapping).Str?)
    ensures c.List? && r.Some? ==> r.value.Str?
    ensures c.List? && |c.items| == 0 ==> r == Some(Str(""))
  {
    match c
    case List(items) =>
      (match MappedTexts(items, mapping)
       case Some(texts) => Some(Str(Text.Join(", ", texts)))
       case None => None)
    case Absent => Some(Str(""))
    case Dict(_) => None
    case Str(s) => Some(if s in mapping then mapping[s] else c)
    case _ => Some(c)
  }

  /** A one-element list reads like its element would as a scalar. */
  lemma MapListSingleton(v: Cell, mapping: IdMap)
    requires MapItem(v, mapping).Str?
    ensures MapList(List([v]), mapping) == Some(MapItem(v, mapping))
  {
    assert [v][1..] == [];
    assert MappedTexts([], mapping) == Some([]);
    assert [MapItem(v, mapping).s] + [] == [MapItem(v, mapping).s];
    assert MappedTexts([v], mapping) == Some([MapItem(v, mapping).s]);
  }

  lemma {:induction false} MappedTextsConcat(a: seq<Cell>, b: seq<Cell>, mapping: IdMap)
    ensures MappedTexts(a + b, mapping).Some? <==> MappedTexts(a, mapping).Some? && MappedTexts(b, mapping).Some?
    ensures MappedTexts(a + b, mapping).Some? ==>
      MappedTexts(a + b, mapping).value == MappedTexts(a, mapping).value + MappedTexts(b, mapping).value
  {
    if |a| > 0 {
      assert (a + b)[1..] == a[1..] + b;
      MappedTextsConcat(a[1..], b, mapping);
    } else {
      assert a + b == b;
    }
  }

  lemma {:induction false} JoinConcat(sep: string, x: seq<string>, y: seq<string>)
    requires |x| > 0 && |y| > 0
    ensures Text.Join(sep, x + y) == Text.Join(sep, x) + sep + Text.Join(sep, y)
  {
    if |x| == 1 {
      assert x + y == [x[0]] + y;
      assert (x + y)[1..] == y;
    } else {
      assert (x + y)[1..] == x[1..] + y;
      JoinConcat(sep, x[1..], y);
    }
  }

  /** Reading a concatenated list joins the readings of its two parts. */
  lemma MapListConcat(a: seq<Cell>, b: seq<Cell>, mapping: IdMap)
    requires |a| > 0 && |b| > 0
    requires MapList(List(a), mapping).Some? && MapList(List(b), mapping).Some?
    ensures MapList(List(a + b), mapping)
         == Some(Str(MapList(List(a), mapping).value.s + ", " + MapList(List(b), mapping).value.s))
  {
    MappedTextsConcat(a, b, mapping);
    JoinConcat(", ", MappedTexts(a, mapping).value, MappedTexts(b, mapping).value);
  }
}

=== FILE: columns.dfy ===
/** Finding a column by name: `escolher_coluna` (exact pass, then substring
    pass) and the keyword search of the dashboard page. */
module Columns {
  import opened Common
  import opened Text
  import opened Tables

  /** `name.lower().strip()` */
  function Key(name: string): string {
    Strip(Lower(name))
  }

  /** The keys of a list of names, position by position. */
  function Keys(names: seq<string>): (r: seq<string>)
    ensures |r| == |names|
    ensures forall j :: 0 <= j < |names| ==> r[j] == Key(names[j])
  {
    seq(|names|, j requires 0 <= j < |names| => Key(names[j]))
  }

  /** Some column normalises to the same key as `cand`. */
  ghost predicate ExactHit(cols: seq<string>, cand: string) {
    Key(cand) in Keys(cols)
  }

  /** Some column's key contains `cand`'s key. */
  ghost predicate SubstringHit(cols: seq<string>, cand: string) {
    exists j :: 0 <= j < |cols| && Contains(Keys(cols)[j], Key(cand))
  }

  /** `{col.lower().strip(): col for col in cols}[k]`: the position of the last
      key equal to `k`, since a later column with the same key replaces an
      earlier one in the dictionary. */
  function LastIndex(keys: seq<string>, k: string): (r: Option<nat>)
    ensures r.None? <==> k !in keys
    ensures r.Some? ==> r.value < |keys| && keys[r.value] == k
                        && forall l :: r.value < l < |keys| ==> keys[l] != k
  {
    if |keys| == 0 then None
    else if keys[|keys| - 1] == k then Some(|keys| - 1)
    else
      var r := LastIndex(keys[..|keys| - 1], k);
      assert keys == keys[..|keys| - 1] + [keys[|keys| - 1]];
      r
  }

  /** The first pass: the first candidate key that is a column key. */
  function ExactPass(keys: seq<string>, ckeys: seq<string>): (r: Option<nat>)
    ensures r.None? <==> forall i :: 0 <= i < |ckeys| ==> ckeys[i] !in keys
    ensures r.Some? ==> exists i :: 0 <= i < |ckeys| && r == LastIndex(keys, ckeys[i])
                          && forall h :: 0 <= h < i ==> ckeys[h] !in keys
  {
    if |ckeys| == 0 then None
    else if ckeys[0] in keys then LastIndex(keys, ckeys[0])
    else
      var r := ExactPass(keys, ckeys[1..]);
      assert forall i :: 1 <= i < |ckeys| ==> ckeys[i] == ckeys[1..][i - 1];
      r
  }

  /** The position of the first key containing `k`. */
  function FirstContaining(keys: seq<string>, k: string): (r: Option<nat>)
    ensures r.None? <==> forall j :: 0 <= j < |keys| ==> !Contains(keys[j], k)
    ensures r.Some? ==> r.value < |keys| && Contains(keys[r.value], k)
                        && forall l :: 0 <= l < r.value ==> !Contains(keys[l], k)
  {
    if |keys| == 0 then None
    else if Contains(keys[0], k) then Some(0)
    else
      match FirstContaining(keys[1..], k)
      case None => None
      case Some(j) => Some(j + 1)
  }

  /** The second pass: candidates in order, then columns in order. */
  function SubstringPass(keys: seq<string>, ckeys: seq<string>): (r: Option<nat>)
    ensures r.None? <==> forall i :: 0 <= i < |ckeys| ==> FirstContaining(keys, ckeys[i]).None?
    ensures r.Some? ==> exists i :: 0 <= i < |ckeys| && r == FirstContaining(keys, ckeys[i])
                          && forall h :: 0 <= h < i ==> FirstContaining(keys, ckeys[h]).None?
  {
    if |ckeys| == 0 then None
    else if FirstContaining(keys, ckeys[0]).Some? then FirstContaining(keys, ckeys[0])
    else
      var r := SubstringPass(keys, ckeys[1..]);
      assert forall i :: 1 <= i < |ckeys| ==> ckeys[i] == ckeys[1..][i - 1];
      r
  }

  /** Both passes over keys: the position of the chosen column. */
  function ChooseIndex(keys: seq<string>, ckeys: seq<string>): (r: Option<nat>)
    ensures r.Some? ==> r.value < |keys|
    ensures r.Some? <==> exists i :: 0 <= i < |ckeys| && (ckeys[i] in keys || FirstContaining(keys, ckeys[i]).Some?)
  {
    var exact := ExactPass(keys, ckeys);
    if exact.Some? then exact else SubstringPass(keys, ckeys)
  }

  lemma ExactIndexFirst(keys: seq<string>, ckeys: seq<string>, i: nat)
    requires i < |ckeys| && ckeys[i] in keys
    requires forall h :: 0 <= h < i ==> ckeys[h] !in keys
    ensures ChooseIndex(keys, ckeys) == LastIndex(keys, ckeys[i])
  {
    var i' :| 0 <= i' < |ckeys| && ExactPass(keys, ckeys) == LastIndex(keys, ckeys[i'])
              && forall h :: 0 <= h < i' ==> ckeys[h] !in keys;
  }

  lemma SubstringIndexFirst(keys: seq<string>, ckeys: seq<string>, i: nat)
    requires forall h :: 0 <= h < |ckeys| ==> ckeys[h] !in keys
    requires i < |ckeys| && FirstContaining(keys, ckeys[i]).Some?
    requires forall h :: 0 <= h < i ==> FirstContaining(keys, ckeys[h]).None?
    ensures ChooseIndex(keys, ckeys) == FirstContaining(keys, ckeys[i])
  {
    var i' :| 0 <= i' < |ckeys| && SubstringPass(keys, ckeys) == FirstContaining(keys, ckeys[i'])
              && forall h :: 0 <= h < i' ==> FirstContaining(keys, ckeys[h]).None?;
  }

  /** `escolher_coluna(df, candidates)` */
  function ChooseColumn(t: Table, cands: seq<string>): (r: Option<string>)
    ensures IsEmpty(t) ==> r.None?
    ensures r.Some? ==> r.value in t.columns
    ensures !IsEmpty(t) ==>
      (r.Some? <==> exists i :: 0 <= i < |cands| && (ExactHit(t.columns, cands[i]) || SubstringHit(t.columns, cands[i])))
  {
    if IsEmpty(t) then None
    else
      var keys := Keys(t.columns);
      var ckeys := Keys(cands);
      assert forall i :: 0 <= i < |cands| ==>
        (ExactHit(t.columns, cands[i]) <==> ckeys[i] in keys)
        && (SubstringHit(t.columns, cands[i]) <==> FirstContaining(keys, ckeys[i]).Some?);
      match ChooseIndex(keys, ckeys)
      case Some(j) => Some(t.columns[j])
      case None => None
  }

  /** The exact pass runs over every candidate before any substring match is
      tried: the first candidate with an exact match decides, even when an
      earlier candidate matches some column as a substring; and among columns
      with that key the last one is returned. */
  lemma ExactBeforeSubstring(t: Table, cands: seq<string>, i: nat)
    requires !IsEmpty(t)
    requires i < |cands| && ExactHit(t.columns, cands[i])
    requires forall h :: 0 <= h < i ==> !ExactHit(t.columns, cands[h])
    ensures LastIndex(Keys(t.columns), Key(cands[i])).Some?
    ensures ChooseColumn(t, cands) == Some(t.columns[LastIndex(Keys(t.columns), Key(cands[i])).value])
  {
    var ckeys := Keys(cands);
    assert forall h :: 0 <= h < i ==> ckeys[h] !in Keys(t.columns) by {
      forall h | 0 <= h < i
        ensures ckeys[h] !in Keys(t.columns)
      {
        assert !ExactHit(t.columns, cands[h]);
      }
    }
    ExactIndexFirst(Keys(t.columns), ckeys, i);
  }

  /** When no candidate matches exactly, the result is the first column
      containing the first candidate that any column contains. */
  lemma SubstringWhenNoExact(t: Table, cands: seq<string>, i: nat)
    requires !IsEmpty(t)
    requires forall h :: 0 <= h < |cands| ==> !ExactHit(t.columns, cands[h])
    requires i < |cands| && SubstringHit(t.columns, cands[i])
    requires forall h :: 0 <= h < i ==> !SubstringHit(t.columns, cands[h])
    ensures FirstContaining(Keys(t.columns), Key(cands[i])).Some?
    ensures ChooseColumn(t, cands) == Some(t.columns[FirstContaining(Keys(t.columns), Key(cands[i])).value])
  {
    var keys := Keys(t.columns);
    var ckeys := Keys(cands);
    assert forall h :: 0 <= h < |ckeys| ==> ckeys[h] !in keys by {
      forall h | 0 <= h < |ckeys|
        ensures ckeys[h] !in keys
      {
        assert !ExactHit(t.columns, cands[h]);
      }
    }
    assert forall h :: 0 <= h < i ==> FirstContaining(keys, ckeys[h]).None? by {
      forall h | 0 <= h < i
        ensures FirstContaining(keys, ckeys[h]).None?
      {
        assert !SubstringHit(t.columns, cands[h]);
      }
    }
    assert FirstContaining(keys, ckeys[i]).Some?;
    SubstringIndexFirst(keys, ckeys, i);
  }

  // ---------------------------------------------------------------------
  // Keyword search over normalised names

  /** Every token occurs in `name`. */
  predicate HasAll(name: string, tokens: seq<string>) {
    forall k :: 0 <= k < |tokens| ==> Contains(name, tokens[k])
  }

  /** `[norm(token) for token in keywords if token]` */
  function Tokens(keywords: seq<string>, norm: string -> string): (r: seq<string>)
    ensures |r| <= |keywords|
    ensures forall x :: x in r ==> exists k :: 0 <= k < |keywords| && keywords[k] != "" && x == norm(keywords[k])
    ensures (forall k :: 0 <= k < |keywords| ==> keywords[k] == "") <==> r == []
  {
    if |keywords| == 0 then []
    else
      var rest := Tokens(keywords[1..], norm);
      assert forall k :: 1 <= k < |keywords| ==> keywords[k] == keywords[1..][k - 1];
      if keywords[0] == "" then rest else [norm(keywords[0])] + rest
  }

  /** The first column whose normalised name holds every token. */
  function FirstWithAll(cols: seq<string>, tokens: seq<string>, norm: string -> string): (r: Option<string>)
    ensures r.None? <==> forall j :: 0 <= j < |cols| ==> !HasAll(norm(cols[j]), tokens)
    ensures r.Some? ==> exists j :: 0 <= j < |cols| && cols[j] == r.value && HasAll(norm(cols[j]), tokens)
                          && forall l :: 0 <= l < j ==> !HasAll(norm(cols[l]), tokens)
  {
    if |cols| == 0 then None
    else if HasAll(norm(cols[0]), tokens) then Some(cols[0])
    else
      var r := FirstWithAll(cols[1..], tokens, norm);
      assert forall j :: 1 <= j < |cols| ==> cols[j] == cols[1..][j - 1];
      r
  }

  /** The keyword group `g` picks a column: it has a token and some column
      holds all its tokens. */
  predicate GroupHit(cols: seq<string>, g: seq<string>, norm: string -> string) {
    Tokens(g, norm) != [] && FirstWithAll(cols, Tokens(g, norm), norm).Some?
  }

  /** Group `g` is the first one that picks a column. */
  predicate FirstGroup(cols: seq<string>, groups: seq<seq<string>>, norm: string -> string, g: nat) {
    g < |groups| && GroupHit(cols, groups[g], norm) && forall h :: 0 <= h < g ==> !GroupHit(cols, groups[h], norm)
  }

  function FirstGroupHit(cols: seq<string>, groups: seq<seq<string>>, norm: string -> string): (r: Option<string>)
    ensures r.None? <==> forall g :: 0 <= g < |groups| ==> !GroupHit(cols, groups[g], norm)
    ensures r.Some? ==> exists g: nat :: FirstGroup(cols, groups, norm, g)
                          && r == FirstWithAll(cols, Tokens(groups[g], norm), norm)
  {
    if |groups| == 0 then None
    else if GroupHit(cols, groups[0], norm) then
      assert FirstGroup(cols, groups, norm, 0);
      FirstWithAll(cols, Tokens(groups[0], norm), norm)
    else
      var r := FirstGroupHit(cols, groups[1..], norm);
      assert r.None? <==> forall g :: 0 <= g < |groups| ==> !GroupHit(cols, groups[g], norm) by {
        assert forall g :: 1 <= g < |groups| ==> groups[g] == groups[1..][g - 1];
      }
      assert r.Some? ==> exists g: nat :: FirstGroup(cols, groups, norm, g)
                           && r == FirstWithAll(cols, Tokens(groups[g], norm), norm) by {
        if r.Some? {
          var k: nat :| FirstGroup(cols, groups[1..], norm, k)
                        && r == FirstWithAll(cols, Tokens(groups[1..][k], norm), norm);
          ShiftFirstGroup(cols, groups, norm, k);
        }
      }
      r
  }

  /** Skipping a first group that picks nothing shifts the first one that
      does by one. */
  lemma ShiftFirstGroup(cols: seq<string>, groups: seq<seq<string>>, norm: string -> string, k: nat)
    requires |groups| > 0 && !GroupHit(cols, groups[0], norm) && FirstGroup(cols, groups[1..], norm, k)
    ensures FirstGroup(cols, groups, norm, k + 1) && groups[k + 1] == groups[1..][k]
  {
    forall h | 0 <= h < k + 1
      ensures !GroupHit(cols, groups[h], norm)
    {
      if h > 0 {
        assert groups[h] == groups[1..][h - 1];
      }
    }
  }

  /** `_find_column_keywords(df, groups)` with the text normaliser `norm`:
      groups in order, then columns in order; a group without non-empty
      keywords is skipped. */
  function FindColumnKeywords(t: Table, groups: seq<seq<string>>, norm: string -> string): (r: Option<string>)
    ensures IsEmpty(t) ==> r.None?
    ensures r.Some? ==> r.value in t.columns
    ensures r.Some? ==> exists g :: 0 <= g < |groups| && Tokens(groups[g], norm) != []
                          && HasAll(norm(r.value), Tokens(groups[g], norm))
    ensures !IsEmpty(t) && r.None? ==> forall g :: 0 <= g < |groups| ==> !GroupHit(t.columns, groups[g], norm)
  {
    if IsEmpty(t) then None else FirstGroupHit(t.columns, groups, norm)
  }
}

=== FILE: common.dfy ===
/** Failure-compatible option type shared by every module of the model. */
module Common {

  /** `None` stands for Python's `None` return (or for an exception, where a
      member documents it so). */
  datatype Option<+T> = None | Some(value: T) {

    predicate IsFailure() {
      None?
    }

    function PropagateFailure<U>(): Option<U>
      requires None?
    {
      None
    }

    function Extract(): T
      requires Some?
    {
      value
    }

    function GetOr(default: T): T {
      match this
      case Some(v) => v
      case None => default
    }
  }

  /** Keeps the elements of `xs` that are `Some`, in order. */
  function Somes<T>(xs: seq<Option<T>>): (r: seq<T>)
    ensures |r| <= |xs|
    ensures forall y :: y in r ==> Some(y) in xs
  {
    if |xs| == 0 then []
    else if xs[0].Some? then [xs[0].value] + Somes(xs[1..])
    else Somes(xs[1..])
  }

  /** Applies `f` to every element in order; `None` as soon as one
      application fails (an exception raised part way through `apply`). */
  function Traverse<A, B>(xs: seq<A>, f: A -> Option<B>): (r: Option<seq<B>>)
    ensures r.None? <==> exists i :: 0 <= i < |xs| && f(xs[i]).None?
    ensures r.Some? ==> |r.value| == |xs| && forall i :: 0 <= i < |xs| ==> f(xs[i]) == Some(r.value[i])
  {
    if |xs| == 0 then Some([])
    else
      match f(xs[0])
      case None => None
      case Some(y) =>
        var rest := Traverse(xs[1..], f);
        assert forall i :: 1 <= i < |xs| ==> xs[i] == xs[1..][i - 1];
        match rest
        case None => None
        case Some(ys) => Some([y] + ys)
  }

  /** Applies `f` to every element in order and keeps the results that are
      `Some` (a loop that skips the elements it cannot handle). */
  function FilterMap<A, B>(xs: seq<A>, f: A -> Option<B>): (r: seq<B>)
    ensures |r| <= |xs|
    ensures forall y :: y in r ==> exists i :: 0 <= i < |xs| && f(xs[i]) == Some(y)
    ensures forall i :: 0 <= i < |xs| && f(xs[i]).Some? ==> f(xs[i]).value in r
    ensures (forall i :: 0 <= i < |xs| ==> f(xs[i]).None?) ==> r == []
  {
    if |xs| == 0 then []
    else
      var rest := FilterMap(xs[1..], f);
      assert forall i :: 1 <= i < |xs| ==> xs[i] == xs[1..][i - 1];
      match f(xs[0])
      case Some(y) => [y] + rest
      case None => rest
  }

  /** The elements satisfying `p`, in order (a boolean mask). */
  function Filter<A(!new)>(xs: seq<A>, p: A -> bool): (r: seq<A>)
    ensures |r| <= |xs|
    ensures forall x :: x in r <==> x in xs && p(x)
  {
    if |xs| == 0 then []
    else
      var rest := Filter(xs[1..], p);
      assert forall x :: x in xs <==> x == xs[0] || x in xs[1..];
      if p(xs[0]) then [xs[0]] + rest else rest
  }

  /** Each element satisfying `p` is kept as often as it occurs, the
      others not at all. */
  lemma {:induction false} FilterCount<A(!new)>(xs: seq<A>, p: A -> bool, x: A)
    ensures multiset(Filter(xs, p))[x] == if p(x) then multiset(xs)[x] else 0
  {
    if |xs| > 0 {
      FilterCount(xs[1..], p, x);
      assert xs == [xs[0]] + xs[1..];
      assert multiset(xs) == multiset{xs[0]} + multiset(xs[1..]);
    }
  }

  /** FilterCount for every element at once. */
  lemma FilterCounts<A(!new)>(xs: seq<A>, p: A -> bool)
    ensures forall x :: multiset(Filter(xs, p))[x] == if p(x) then multiset(xs)[x] else 0
  {
    forall x {
      FilterCount(xs, p, x);
    }
  }

  /** Filtering keeps the order: it distributes over concatenation. */
  lemma {:induction false} FilterConcat<A(!new)>(xs: seq<A>, ys: seq<A>, p: A -> bool)
    ensures Filter(xs + ys, p) == Filter(xs, p) + Filter(ys, p)
  {
    if |xs| == 0 {
      assert xs + ys == ys;
    } else {
      var zs := xs + ys;
      assert zs[0] == xs[0];
      assert zs[1..] == xs[1..] + ys;
      FilterConcat(xs[1..], ys, p);
      var head := if p(xs[0]) then [xs[0]] else [];
      assert Filter(zs, p) == head + Filter(xs[1..], p) + Filter(ys, p);
      assert Filter(xs, p) == head + Filter(xs[1..], p);
    }
  }

  /** Filter-mapping keeps the order: it distributes over concatenation. */
  lemma {:induction false} FilterMapConcat<A, B>(xs: seq<A>, ys: seq<A>, f: A -> Option<B>)
    ensures FilterMap(xs + ys, f) == FilterMap(xs, f) + FilterMap(ys, f)
  {
    if |xs| == 0 {
      assert xs + ys == ys;
    } else {
      assert (xs + ys)[0] == xs[0];
      assert (xs + ys)[1..] == xs[1..] + ys;
      FilterMapConcat(xs[1..], ys, f);
    }
  }

  /** The elements `f` accepts. */
  function Defined<A, B>(f: A -> Option<B>): A -> bool {
    x => f(x).Some?
  }

  /** Filter-mapping is filtering the elements `f` accepts and taking each
      one's value: one result per accepted element, in order. */
  lemma {:induction false} FilterMapOfFilter<A(!new), B>(xs: seq<A>, f: A -> Option<B>)
    ensures |FilterMap(xs, f)| == |Filter(xs, Defined(f))|
    ensures forall i :: 0 <= i < |Filter(xs, Defined(f))| ==> f(Filter(xs, Defined(f))[i]) == Some(FilterMap(xs, f)[i])
  {
    if |xs| > 0 {
      FilterMapOfFilter(xs[1..], f);
      var a, b := FilterMap(xs[1..], f), Filter(xs[1..], Defined(f));
      if f(xs[0]).Some? {
        assert FilterMap(xs, f) == [f(xs[0]).value] + a;
        assert Filter(xs, Defined(f)) == [xs[0]] + b;
      } else {
        assert FilterMap(xs, f) == a;
        assert Filter(xs, Defined(f)) == b;
      }
    }
  }
}

=== FILE: contexts.dfy ===
/** The tenant context registry (airtable_config.py): credential blocks of
    the secrets turned into group/section contexts, looked up by key, and the
    session state that remembers the selected one. */
module Contexts {
  import opened Common
  import opened Text
  import opened Cells
  import opened Sorting

  /** The session key holding the selected context's key. */
  const SessionContextKey: string := "airtable_context_key"

  /** One group/section with its credentials. The identifier, slug, token
      and base id are configuration values passed through as they are. */
  datatype Context = Context(
    key: string, groupLabel: string, sectionLabel: string,
    groupId: Cell, sectionSlug: Cell, token: Cell, baseId: Cell,
    extras: map<string, string>)

  /** `ctx.extra(name, default)`: extras are keyed in upper case. */
  function Extra(ctx: Context, name: string, default: Option<string>): (r: Option<string>)
    ensures r.Some? && r != default ==> Upper(name) in ctx.extras
    ensures Upper(name) in ctx.extras ==> r == Some(ctx.extras[Upper(name)])
    ensures Upper(name) !in ctx.extras ==> r == default
  {
    if Upper(name) in ctx.extras then Some(ctx.extras[Upper(name)]) else default
  }

  /** Names that differ only in letter case read the same extra. */
  lemma ExtraIgnoresCase(ctx: Context, a: string, b: string, default: Option<string>)
    requires Upper(a) == Upper(b)
    ensures Extra(ctx, a, default) == Extra(ctx, b, default)
  {
  }

  // ---------------------------------------------------------------------
  // Labels

  /** `_slug_to_label`: dashes and underscores become spaces, each word is
      capitalised and the words are joined by single spaces; a slug without
      words falls back to `title()`. */
  function SlugToLabel(slug: string): (r: string)
    ensures Words(Replace(Replace(slug, '-', " "), '_', " ")) == [] ==> r == Title(slug)
    ensures |Words(Replace(Replace(slug, '-', " "), '_', " "))| > 0 ==>
              Words(r) == Capitalized(Words(Replace(Replace(slug, '-', " "), '_', " ")))
  {
    var parts := Words(Replace(Replace(slug, '-', " "), '_', " "));
    if |parts| > 0 then
      CapitalizedWords(parts);
      WordsOfJoin(Capitalized(parts));
      Join(" ", Capitalized(parts))
    else Title(slug)
  }

  function Capitalized(ws: seq<string>): (r: seq<string>)
    ensures |r| == |ws|
    ensures forall i :: 0 <= i < |ws| ==> r[i] == Capitalize(ws[i])
  {
    seq(|ws|, i requires 0 <= i < |ws| => Capitalize(ws[i]))
  }

  /** Capitalised words are still words. */
  lemma CapitalizedWords(ws: seq<string>)
    requires forall w :: w in ws ==> |w| > 0 && forall i :: 0 <= i < |w| ==> !IsSpace(w[i])
    ensures forall k :: 0 <= k < |ws| ==>
              |Capitalized(ws)[k]| > 0 && forall i :: 0 <= i < |Capitalized(ws)[k]| ==> !IsSpace(Capitalized(ws)[k][i])
  {
    forall k | 0 <= k < |ws|
      ensures |Capitalized(ws)[k]| > 0 && forall i :: 0 <= i < |Capitalized(ws)[k]| ==> !IsSpace(Capitalized(ws)[k][i])
    {
      assert ws[k] in ws;
      CapitalizeWord(ws[k]);
    }
  }

  /** A slug made only of separators and spaces has no words and comes back
      unchanged. */
  lemma SlugWithoutWords(slug: string)
    requires Words(Replace(Replace(slug, '-', " "), '_', " ")) == []
    ensures SlugToLabel(slug) == slug
  {
    WordsEmptyIffBlank(Replace(Replace(slug, '-', " "), '_', " "));
    SeparatorsUncased(slug);
    TitleOfUncased(slug, false);
  }

  /** The characters of a slug that is blank once its separators are spaces
      have no case. */
  lemma SeparatorsUncased(slug: string)
    requires IsBlank(Replace(Replace(slug, '-', " "), '_', " "))
    ensures forall i :: 0 <= i < |slug| ==> !IsCased(slug[i])
  {
    var twice := Replace(Replace(slug, '-', " "), '_', " ");
    BlankIffAllSpace(twice);
    SeparatorsKeepOthers(slug);
    OnlySpacesAndSeparators(slug, twice);
  }

  lemma SeparatorsKeepOthers(slug: string)
    ensures forall i :: 0 <= i < |slug| && slug[i] != '-' && slug[i] != '_' ==>
              slug[i] in Replace(Replace(slug, '-', " "), '_', " ")
  {
    forall i | 0 <= i < |slug| && slug[i] != '-' && slug[i] != '_'
      ensures slug[i] in Replace(Replace(slug, '-', " "), '_', " ")
    {
      ReplaceKeeps(slug, '-', " ", slug[i]);
      ReplaceKeeps(Replace(slug, '-', " "), '_', " ", slug[i]);
    }
  }

  lemma OnlySpacesAndSeparators(slug: string, spaces: string)
    requires forall j :: 0 <= j < |spaces| ==> IsSpace(spaces[j])
    requires forall i :: 0 <= i < |slug| && slug[i] != '-' && slug[i] != '_' ==> slug[i] in spaces
    ensures forall i :: 0 <= i < |slug| ==> !IsCased(slug[i])
  {
  }

  // ---------------------------------------------------------------------
  // Parsing one credential block

  /** The keys a block uses for itself; the rest are extras. */
  const Reserved: set<string> := {"AIRTABLE_TOKEN", "AIRTABLE_BASE_ID", "AGRUPAMENTO_ID", "SECAO_SLUG", "AGRUPAMENTO_LABEL", "SECAO_LABEL"}

  /** Entry `i` of a block is an extra stored under `k`. */
  predicate ExtraAt(entries: seq<Entry>, i: nat, k: string)
    requires i < |entries|
  {
    entries[i].key !in Reserved && Upper(entries[i].key) == k
  }

  /** Entry `i` is the last one stored under `k`. */
  predicate LastExtraAt(entries: seq<Entry>, i: nat, k: string)
    requires i < |entries|
  {
    ExtraAt(entries, i, k) && forall j :: i < j < |entries| ==> !ExtraAt(entries, j, k)
  }

  /** The extras of a block: every non-reserved key in upper case, with its
      value as text; a later key replaces an earlier one with the same upper
      case form. */
  function ExtrasOf(entries: seq<Entry>): (m: map<string, string>)
    ensures forall k :: k in m <==> exists i :: 0 <= i < |entries| && ExtraAt(entries, i, k)
  {
    if |entries| == 0 then map[]
    else
      var init := entries[..|entries| - 1];
      var m := ExtrasOf(init);
      var last := entries[|entries| - 1];
      assert forall i, k :: 0 <= i < |init| ==> (ExtraAt(init, i, k) <==> ExtraAt(entries, i, k));
      if last.key !in Reserved then
        assert ExtraAt(entries, |entries| - 1, Upper(last.key));
        m[Upper(last.key) := ConfigText(last.value)]
      else m
  }

  /** The extra stored under `k` is the value of the last entry stored
      there. */
  lemma {:induction false} ExtrasLastWins(entries: seq<Entry>, k: string, i: nat)
    requires i < |entries| && ExtraAt(entries, i, k)
    requires forall j :: i < j < |entries| ==> !ExtraAt(entries, j, k)
    ensures k in ExtrasOf(entries) && ExtrasOf(entries)[k] == ConfigText(entries[i].value)
  {
    if i < |entries| - 1 {
      var init := entries[..|entries| - 1];
      assert ExtraAt(init, i, k);
      forall j | i < j < |init|
        ensures !ExtraAt(init, j, k)
      {
        assert !ExtraAt(entries, j, k);
      }
      ExtrasLastWins(init, k, i);
      assert !ExtraAt(entries, |entries| - 1, k);
    }
  }

  /** Reading an extra of a parsed block: the text of the last entry whose
      upper-cased key is the upper-cased name, or the default when no entry
      is stored there. */
  lemma ExtraOfBlock(key: string, value: Cell, name: string, default: Option<string>)
    requires ParseBlock(key, value).Parsed?
    ensures forall i :: 0 <= i < |value.entries| && LastExtraAt(value.entries, i, Upper(name)) ==>
              Extra(ParseBlock(key, value).ctx, name, default) == Some(ConfigText(value.entries[i].value))
    ensures (forall i :: 0 <= i < |value.entries| ==> !ExtraAt(value.entries, i, Upper(name))) ==>
              Extra(ParseBlock(key, value).ctx, name, default) == default
  {
    forall i | 0 <= i < |value.entries| && LastExtraAt(value.entries, i, Upper(name))
      ensures Extra(ParseBlock(key, value).ctx, name, default) == Some(ConfigText(value.entries[i].value))
    {
      ExtrasLastWins(value.entries, Upper(name), i);
    }
  }

  /** The group identifier and section slug read from a key such as
      `airtable_<group>_<section...>`: with three or more parts, the second
      part and the rest joined by `_`; otherwise the last part for both (or
      "default" for the group of a key without `_`). */
  function DerivedIds(key: string): (r: (string, string))
    ensures |SplitOn(key, '_')| >= 3 ==>
              key == SplitOn(key, '_')[0] + "_" + r.0 + "_" + r.1 && '_' !in r.0
    ensures '_' in key && |SplitOn(key, '_')| < 3 ==>
              r.0 == r.1 && '_' !in r.1 && key == SplitOn(key, '_')[0] + "_" + r.1
    ensures '_' !in key ==> r == ("default", key)
  {
    var parts := SplitOn(key, '_');
    SplitOnParts(key, '_');
    JoinSplitOn(key, '_');
    if |parts| >= 3 then
      var r := (parts[1], Join("_", parts[2..]));
      assert parts == parts[..2] + parts[2..];
      Cells.JoinConcat("_", parts[..2], parts[2..]);
      assert Join("_", parts[..2]) == parts[0] + "_" + parts[1] by {
        assert parts[..2][1..] == [parts[1]];
      }
      assert parts[1] in parts;
      r
    else
      if |parts| > 1 then
        assert parts[1..] == [parts[1]];
        assert parts[1] in parts;
        (parts[1], parts[1])
      else
        ("default", parts[0])
  }

  /** DerivedIds takes apart what a key built from a group and a section
      puts together: the group must be one part, the section may hold `_`. */
  lemma DerivedIdsOfKey(prefix: string, group: string, section: string)
    requires '_' !in prefix && '_' !in group
    ensures DerivedIds(prefix + "_" + group + "_" + section) == (group, section)
  {
    var key := prefix + "_" + group + "_" + section;
    assert key == prefix + ['_'] + (group + ['_'] + section);
    SplitOnAfter(prefix, group + ['_'] + section, '_');
    SplitOnAfter(group, section, '_');
    var parts := SplitOn(key, '_');
    assert parts == [prefix, group] + SplitOn(section, '_');
    assert parts[2..] == SplitOn(section, '_');
    JoinSplitOn(section, '_');
  }

  /** What becomes of one block: skipped, raising (a label that is not text,
      or a label derived from an identifier that is not text), or parsed. */
  datatype Parse = Skipped | Raises | Parsed(ctx: Context)

  /** The block is a credential block: an `airtable_` key, a mapping value,
      and both a truthy token and a truthy base id. */
  predicate IsCredentialBlock(key: string, value: Cell) {
    StartsWith(key, "airtable_") && value.Dict?
    && Truthy(Field(value.entries, "AIRTABLE_TOKEN")) && Truthy(Field(value.entries, "AIRTABLE_BASE_ID"))
  }

  /** A label: the explicit value when truthy (it must be text), else the
      label derived from `id` (which must be text). */
  function Label(explicit: Cell, prefix: string, id: Cell): (r: Option<string>)
    ensures Truthy(explicit) ==> (r.Some? <==> explicit.Str?) && (r.Some? ==> r.value == explicit.s)
    ensures !Truthy(explicit) ==> (r.Some? <==> id.Str?) && (r.Some? ==> r.value == prefix + SlugToLabel(id.s))
  {
    if Truthy(explicit) then (if explicit.Str? then Some(explicit.s) else None)
    else if id.Str? then Some(prefix + SlugToLabel(id.s))
    else None
  }

  /** One iteration of the loop in `_contexts_cache`. */
  function ParseBlock(key: string, value: Cell): (r: Parse)
    ensures r.Skipped? <==> !IsCredentialBlock(key, value)
    ensures r.Parsed? ==> r.ctx.key == key
    ensures r.Parsed? ==> r.ctx.token == Field(value.entries, "AIRTABLE_TOKEN") && r.ctx.baseId == Field(value.entries, "AIRTABLE_BASE_ID")
    ensures r.Parsed? ==> r.ctx.extras == ExtrasOf(value.entries)
    ensures r.Parsed? && (Field(value.entries, "AGRUPAMENTO_ID").Absent? || Field(value.entries, "SECAO_SLUG").Absent?) ==>
              r.ctx.groupId == Str(DerivedIds(key).0) && r.ctx.sectionSlug == Str(DerivedIds(key).1)
    ensures r.Parsed? && !Field(value.entries, "AGRUPAMENTO_ID").Absent? && !Field(value.entries, "SECAO_SLUG").Absent? ==>
              r.ctx.groupId == Field(value.entries, "AGRUPAMENTO_ID") && r.ctx.sectionSlug == Field(value.entries, "SECAO_SLUG")
    ensures r.Parsed? ==> Some(r.ctx.groupLabel) == Label(Field(value.entries, "AGRUPAMENTO_LABEL"), "Agrupamento ", r.ctx.groupId)
    ensures r.Parsed? ==> Some(r.ctx.sectionLabel) == Label(Field(value.entries, "SECAO_LABEL"), "", r.ctx.sectionSlug)
    ensures IsCredentialBlock(key, value) && r.Raises? ==>
              match (if Field(value.entries, "AGRUPAMENTO_ID").Absent? || Field(value.entries, "SECAO_SLUG").Absent?
                     then (Str(DerivedIds(key).0), Str(DerivedIds(key).1))
                     else (Field(value.entries, "AGRUPAMENTO_ID"), Field(value.entries, "SECAO_SLUG")))
              case (id, slug) =>
                Label(Field(value.entries, "AGRUPAMENTO_LABEL"), "Agrupamento ", id).None?
                || Label(Field(value.entries, "SECAO_LABEL"), "", slug).None?
  {
    if !IsCredentialBlock(key, value) then Skipped
    else
      var entries := value.entries;
      var givenId := Field(entries, "AGRUPAMENTO_ID");
      var givenSlug := Field(entries, "SECAO_SLUG");
      var ids := if givenId.Absent? || givenSlug.Absent?
        then (Str(DerivedIds(key).0), Str(DerivedIds(key).1))
        else (givenId, givenSlug);
      match (Label(Field(entries, "AGRUPAMENTO_LABEL"), "Agrupamento ", ids.0), Label(Field(entries, "SECAO_LABEL"), "", ids.1))
      case (Some(group), Some(section)) =>
        Parsed(Context(key, group, section, ids.0, ids.1,
                       Field(entries, "AIRTABLE_TOKEN"), Field(entries, "AIRTABLE_BASE_ID"), ExtrasOf(entries)))
      case _ => Raises
  }

  // ---------------------------------------------------------------------
  // The registry

  /** The outcome of every block, in secrets order. */
  function Outcomes(pool: seq<Entry>): (r: seq<Parse>)
    ensures |r| == |pool|
    ensures forall i :: 0 <= i < |pool| ==> r[i] == ParseBlock(pool[i].key, pool[i].value)
  {
    seq(|pool|, i requires 0 <= i < |pool| => ParseBlock(pool[i].key, pool[i].value))
  }

  /** The parsed contexts in order, `None` if one outcome raises. */
  function Gather(os: seq<Parse>): (r: Option<seq<Context>>)
    ensures r.None? <==> exists i :: 0 <= i < |os| && os[i].Raises?
    ensures r.Some? ==> forall c :: c in r.value <==> exists i :: 0 <= i < |os| && os[i] == Parsed(c)
  {
    if |os| == 0 then Some([])
    else
      var rest := Gather(os[1..]);
      assert forall i :: 1 <= i < |os| ==> os[i] == os[1..][i - 1];
      match os[0]
      case Raises => None
      case Skipped => rest
      case Parsed(c) =>
        match rest
        case None => None
        case Some(cs) => Some([c] + cs)
  }

  /** The contexts of the blocks in secrets order, `None` if one raises. */
  function ParseAll(pool: seq<Entry>): (r: Option<seq<Context>>)
    ensures r.None? <==> exists i :: 0 <= i < |pool| && ParseBlock(pool[i].key, pool[i].value).Raises?
    ensures r.Some? ==> forall c :: c in r.value <==> exists i :: 0 <= i < |pool| && ParseBlock(pool[i].key, pool[i].value) == Parsed(c)
  {
    var os := Outcomes(pool);
    assert forall i :: 0 <= i < |pool| ==> os[i] == ParseBlock(pool[i].key, pool[i].value);
    Gather(os)
  }

  /** Python's `<=` on `(group label.lower(), section label.lower())`. */
  predicate LabelLe(a: Context, b: Context) {
    StrPairLe(Lower(a.groupLabel), Lower(a.sectionLabel), Lower(b.groupLabel), Lower(b.sectionLabel))
  }

  lemma LabelLeTotalPreorder()
    ensures TotalPreorder(LabelLe)
  {
    forall a, b
      ensures LabelLe(a, b) || LabelLe(b, a)
    {
      StrPairLeTotal(Lower(a.groupLabel), Lower(a.sectionLabel), Lower(b.groupLabel), Lower(b.sectionLabel));
    }
    forall a, b, c | LabelLe(a, b) && LabelLe(b, c)
      ensures LabelLe(a, c)
    {
      StrPairLeTransitive(Lower(a.groupLabel), Lower(a.sectionLabel), Lower(b.groupLabel), Lower(b.sectionLabel),
                          Lower(c.groupLabel), Lower(c.sectionLabel));
    }
  }

  /** `_contexts_cache()` over the secrets given as entries in order;
      `None` where Python raises. */
  function Registry(pool: seq<Entry>): (r: Option<seq<Context>>)
    ensures r.None? <==> ParseAll(pool).None?
    ensures r.Some? ==> multiset(r.value) == multiset(ParseAll(pool).value)
    ensures r.Some? ==> SortedBy(r.value, LabelLe)
  {
    var parsed :- ParseAll(pool);
    LabelLeTotalPreorder();
    SortSorted(parsed, LabelLe);
    Some(Sort(parsed, LabelLe))
  }

  /** A listed context comes from a credential block of the pool, and every
      credential block that parses is listed. */
  lemma RegistryMembers(pool: seq<Entry>, c: Context)
    requires Registry(pool).Some?
    ensures c in Registry(pool).value <==>
              exists i :: 0 <= i < |pool| && ParseBlock(pool[i].key, pool[i].value) == Parsed(c)
  {
    var r := Registry(pool).value;
    assert c in r <==> c in multiset(r);
    assert c in ParseAll(pool).value <==> c in multiset(ParseAll(pool).value);
  }

  /** `get_context_by_key`: the first listed context with that key. */
  function ByKey(ctxs: seq<Context>, key: string): (r: Option<Context>)
    ensures r.None? <==> forall i :: 0 <= i < |ctxs| ==> ctxs[i].key != key
    ensures r.Some? ==> r.value in ctxs && r.value.key == key
    ensures r.Some? ==> exists i :: 0 <= i < |ctxs| && ctxs[i] == r.value && forall j :: 0 <= j < i ==> ctxs[j].key != key
  {
    if |ctxs| == 0 then None
    else if ctxs[0].key == key then Some(ctxs[0])
    else
      var r := ByKey(ctxs[1..], key);
      assert forall i :: 1 <= i < |ctxs| ==> ctxs[i] == ctxs[1..][i - 1];
      r
  }

  /** The keys of a mapping are distinct. */
  predicate DistinctKeys(pool: seq<Entry>) {
    forall i, j :: 0 <= i < j < |pool| ==> pool[i].key != pool[j].key
  }

  /** Looking up a listed context's key finds that context; a key no block
      has finds nothing. */
  lemma ByKeyFindsListed(pool: seq<Entry>, c: Context)
    requires DistinctKeys(pool)
    requires Registry(pool).Some? && c in Registry(pool).value
    ensures ByKey(Registry(pool).value, c.key) == Some(c)
  {
    var r := Registry(pool).value;
    var found := ByKey(r, c.key);
    assert found.Some?;
    RegistryMembers(pool, c);
    RegistryMembers(pool, found.value);
    var i :| 0 <= i < |pool| && ParseBlock(pool[i].key, pool[i].value) == Parsed(c);
    var j :| 0 <= j < |pool| && ParseBlock(pool[j].key, pool[j].value) == Parsed(found.value);
    assert pool[i].key == c.key && pool[j].key == found.value.key;
    assert i == j;
  }

  lemma ByKeyUnknown(pool: seq<Entry>, key: string)
    requires Registry(pool).Some?
    requires forall i :: 0 <= i < |pool| ==> pool[i].key != key
    ensures ByKey(Registry(pool).value, key).None?
  {
    var r := Registry(pool).value;
    forall k | 0 <= k < |r|
      ensures r[k].key != key
    {
      RegistryMembers(pool, r[k]);
    }
  }

  /** Every listed context has an `airtable_` key, a truthy token and a
      truthy base id. */
  lemma ListedAreCredentials(pool: seq<Entry>, c: Context)
    requires Registry(pool).Some? && c in Registry(pool).value
    ensures StartsWith(c.key, "airtable_") && Truthy(c.token) && Truthy(c.baseId)
  {
    RegistryMembers(pool, c);
  }
}

=== FILE: home.dfy ===
/** Pure helpers of the treasury page (pages/home.py): category membership
    and quota-type detection. The keyword column search of the same page
    lives in the Columns module. */
module Home {
  import opened Common
  import opened Text
  import opened Cells

  // ---------------------------------------------------------------------
  // Category membership

  /** The normalised target: stripped and lower-cased. */
  function Target(target: string): string {
    Lower(Strip(target))
  }

  /** The comma-separated parts of a text, stripped and lower-cased, blank
      parts dropped. */
  function Parts(s: string): (r: seq<string>)
    ensures "" !in r
    ensures forall i :: 0 <= i < |SplitOn(s, ',')| && !IsBlank(SplitOn(s, ',')[i]) ==> Lower(Strip(SplitOn(s, ',')[i])) in r
  {
    PartsOfComplete(SplitOn(s, ','));
    PartsOf(SplitOn(s, ','))
  }

  function PartsOf(pieces: seq<string>): (r: seq<string>)
    ensures |r| <= |pieces|
    ensures "" !in r
  {
    if |pieces| == 0 then []
    else
      var rest := PartsOf(pieces[1..]);
      match PartOf(pieces[0])
      case None => rest
      case Some(p) => [p] + rest
  }

  /** Every non-blank piece has its normalised form among the parts. */
  lemma {:induction false} PartsOfComplete(pieces: seq<string>)
    ensures forall i :: 0 <= i < |pieces| && !IsBlank(pieces[i]) ==> Lower(Strip(pieces[i])) in PartsOf(pieces)
  {
    if |pieces| > 0 {
      PartsOfComplete(pieces[1..]);
      var r := PartsOf(pieces);
      var rest := PartsOf(pieces[1..]);
      assert forall x :: x in rest ==> x in r;
      forall i | 1 <= i < |pieces| && !IsBlank(pieces[i])
        ensures Lower(Strip(pieces[i])) in r
      {
        assert pieces[i] == pieces[1..][i - 1];
      }
    }
  }

  /** `p` is the normalised form of one of the non-blank pieces. */
  predicate NormalisedPiece(pieces: seq<string>, p: string) {
    exists i :: 0 <= i < |pieces| && !IsBlank(pieces[i]) && p == Lower(Strip(pieces[i]))
  }

  /** Every part of a text is the normalised form of one of its non-blank
      comma-separated pieces. */
  lemma PartsSound(s: string)
    ensures forall p :: p in Parts(s) ==> NormalisedPiece(SplitOn(s, ','), p)
  {
    var pieces := SplitOn(s, ',');
    assert Parts(s) == PartsOf(pieces);
    PartsOfSound(pieces);
  }

  /** Every part is the normalised form of some non-blank piece. */
  lemma {:induction false} PartsOfSound(pieces: seq<string>)
    ensures forall p :: p in PartsOf(pieces) ==> NormalisedPiece(pieces, p)
  {
    if |pieces| > 0 {
      PartsOfSound(pieces[1..]);
      forall p | p in PartsOf(pieces)
        ensures NormalisedPiece(pieces, p)
      {
        if p in PartsOf(pieces[1..]) {
          var j :| 0 <= j < |pieces[1..]| && !IsBlank(pieces[1..][j]) && p == Lower(Strip(pieces[1..][j]));
          assert pieces[1..][j] == pieces[j + 1];
        } else {
          assert !IsBlank(pieces[0]) && p == Lower(Strip(pieces[0]));
        }
      }
    }
  }

  /** One piece, stripped and lower-cased, unless blank. */
  function PartOf(piece: string): (r: Option<string>)
    ensures r.Some? <==> !IsBlank(piece)
    ensures r.Some? ==> r.value == Lower(Strip(piece)) && r.value != ""
  {
    if IsBlank(piece) then None
    else
      var p := Lower(Strip(piece));
      assert |p| > 0;
      Some(p)
  }

  /** `_pertence_categoria(value, target)` with the list case as intended:
      a missing value belongs nowhere, a text when one of its comma-separated
      parts is the target, a list when one of its elements belongs, anything
      else when its text is the target. Case and surrounding whitespace are
      ignored. */
  function Belongs(v: Cell, target: string): (r: bool)
    ensures v.Absent? ==> !r
    ensures v.Str? ==> (r <==> Target(target) in Parts(v.s))
    ensures v.List? ==> (r <==> exists i :: 0 <= i < |v.items| && Belongs(v.items[i], target))
    decreases v, 1
  {
    match v
    case Absent => false
    case Str(s) => Target(target) in Parts(s)
    case List(items) => AnyBelongs(items, target)
    case _ => Lower(Strip(ConfigText(v))) == Target(target)
  }

  function AnyBelongs(items: seq<Cell>, target: string): (r: bool)
    ensures r <==> exists i :: 0 <= i < |items| && Belongs(items[i], target)
    decreases items, 0
  {
    if |items| == 0 then false
    else
      var rest := AnyBelongs(items[1..], target);
      assert rest ==> exists i :: 0 <= i < |items| && Belongs(items[i], target) by {
        if rest {
          var j :| 0 <= j < |items[1..]| && Belongs(items[1..][j], target);
          assert items[1..][j] == items[j + 1];
        }
      }
      assert (exists i :: 0 <= i < |items| && Belongs(items[i], target)) ==> Belongs(items[0], target) || rest by {
        if exists i :: 0 <= i < |items| && Belongs(items[i], target) {
          var i :| 0 <= i < |items| && Belongs(items[i], target);
          if i > 0 {
            assert items[1..][i - 1] == items[i];
          }
        }
      }
      Belongs(items[0], target) || rest
  }

  /** A blank target matches no text: blank parts are dropped. */
  lemma BlankTargetMatchesNoText(s: string, target: string)
    requires IsBlank(target)
    ensures !Belongs(Str(s), target)
  {
    assert Target(target) == "";
  }

  /** The function as written: `pd.isna` of a list is an array, and testing
      an array of two or more elements in an `if` raises (`None` here). A
      one-element list is missing when its element is. */
  function BelongsAsWritten(v: Cell, target: string): (r: Option<bool>)
    ensures v.List? && |v.items| >= 2 ==> r.None?
    ensures !v.List? ==> r == Some(Belongs(v, target))
  {
    match v
    case List(items) =>
      if |items| >= 2 then None
      else if |items| == 1 && items[0].Absent? then Some(false)
      else Some(Belongs(v, target))
    case _ => Some(Belongs(v, target))
  }

  /** A multi-valued category raises instead of matching: a list of two
      categories, the first of which belongs (as `"Lanches"` belongs to
      `"lanches"`), belongs as intended but makes the function as written
      raise. */
  lemma TwoCategoriesRaise(first: Cell, second: Cell, target: string)
    requires Belongs(first, target)
    ensures BelongsAsWritten(List([first, second]), target).None?
    ensures Belongs(List([first, second]), target)
  {
    assert List([first, second]).items[0] == first;
  }

  /** A text without commas that is not blank has itself, normalised, as
      its only part, so it belongs to the target it spells. */
  lemma SinglePart(s: string, target: string)
    requires ',' !in s && !IsBlank(s)
    requires Target(target) == Lower(Strip(s))
    ensures Belongs(Str(s), target)
  {
    SplitWithoutSeparator(s, ',');
    assert SplitOn(s, ',')[0] == s;
  }

  lemma {:induction false} SplitWithoutSeparator(s: string, sep: char)
    requires sep !in s
    ensures SplitOn(s, sep) == [s]
  {
    if |s| > 0 {
      SplitWithoutSeparator(s[1..], sep);
      assert [s[0]] + s[1..] == s;
    }
  }

  /** Where the function as written answers, it answers as intended. */
  lemma BelongsAgrees(v: Cell, target: string)
    requires BelongsAsWritten(v, target).Some?
    ensures BelongsAsWritten(v, target).value == Belongs(v, target)
  {
    if v.List? && |v.items| == 1 && v.items[0].Absent? {
      assert !Belongs(v.items[0], target);
    }
  }

  // ---------------------------------------------------------------------
  // Quota type

  /** `_detectar_tipo(text)`: "mensal" when the normalised text mentions
      "mens", else "anual" when it mentions "anu", else nothing. The text
      normaliser (accent folding) is a parameter. */
  function DetectType(normalise: string -> string, text: string): (r: string)
    ensures r == "mensal" <==> Contains(normalise(text), "mens")
    ensures r == "anual" <==> !Contains(normalise(text), "mens") && Contains(normalise(text), "anu")
    ensures r == "" <==> !Contains(normalise(text), "mens") && !Contains(normalise(text), "anu")
  {
    var t := normalise(text);
    if Contains(t, "mens") then "mensal"
    else if Contains(t, "anu") then "anual"
    else ""
  }

  /** The type by position: a label in which "mens" occurs anywhere is
      monthly, even when "anu" occurs earlier; "anu" alone makes it yearly. */
  lemma DetectTypeAt(normalise: string -> string, text: string)
    ensures DetectType(normalise, text) == "mensal" <==> exists i :: OccursAt(normalise(text), "mens", i)
    ensures DetectType(normalise, text) == "anual" <==>
              (forall i :: !OccursAt(normalise(text), "mens", i)) && exists j :: OccursAt(normalise(text), "anu", j)
  {
    ContainsAt(normalise(text), "mens");
    ContainsAt(normalise(text), "anu");
  }
}

=== FILE: lanche.dfy ===
/** The personalised snack-form links (utils.py): one (name, link) pair per
    scout row that carries a pre-filled form link. */
module Lanche {
  import opened Common
  import opened Text
  import opened Cells
  import opened Tables

  const LinkColumn := "Pre_Field escolha semanal lanches"
  const NameColumns := ["Nome do Escuteiro", "Nome", "Escuteiro"]

  /** A link as shown: the scout's name and the stripped form address. */
  datatype Link = Link(name: string, url: string)

  /** `allowed_ids`: an empty sequence stands for `None` or an empty
      iterable, both of which apply no filter. */
  predicate Allowed(row: Row, allowed: seq<string>) {
    |allowed| == 0 || (Get(row, "id").Str? && Get(row, "id").s in allowed)
  }

  /** `isinstance(valor, str) and valor.strip()` */
  predicate Named(row: Row, col: string) {
    Get(row, col).Str? && !IsBlank(Get(row, col).s)
  }

  /** Column `i` is the first of `cols` holding a name. */
  predicate FirstNamed(row: Row, cols: seq<string>, i: nat) {
    i < |cols| && Named(row, cols[i]) && forall j :: 0 <= j < i ==> !Named(row, cols[j])
  }

  /** The first non-blank text among the name columns, stripped, else
      `str(id)`. */
  function NameFrom(row: Row, cols: seq<string>): (r: string)
    ensures (exists i :: 0 <= i < |cols| && Named(row, cols[i])) ==>
              exists i: nat :: FirstNamed(row, cols, i) && r == Strip(Get(row, cols[i]).s)
    ensures (forall i :: 0 <= i < |cols| ==> !Named(row, cols[i])) ==> r == PyStr(Get(row, "id"))
  {
    if |cols| == 0 then PyStr(Get(row, "id"))
    else if Named(row, cols[0]) then
      assert FirstNamed(row, cols, 0);
      Strip(Get(row, cols[0]).s)
    else
      var r := NameFrom(row, cols[1..]);
      assert (exists i :: 0 <= i < |cols| && Named(row, cols[i])) ==>
               exists i: nat :: FirstNamed(row, cols, i) && r == Strip(Get(row, cols[i]).s) by {
        if exists i :: 0 <= i < |cols| && Named(row, cols[i]) {
          var i :| 0 <= i < |cols| && Named(row, cols[i]);
          assert cols[1..][i - 1] == cols[i];
          var k: nat :| FirstNamed(row, cols[1..], k) && r == Strip(Get(row, cols[1..][k]).s);
          ShiftFirstNamed(row, cols, k);
        }
      }
      assert (forall i :: 0 <= i < |cols| ==> !Named(row, cols[i])) ==> r == PyStr(Get(row, "id")) by {
        if forall i :: 0 <= i < |cols| ==> !Named(row, cols[i]) {
          assert forall i :: 0 <= i < |cols[1..]| ==> cols[1..][i] == cols[i + 1];
        }
      }
      r
  }

  /** Skipping an unnamed first column shifts the first named one by one. */
  lemma ShiftFirstNamed(row: Row, cols: seq<string>, k: nat)
    requires |cols| > 0 && !Named(row, cols[0]) && FirstNamed(row, cols[1..], k)
    ensures FirstNamed(row, cols, k + 1) && cols[k + 1] == cols[1..][k]
  {
    forall j | 0 <= j < k + 1
      ensures !Named(row, cols[j])
    {
      if j > 0 {
        assert cols[j] == cols[1..][j - 1];
      }
    }
  }

  // ---------------------------------------------------------------------
  // As written

  /** `(url or "").strip()` for one value as written: a falsy value gives
      the empty text, a text is stripped, and any other truthy value has no
      `strip` (`None`, an `AttributeError`). In a frame a missing cell is
      `NaN`, which is truthy. */
  function StripOrRaise(v: Cell, nanIsTruthy: bool): (r: Option<string>)
    ensures v.Str? ==> r == Some(Strip(v.s))
    ensures v.Absent? ==> (r.None? <==> nanIsTruthy)
    ensures r.None? <==> (v.Absent? && nanIsTruthy) || (!v.Str? && !v.Absent? && Truthy(v))
  {
    match v
    case Str(s) => Some(Strip(s))
    case Absent => if nanIsTruthy then None else Some("")
    case _ => if Truthy(v) then None else Some("")
  }

  /** The link of one row as written: a list gives its first element (an
      empty list the empty text). `None` where the row raises. */
  function UrlAsWritten(row: Row): (r: Option<string>)
    ensures Get(row, LinkColumn).Absent? ==> r.None?
    ensures Get(row, LinkColumn).Str? ==> r == Some(Strip(Get(row, LinkColumn).s))
  {
    var v := Get(row, LinkColumn);
    if v.List? then
      if |v.items| == 0 then Some("") else StripOrRaise(v.items[0], false)
    else StripOrRaise(v, true)
  }

  /** One row as written: `None` where it raises, `Some(None)` where it is
      skipped. */
  function RowAsWritten(row: Row): (r: Option<Option<Link>>)
    ensures r.None? <==> UrlAsWritten(row).None?
    ensures r.Some? && r.value.Some? ==> r.value.value.url != "" && Some(r.value.value.url) == UrlAsWritten(row)
  {
    var url :- UrlAsWritten(row);
    if url == "" then Some(None) else Some(Some(Link(NameFrom(row, NameColumns), url)))
  }

  /** The rows the links are read from: nothing for a missing or empty
      frame or one without the id or link column, else the allowed rows,
      each as often as in the frame. */
  function Candidates(frame: Option<Table>, allowed: seq<string>): (r: seq<Row>)
    ensures frame.None? || IsEmpty(frame.value) || !HasColumn(frame.value, "id") || !HasColumn(frame.value, LinkColumn) ==> r == []
    ensures |r| > 0 ==> frame.Some? && HasColumn(frame.value, "id") && HasColumn(frame.value, LinkColumn)
    ensures forall row :: row in r <==> (frame.Some? && !IsEmpty(frame.value) && HasColumn(frame.value, "id") &&
              HasColumn(frame.value, LinkColumn) && row in frame.value.rows && Allowed(row, allowed))
    ensures forall row :: multiset(r)[row] ==
              if frame.Some? && !IsEmpty(frame.value) && HasColumn(frame.value, "id") && HasColumn(frame.value, LinkColumn)
                 && Allowed(row, allowed)
              then multiset(frame.value.rows)[row] else 0
  {
    if frame.None? || IsEmpty(frame.value) || !HasColumn(frame.value, "id") || !HasColumn(frame.value, LinkColumn) then []
    else Keep(frame.value.rows, allowed)
  }

  /** `Allowed` as a filter condition. */
  function AllowedBy(allowed: seq<string>): Row -> bool {
    row => Allowed(row, allowed)
  }

  /** `subset[subset["id"].isin(allowed)]`: the allowed rows, each as often
      as in `rows`, no other row. */
  function Keep(rows: seq<Row>, allowed: seq<string>): (r: seq<Row>)
    ensures |r| <= |rows|
    ensures forall row :: row in r <==> row in rows && Allowed(row, allowed)
    ensures forall row :: multiset(r)[row] == if Allowed(row, allowed) then multiset(rows)[row] else 0
  {
    FilterCounts(rows, AllowedBy(allowed));
    Filter(rows, AllowedBy(allowed))
  }

  /** Keep keeps the order of the rows: it distributes over concatenation. */
  lemma KeepConcat(xs: seq<Row>, ys: seq<Row>, allowed: seq<string>)
    ensures Keep(xs + ys, allowed) == Keep(xs, allowed) + Keep(ys, allowed)
  {
    FilterConcat(xs, ys, AllowedBy(allowed));
  }

  /** `get_personalized_lanche_links(frame, allowed_ids)` as written:
      `None` where a kept row raises. */
  function LinksAsWritten(frame: Option<Table>, allowed: seq<string>): (r: Option<seq<Link>>)
    ensures r.None? <==> exists row :: row in Candidates(frame, allowed) && UrlAsWritten(row).None?
    ensures r.Some? ==> forall l :: l in r.value ==> l.url != ""
  {
    var rows := Candidates(frame, allowed);
    var per :- Traverse(rows, RowAsWritten);
    assert forall o :: o in per ==> exists i :: 0 <= i < |rows| && RowAsWritten(rows[i]) == Some(o);
    Some(Somes(per))
  }

  /** A single allowed row whose link cell is missing: the frame is
      non-empty and has both columns, so the row is read, `NaN or ""` is
      `NaN`, and `NaN.strip()` raises instead of the row being skipped. */
  lemma MissingLinkRaises()
    ensures var row := map["id" := Str("rec1")];
            var t := Table(["id", LinkColumn], [row]);
            LinksAsWritten(Some(t), []).None? && Links(Some(t), []) == Some([])
  {
    var row := map["id" := Str("rec1")];
    var t := Table(["id", LinkColumn], [row]);
    assert Candidates(Some(t), []) == [row];
    assert UrlAsWritten(row).None?;
    assert RowLink(row).None?;
  }

  // ---------------------------------------------------------------------
  // Corrected: a row without a usable link is skipped

  /** The link text of one row: a text, or the first element of a list when
      it is a text, stripped; anything else has no link. */
  function Url(row: Row): (r: string)
    ensures Get(row, LinkColumn).Str? ==> r == Strip(Get(row, LinkColumn).s)
    ensures !Get(row, LinkColumn).Str? && !Get(row, LinkColumn).List? ==> r == ""
  {
    var v := Get(row, LinkColumn);
    if v.Str? then Strip(v.s)
    else if v.List? && |v.items| > 0 && v.items[0].Str? then Strip(v.items[0].s)
    else ""
  }

  /** The link of one row, `None` when it is skipped. */
  function RowLink(row: Row): (r: Option<Link>)
    ensures r.Some? <==> Url(row) != ""
    ensures r.Some? ==> r.value == Link(NameFrom(row, NameColumns), Url(row))
  {
    if Url(row) == "" then None else Some(Link(NameFrom(row, NameColumns), Url(row)))
  }

  /** The links, in row order: one per allowed row with a non-blank link,
      each with a non-empty address. The i-th link is the link of the i-th
      candidate row that has one. */
  function Links(frame: Option<Table>, allowed: seq<string>): (r: Option<seq<Link>>)
    ensures r.Some?
    ensures forall l :: l in r.value ==> l.url != ""
    ensures forall l :: l in r.value ==> exists row :: row in Candidates(frame, allowed) && RowLink(row) == Some(l)
    ensures forall row :: row in Candidates(frame, allowed) && Url(row) != "" ==> RowLink(row).value in r.value
    ensures |r.value| <= |Candidates(frame, allowed)|
    ensures |r.value| == |Filter(Candidates(frame, allowed), Defined(RowLink))|
    ensures forall i :: 0 <= i < |r.value| ==> RowLink(Filter(Candidates(frame, allowed), Defined(RowLink))[i]) == Some(r.value[i])
  {
    FilterMapOfFilter(Candidates(frame, allowed), RowLink);
    Some(FilterMap(Candidates(frame, allowed), RowLink))
  }

  /** Where the code as written returns, the corrected reading returns the
      same links: the correction only replaces the raise by a skip. */
  lemma {:induction false} CorrectedAgrees(rows: seq<Row>)
    requires Traverse(rows, RowAsWritten).Some?
    ensures Somes(Traverse(rows, RowAsWritten).value) == FilterMap(rows, RowLink)
  {
    if |rows| > 0 {
      RowAgrees(rows[0]);
      assert forall i :: 1 <= i < |rows| ==> rows[i] == rows[1..][i - 1];
      CorrectedAgrees(rows[1..]);
    }
  }

  lemma RowAgrees(row: Row)
    requires RowAsWritten(row).Some?
    ensures RowAsWritten(row).value == RowLink(row)
  {
  }

  /** The corrected links extend the links as written. */
  lemma LinksAgree(frame: Option<Table>, allowed: seq<string>)
    requires LinksAsWritten(frame, allowed).Some?
    ensures Links(frame, allowed) == LinksAsWritten(frame, allowed)
  {
    CorrectedAgrees(Candidates(frame, allowed));
  }

  /** A row with no name yields its id as the name. */
  lemma IdAsName(row: Row)
    requires forall c :: c in NameColumns ==> !Named(row, c)
    requires Url(row) != ""
    ensures RowLink(row) == Some(Link(PyStr(Get(row, "id")), Url(row)))
  {
    assert forall i :: 0 <= i < |NameColumns| ==> NameColumns[i] in NameColumns;
  }
}

=== FILE: money.dfy ===
/** Reading monetary amounts typed by people (pages/home.py): euro signs,
    quotes, spaces, and either the comma or the point as the decimal
    separator. */
module Money {
  import opened Common
  import opened Text
  import opened Cells
  import Calendar

  /** `str(v).strip().strip('"').replace("€", "")` */
  function Unquoted(s: string): string {
    Replace(StripChar(Strip(s), '"'), '€', "")
  }

  /** The separator rules, applied to a text without spaces: with both a
      comma and a point the points are deleted and the comma becomes the
      decimal point; a comma alone becomes the point. The first rule (several
      commas and no point: delete the points) deletes nothing. */
  function Separators(t: string): (r: string)
    ensures ',' !in r
    ensures ',' !in t ==> r == t
    ensures ',' in t && '.' !in t ==> r == Replace(t, ',', ".")
    ensures ',' in t && '.' in t ==> r == Replace(Replace(t, '.', ""), ',', ".")
  {
    var t2 := if Count(t, ',') > 1 && '.' !in t then Replace(t, '.', "") else t;
    if ',' in t2 && '.' in t2 then Replace(Replace(t2, '.', ""), ',', ".")
    else if ',' in t2 then Replace(t2, ',', ".")
    else t2
  }

  /** The text of an amount, ready for `float()`. */
  function Normalised(s: string): string {
    Separators(Replace(Unquoted(s), ' ', ""))
  }

  /** `_converter_valor_monetario(v)` and `_parse_valor(v)` (the two are the
      same): a list gives its first convertible element, a number itself, a
      missing value and an unreadable text nothing. */
  function Amount(v: Cell): (r: Option<real>)
    ensures v.Num? ==> r == Some(v.n)
    ensures v.Absent? ==> r.None?
    ensures v.Str? ==> r == ParseNumber(Normalised(v.s))
    ensures v.List? ==> r == FirstAmount(v.items)
  {
    match v
    case List(items) => FirstAmount(items)
    case Num(n, _) => Some(n)
    case Bool(b) => Some(if b then 1.0 else 0.0)
    case Absent => None
    case Str(s) => ParseNumber(Normalised(s))
    case _ => None
  }

  /** The first element of a list that converts. */
  function FirstAmount(items: seq<Cell>): (r: Option<real>)
    ensures r.None? <==> forall i :: 0 <= i < |items| ==> Amount(items[i]).None?
    ensures r.Some? ==> exists i :: 0 <= i < |items| && Amount(items[i]) == r && forall j :: 0 <= j < i ==> Amount(items[j]).None?
    decreases items
  {
    if |items| == 0 then None
    else
      var here := Amount(items[0]);
      if here.Some? then here
      else
        var r := FirstAmount(items[1..]);
        assert forall i :: 1 <= i < |items| ==> items[i] == items[1..][i - 1];
        r
  }

  /** `_to_float(v)`: like the conversion above for one value, with `0.0`
      for what does not convert, and a list gives the sum of its elements. */
  function ToFloat(v: Cell): (r: real)
    ensures !v.List? ==> r == Amount(v).GetOr(0.0)
    decreases v, 1
  {
    match v
    case List(items) => SumFloats(items)
    case Num(n, _) => n
    case Bool(b) => if b then 1.0 else 0.0
    case Absent => 0.0
    case Str(s) =>
      if IsBlank(s) || Unquoted(s) == "" then 0.0
      else ParseNumber(Normalised(s)).GetOr(0.0)
    case _ => 0.0
  }

  function SumFloats(items: seq<Cell>): real
    decreases items, 0
  {
    if |items| == 0 then 0.0 else ToFloat(items[0]) + SumFloats(items[1..])
  }

  /** The list sum adds up element by element. */
  lemma {:induction false} SumFloatsConcat(a: seq<Cell>, b: seq<Cell>)
    ensures SumFloats(a + b) == SumFloats(a) + SumFloats(b)
  {
    if |a| > 0 {
      assert (a + b)[1..] == a[1..] + b;
      SumFloatsConcat(a[1..], b);
    } else {
      assert a + b == b;
    }
  }

  // ---------------------------------------------------------------------
  // Replacing in concatenations

  lemma {:induction false} ReplaceConcat(a: string, b: string, c: char, repl: string)
    ensures Replace(a + b, c, repl) == Replace(a, c, repl) + Replace(b, c, repl)
  {
    if |a| > 0 {
      assert (a + b)[1..] == a[1..] + b;
      ReplaceConcat(a[1..], b, c, repl);
    } else {
      assert a + b == b;
    }
  }

  /** `w.f` for digit strings `w` and `f`, read as a decimal. */
  function Decimal(w: string, f: string): real
    requires Calendar.AllDigits(w) && Calendar.AllDigits(f)
  {
    Calendar.DigitsValue(w) as real + Calendar.DigitsValue(f) as real / Calendar.Pow10(|f|) as real
  }

  lemma {:induction false} TakeDigitsPrefix(w: string, rest: string)
    requires Calendar.AllDigits(w) && |rest| > 0 && !('0' <= rest[0] <= '9')
    ensures TakeDigits(w + rest) == w
  {
    if |w| > 0 {
      assert (w + rest)[1..] == w[1..] + rest;
      TakeDigitsPrefix(w[1..], rest);
    }
  }

  lemma UnsignedPoint(s: string, w: string, f: string)
    requires |w| > 0 && Calendar.AllDigits(w) && Calendar.AllDigits(f)
    requires TakeDigits(s) == w && s[|w|..] == "." + f
    ensures ParseUnsigned(s) == Some(Decimal(w, f))
  {
    var rest := s[|w|..];
    assert rest[1..] == f;
  }

  lemma NumberUnsigned(s: string)
    requires Strip(s) == s && |s| > 0 && s[0] != '-' && s[0] != '+'
    ensures ParseNumber(s) == ParseUnsigned(s)
  {
  }

  lemma PlainPoint(w: string, f: string)
    requires |w| > 0 && |f| > 0 && Calendar.AllDigits(w) && Calendar.AllDigits(f)
    ensures var s := w + "." + f;
            Strip(s) == s && |s| > 0 && s[0] != '-' && s[0] != '+' && TakeDigits(s) == w && s[|w|..] == "." + f
  {
    var s := w + "." + f;
    assert s[0] == w[0] && s[|s| - 1] == f[|f| - 1];
    Unspaced(s);
    assert TakeDigits(s) == w && s[|w|..] == "." + f by {
      assert s == w + ("." + f);
      TakeDigitsPrefix(w, "." + f);
    }
  }

  /** `float("w.f")` for digit strings. */
  lemma PointDecimal(w: string, f: string)
    requires |w| > 0 && |f| > 0 && Calendar.AllDigits(w) && Calendar.AllDigits(f)
    ensures ParseNumber(w + "." + f) == Some(Decimal(w, f))
  {
    var s := w + "." + f;
    PlainPoint(w, f);
    NumberUnsigned(s);
    UnsignedPoint(s, w, f);
  }

  lemma ReplaceOne(x: char, c: char, repl: string)
    ensures Replace([x], c, repl) == if x == c then repl else [x]
  {
    assert [x][1..] == [];
  }

  /** Replacing a character the text does not hold changes nothing, around
      one character that may be replaced. */
  lemma ReplaceAround(a: string, x: char, b: string, c: char, repl: string)
    requires c !in a && c !in b
    ensures Replace(a + [x] + b, c, repl) == a + (if x == c then repl else [x]) + b
  {
    ReplaceConcat(a + [x], b, c, repl);
    ReplaceConcat(a, [x], c, repl);
    ReplaceOne(x, c, repl);
  }

  lemma ReplaceLast(a: string, x: char, c: char, repl: string)
    requires c !in a
    ensures Replace(a + [x], c, repl) == a + (if x == c then repl else [x])
  {
    ReplaceConcat(a, [x], c, repl);
    ReplaceOne(x, c, repl);
  }

  /** A text with no space or quote at either end is left alone by the
      stripping steps. */
  lemma Untrimmed(s: string)
    requires |s| > 0 && !IsSpace(s[0]) && !IsSpace(s[|s| - 1]) && s[0] != '"' && s[|s| - 1] != '"'
    ensures StripChar(Strip(s), '"') == s
  {
    Unspaced(s);
  }

  /** A text with no space at either end is its own strip. */
  lemma Unspaced(s: string)
    requires |s| > 0 && !IsSpace(s[0]) && !IsSpace(s[|s| - 1])
    ensures Strip(s) == s
  {
    TrimStartOfTrimmed(s);
    TrimEndOfTrimmed(s);
  }

  /** A trailing ` €` is dropped from a text that holds neither a space
      nor the euro sign and starts with neither a space nor a quote. */
  lemma EuroSuffixCleaned(t: string)
    requires |t| > 0 && !IsSpace(t[0]) && t[0] != '"' && ' ' !in t && '€' !in t
    ensures Replace(Unquoted(t + " €"), ' ', "") == t
  {
    var s := (t + [' ']) + ['€'];
    assert s == t + " €";
    assert s[0] == t[0] && s[|s| - 1] == '€';
    Untrimmed(s);
    ReplaceLast(t + [' '], '€', '€', "");
    assert Unquoted(s) == t + [' '];
    ReplaceLast(t, ' ', ' ', "");
    assert Replace(Unquoted(s), ' ', "") == t;
  }

  lemma EuropeanCleaned(w: string, f: string)
    requires |w| > 0 && |f| > 0 && Calendar.AllDigits(w) && Calendar.AllDigits(f)
    ensures Replace(Unquoted(w + "," + f + " €"), ' ', "") == w + "," + f
  {
    var t := w + "," + f;
    assert ' ' !in t && '€' !in t by {
      NoCharInDigits(w, '€');
      NoCharInDigits(f, '€');
      NoCharInDigits(w, ' ');
      NoCharInDigits(f, ' ');
    }
    assert t[0] == w[0];
    EuroSuffixCleaned(t);
  }

  lemma CommaToPoint(w: string, f: string)
    requires Calendar.AllDigits(w) && Calendar.AllDigits(f)
    ensures Separators(w + "," + f) == w + "." + f
  {
    var t := w + "," + f;
    NoCharInDigits(w, '.');
    NoCharInDigits(f, '.');
    NoCharInDigits(w, ',');
    NoCharInDigits(f, ',');
    assert t == w + [','] + f;
    assert t[|w|] == ',';
    assert '.' !in t;
    ReplaceAround(w, ',', f, ',', ".");
  }

  lemma NoCharInDigits(w: string, c: char)
    requires Calendar.AllDigits(w) && !('0' <= c <= '9')
    ensures c !in w
  {
  }

  /** An amount written the European way, `w,f €`, reads as `w.f`. */
  lemma EuropeanAmount(w: string, f: string)
    requires |w| > 0 && |f| > 0 && Calendar.AllDigits(w) && Calendar.AllDigits(f)
    ensures Amount(Str(w + "," + f + " €")) == Some(Decimal(w, f))
  {
    EuropeanCleaned(w, f);
    CommaToPoint(w, f);
    PointDecimal(w, f);
  }

  lemma ThousandsCleaned(a: string, b: string, f: string)
    requires |a| > 0 && |f| > 0 && Calendar.AllDigits(a) && Calendar.AllDigits(b) && Calendar.AllDigits(f)
    ensures Replace(Unquoted(a + "." + b + "," + f), ' ', "") == a + "." + b + "," + f
  {
    var s := a + "." + b + "," + f;
    assert s[0] == a[0] && s[|s| - 1] == f[|f| - 1];
    Untrimmed(s);
    assert '€' !in s && ' ' !in s by {
      NoCharInDigits(a, '€');
      NoCharInDigits(b, '€');
      NoCharInDigits(f, '€');
      NoCharInDigits(a, ' ');
      NoCharInDigits(b, ' ');
      NoCharInDigits(f, ' ');
    }
  }

  lemma ThousandsSeparators(a: string, b: string, f: string)
    requires Calendar.AllDigits(a) && Calendar.AllDigits(b) && Calendar.AllDigits(f)
    ensures Separators(a + "." + b + "," + f) == a + b + "." + f
  {
    var s := a + "." + b + "," + f;
    NoCharInDigits(a, '.');
    NoCharInDigits(b, '.');
    NoCharInDigits(f, '.');
    NoCharInDigits(a, ',');
    NoCharInDigits(b, ',');
    NoCharInDigits(f, ',');
    assert s == a + ['.'] + (b + "," + f);
    assert s[|a|] == '.' && s[|a| + 1 + |b|] == ',';
    assert '.' !in b + "," + f;
    ReplaceAround(a, '.', b + "," + f, '.', "");
    var u := a + b + "," + f;
    assert Replace(s, '.', "") == u;
    assert u == (a + b) + [','] + f;
    ReplaceAround(a + b, ',', f, ',', ".");
  }

  /** With a thousands point and a decimal comma, `a.b,f`, the point is
      dropped and the comma read as the decimal point. */
  lemma ThousandsAmount(a: string, b: string, f: string)
    requires |a| > 0 && |f| > 0 && Calendar.AllDigits(a) && Calendar.AllDigits(b) && Calendar.AllDigits(f)
    ensures Amount(Str(a + "." + b + "," + f)) == Some(Decimal(a + b, f))
  {
    var s := a + "." + b + "," + f;
    assert Normalised(s) == a + b + "." + f by {
      ThousandsCleaned(a, b, f);
      ThousandsSeparators(a, b, f);
    }
    PointDecimal(a + b, f);
  }

  /** A list converts to its first convertible element and sums under
      `_to_float`: `["x", "2,5"]` is 2.5 either way. */
  lemma ListOfOne(v: Cell)
    requires !v.List?
    ensures ToFloat(List([v])) == Amount(List([v])).GetOr(0.0)
  {
    assert [v][1..] == [];
    assert SumFloats([v]) == ToFloat(v);
    assert FirstAmount([v]) == Amount(v);
  }
}

=== FILE: namemap.dfy ===
/** `construir_mapa_nomes_por_id`: an identifier-to-name map built from the
    text columns of every loaded table, ranked so that name-like columns are
    tried first; the first table and column to name an identifier wins. */
module NameMap {
  import opened Common
  import opened Text
  import opened Sorting
  import opened Cells
  import opened Tables

  type Names = map<string, string>

  /** Every name is stripped and non-blank. */
  predicate WellFormed(m: Names) {
    forall k :: k in m ==> m[k] != "" && Strip(m[k]) == m[k]
  }

  /** Nothing already in `m` is removed or changed in `m'`. */
  predicate Extends(m': Names, m: Names) {
    forall k :: k in m ==> k in m' && m'[k] == m[k]
  }

  /** `_score_coluna`: exact "nome"/"name" first, then names containing
      "nome", "name" or "email", then the rest. */
  function Score(col: string): (s: nat)
    ensures s <= 4
    ensures s == 0 <==> Lower(col) == "nome" || Lower(col) == "name"
    ensures s == 1 <==> s != 0 && Contains(Lower(col), "nome")
    ensures s == 2 <==> s != 0 && !Contains(Lower(col), "nome") && Contains(Lower(col), "name")
    ensures s == 3 <==> s != 0 && !Contains(Lower(col), "nome") && !Contains(Lower(col), "name") && Contains(Lower(col), "email")
    ensures s == 4 <==> s != 0 && !Contains(Lower(col), "nome") && !Contains(Lower(col), "name") && !Contains(Lower(col), "email")
  {
    var lower := Lower(col);
    if lower == "nome" || lower == "name" then 0
    else if Contains(lower, "nome") then 1
    else if Contains(lower, "name") then 2
    else if Contains(lower, "email") then 3
    else 4
  }

  /** Python's `<=` on the sort key `(score, lowercase name)`. */
  predicate RankLe(a: string, b: string) {
    Score(a) < Score(b) || (Score(a) == Score(b) && StrLe(Lower(a), Lower(b)))
  }

  lemma RankLeTotalPreorder()
    ensures TotalPreorder(RankLe)
  {
    forall a, b
      ensures RankLe(a, b) || RankLe(b, a)
    {
      StrLeTotal(Lower(a), Lower(b));
    }
    forall a, b, c | RankLe(a, b) && RankLe(b, c)
      ensures RankLe(a, c)
    {
      if Score(a) == Score(b) && Score(b) == Score(c) {
        StrLeTransitive(Lower(a), Lower(b), Lower(c));
      }
    }
  }

  /** The columns other than `id` whose dtype is `object` (text, lists and
      mixed values), in table order. */
  function TextColumns(t: Table, cols: seq<string>): (r: seq<string>)
    ensures forall c :: c in r <==> c in cols && c != "id" && ObjectColumn(t, c)
  {
    if |cols| == 0 then []
    else
      var rest := TextColumns(t, cols[1..]);
      if cols[0] != "id" && ObjectColumn(t, cols[0]) then [cols[0]] + rest else rest
  }

  /** The text columns of `t` in the order they are tried. */
  function Ranked(t: Table): (r: seq<string>)
    ensures multiset(r) == multiset(TextColumns(t, t.columns))
    ensures SortedBy(r, RankLe)
  {
    RankLeTotalPreorder();
    SortSorted(TextColumns(t, t.columns), RankLe);
    Sort(TextColumns(t, t.columns), RankLe)
  }

  /** The text of a non-missing cell: a list is `", "`-joined (`None` where
      an element is not text and `join` raises `TypeError`), anything else
      goes through `str()`. */
  function CellText(v: Cell): (r: Option<string>)
    ensures !v.List? ==> r == Some(PyStr(v))
  {
    if v.List? then
      match MapList(v, map[])
      case Some(c) => Some(c.s)
      case None => None
    else Some(PyStr(v))
  }

  /** Row `row` names identifier `k` in column `col`: its id is `k` and its
      cell in `col` is present with a non-blank text. */
  predicate Supplies(row: Row, col: string, k: string) {
    Get(row, "id") == Str(k) && !Get(row, col).Absent?
    && CellText(Get(row, col)).Some? && Strip(CellText(Get(row, col)).value) != ""
  }

  /** The name a supplying row gives. */
  function Supplied(row: Row, col: string): (s: string)
    requires CellText(Get(row, col)).Some?
    ensures Strip(s) == s
  {
    StripIdempotent(CellText(Get(row, col)).value);
    Strip(CellText(Get(row, col)).value)
  }

  /** The cell of `row` in `col` makes `join` raise. */
  predicate Fails(row: Row, col: string) {
    !Get(row, col).Absent? && CellText(Get(row, col)).None?
  }

  /** One row of one column's pass: names the row's identifier unless it is
      already named. Rows whose id is not text are not read. */
  function Step(row: Row, col: string, m: Names): (r: Option<Names>)
    ensures r.None? <==> Fails(row, col)
    ensures r.Some? ==> r.value == (if Get(row, "id").Str? && Supplies(row, col, Get(row, "id").s) && Get(row, "id").s !in m
                                    then m[Get(row, "id").s := Supplied(row, col)] else m)
  {
    var v := Get(row, col);
    var id := Get(row, "id");
    if v.Absent? then Some(m)
    else
      match CellText(v)
      case None => None
      case Some(text) =>
        var name := Strip(text);
        Some(if id.Str? && name != "" && id.s !in m then m[id.s := name] else m)
  }

  /** One column's pass over the rows, in row order. */
  function AddRows(rows: seq<Row>, col: string, m: Names): (r: Option<Names>)
    ensures r.Some? ==> Extends(r.value, m)
  {
    if |rows| == 0 then Some(m)
    else
      match Step(rows[0], col, m)
      case None => None
      case Some(m1) => AddRows(rows[1..], col, m1)
  }

  /** A column's pass fails exactly when one of its cells makes `join`
      raise. */
  lemma {:induction false} AddRowsFails(rows: seq<Row>, col: string, m: Names)
    ensures AddRows(rows, col, m).None? <==> exists i :: 0 <= i < |rows| && Fails(rows[i], col)
  {
    if |rows| > 0 {
      assert forall i :: 1 <= i < |rows| ==> rows[i] == rows[1..][i - 1];
      match Step(rows[0], col, m)
      case None =>
      case Some(m1) =>
        AddRowsFails(rows[1..], col, m1);
        if exists i :: 0 <= i < |rows| && Fails(rows[i], col) {
          var i :| 0 <= i < |rows| && Fails(rows[i], col);
          assert i > 0 && Fails(rows[1..][i - 1], col);
        }
    }
  }

  /** A column's pass keeps names stripped and non-blank. */
  lemma {:induction false} AddRowsWellFormed(rows: seq<Row>, col: string, m: Names)
    requires WellFormed(m)
    ensures AddRows(rows, col, m).Some? ==> WellFormed(AddRows(rows, col, m).value)
  {
    if |rows| > 0 {
      match Step(rows[0], col, m)
      case None =>
      case Some(m1) =>
        AddRowsWellFormed(rows[1..], col, m1);
    }
  }

  /** After a column's pass, an identifier is named exactly when it was
      named before or some row supplies it. */
  lemma {:induction false} AddRowsKeys(rows: seq<Row>, col: string, m: Names)
    requires AddRows(rows, col, m).Some?
    ensures forall k :: k in AddRows(rows, col, m).value <==>
              k in m || exists i :: 0 <= i < |rows| && Supplies(rows[i], col, k)
  {
    if |rows| > 0 {
      var m1 := Step(rows[0], col, m).value;
      AddRowsKeys(rows[1..], col, m1);
      assert forall i :: 1 <= i < |rows| ==> rows[i] == rows[1..][i - 1];
      forall k | k in m1
        ensures k in m || Supplies(rows[0], col, k)
      {
      }
      forall k, i | 0 <= i < |rows| && Supplies(rows[i], col, k)
        ensures k in m1 || exists i' :: 0 <= i' < |rows[1..]| && Supplies(rows[1..][i'], col, k)
      {
        if i > 0 {
          assert Supplies(rows[1..][i - 1], col, k);
        }
      }
    }
  }

  /** A new identifier takes the name of the first row that supplies it:
      later rows never rename it. */
  lemma {:induction false} AddRowsFirstWins(rows: seq<Row>, col: string, m: Names, k: string, i: nat)
    requires AddRows(rows, col, m).Some?
    requires i < |rows| && k !in m && Supplies(rows[i], col, k)
    requires forall h :: 0 <= h < i ==> !Supplies(rows[h], col, k)
    ensures k in AddRows(rows, col, m).value
    ensures AddRows(rows, col, m).value[k] == Supplied(rows[i], col)
  {
    var m1 := Step(rows[0], col, m).value;
    if i == 0 {
      assert k in m1 && m1[k] == Supplied(rows[0], col);
    } else {
      assert !Supplies(rows[0], col, k);
      assert k !in m1;
      forall h | 0 <= h < i - 1
        ensures !Supplies(rows[1..][h], col, k)
      {
        assert rows[1..][h] == rows[h + 1];
      }
      AddRowsFirstWins(rows[1..], col, m1, k, i - 1);
    }
  }

  /** Tries the ranked columns in order and stops after the first one that
      named a new identifier. */
  function ScanColumns(rows: seq<Row>, cols: seq<string>, m: Names): (r: Option<Names>)
    ensures r.Some? ==> Extends(r.value, m)
    ensures r.Some? && r.value != m ==>
      exists j :: 0 <= j < |cols| && AddRows(rows, cols[j], m) == r
        && forall h :: 0 <= h < j ==> AddRows(rows, cols[h], m) == Some(m)
    ensures r == Some(m) ==> forall j :: 0 <= j < |cols| ==> AddRows(rows, cols[j], m) == Some(m)
  {
    if |cols| == 0 then Some(m)
    else
      match AddRows(rows, cols[0], m)
      case None => None
      case Some(m1) =>
        if m1 != m then Some(m1)
        else
          var r := ScanColumns(rows, cols[1..], m);
          assert forall j :: 1 <= j < |cols| ==> cols[j] == cols[1..][j - 1];
          r
  }

  lemma {:induction false} ScanColumnsWellFormed(rows: seq<Row>, cols: seq<string>, m: Names)
    ensures WellFormed(m) && ScanColumns(rows, cols, m).Some? ==> WellFormed(ScanColumns(rows, cols, m).value)
  {
    if |cols| > 0 && WellFormed(m) {
      AddRowsWellFormed(rows, cols[0], m);
      ScanColumnsWellFormed(rows, cols[1..], m);
    }
  }

  /** One table: skipped when empty or without an `id` column. */
  function ScanTable(t: Table, m: Names): (r: Option<Names>)
    ensures IsEmpty(t) || "id" !in t.columns ==> r == Some(m)
    ensures r.Some? ==> Extends(r.value, m)
    ensures r.Some? && WellFormed(m) ==> WellFormed(r.value)
    ensures !IsEmpty(t) && "id" in t.columns ==> r == ScanColumns(t.rows, Ranked(t), m)
  {
    if IsEmpty(t) || "id" !in t.columns then Some(m)
    else
      ScanColumnsWellFormed(t.rows, Ranked(t), m);
      ScanColumns(t.rows, Ranked(t), m)
  }

  /** The fold over the tables in load order. */
  function BuildFrom(ds: Dataset, m: Names): (r: Option<Names>)
    ensures r.Some? ==> Extends(r.value, m)
    ensures r.Some? && WellFormed(m) ==> WellFormed(r.value)
  {
    if |ds| == 0 then Some(m)
    else
      match ScanTable(ds[0].table, m)
      case None => None
      case Some(m1) => BuildFrom(ds[1..], m1)
  }

  /** `construir_mapa_nomes_por_id(dados)`; `None` where a list cell of a
      column it reads holds something other than text. */
  function Build(ds: Dataset): (r: Option<Names>)
    ensures r.Some? ==> WellFormed(r.value)
  {
    BuildFrom(ds, map[])
  }

  /** Loading more tables after some never renames what the earlier ones
      named: the first table to name an identifier wins. */
  lemma {:induction false} BuildFromConcat(ds1: Dataset, ds2: Dataset, m: Names)
    ensures BuildFrom(ds1 + ds2, m)
         == (match BuildFrom(ds1, m)
             case None => None
             case Some(m1) => BuildFrom(ds2, m1))
  {
    if |ds1| == 0 {
      assert ds1 + ds2 == ds2;
    } else {
      assert (ds1 + ds2)[0] == ds1[0];
      assert (ds1 + ds2)[1..] == ds1[1..] + ds2;
      match ScanTable(ds1[0].table, m)
      case None =>
      case Some(m1) =>
        BuildFromConcat(ds1[1..], ds2, m1);
    }
  }

  lemma FirstTableWins(ds1: Dataset, ds2: Dataset)
    requires Build(ds1 + ds2).Some?
    ensures Build(ds1).Some?
    ensures Extends(Build(ds1 + ds2).value, Build(ds1).value)
  {
    BuildFromConcat(ds1, ds2, map[]);
  }
}

=== FILE: periods.dfy ===
/** Date periods chosen on the statistics and treasury pages
    (pages/5_Estatisticas.py, pages/home.py): normalising a picked value to
    an ordered pair of dates, the preceding window, shortcut periods and
    filtering rows by period. */
module Periods {
  import opened Common
  import opened Cells
  import opened Tables
  import opened Calendar

  datatype Period = Period(start: Date, end: Date)

  predicate ValidPeriod(p: Period) {
    Valid(p.start) && Valid(p.end) && Le(p.start, p.end)
  }

  /** The dates among the items of a picked value, in order. */
  function DayItems(items: seq<Cell>): (r: seq<Date>)
    ensures |r| <= |items|
    ensures forall d :: d in r <==> Day(d) in items
    ensures |items| > 0 && items[0].Day? ==> |r| > 0 && r[0] == items[0].date
    ensures |items| > 0 && !items[0].Day? ==> r == DayItems(items[1..])
  {
    if |items| == 0 then []
    else
      var rest := DayItems(items[1..]);
      assert forall c :: c in items <==> c == items[0] || c in items[1..];
      if items[0].Day? then [items[0].date] + rest else rest
  }

  /** The dates of a picked value: the dates of a tuple or list, or the
      value itself when it is a date. */
  function DatesOf(v: Cell): (r: seq<Date>)
    ensures v.List? ==> r == DayItems(v.items)
    ensures v.Day? ==> r == [v.date]
    ensures !v.List? && !v.Day? ==> r == []
  {
    match v
    case List(items) => DayItems(items)
    case Day(d) => [d]
    case _ => []
  }

  /** The pair in order: swapped when the start is after the end. */
  function Ordered(a: Date, b: Date): (r: Period)
    ensures Le(r.start, r.end)
    ensures multiset{r.start, r.end} == multiset{a, b}
    ensures Le(a, b) ==> r == Period(a, b)
  {
    if Lt(b, a) then Period(b, a) else Period(a, b)
  }

  /** `normalizar_periodo(value, fallback)` (and `_normalizar_periodo`, whose
      fallback is today's date twice): the first two dates, one date twice,
      or the fallback, in order. */
  function Normalize(v: Cell, fallback: Period): (r: Period)
    ensures Le(r.start, r.end)
    ensures |DatesOf(v)| >= 2 ==> multiset{r.start, r.end} == multiset{DatesOf(v)[0], DatesOf(v)[1]}
    ensures |DatesOf(v)| == 1 ==> r == Period(DatesOf(v)[0], DatesOf(v)[0])
    ensures |DatesOf(v)| == 0 ==> multiset{r.start, r.end} == multiset{fallback.start, fallback.end}
    ensures (forall d :: d in DatesOf(v) ==> Valid(d)) && Valid(fallback.start) && Valid(fallback.end) ==> ValidPeriod(r)
  {
    var ds := DatesOf(v);
    if |ds| >= 2 then Ordered(ds[0], ds[1])
    else if |ds| == 1 then Ordered(ds[0], ds[0])
    else Ordered(fallback.start, fallback.end)
  }

  /** Normalising an ordered period changes nothing. */
  lemma NormalizeOrdered(p: Period, fallback: Period)
    requires Le(p.start, p.end)
    ensures Normalize(List([Day(p.start), Day(p.end)]), fallback) == p
  {
    var items := [Day(p.start), Day(p.end)];
    assert DayItems(items[1..]) == [p.end] by {
      assert items[1..][1..] == [];
    }
  }

  /** Normalising is idempotent. */
  lemma NormalizeIdempotent(v: Cell, fallback: Period)
    ensures var p := Normalize(v, fallback);
            Normalize(List([Day(p.start), Day(p.end)]), fallback) == p
  {
    NormalizeOrdered(Normalize(v, fallback), fallback);
  }

  // ---------------------------------------------------------------------
  // Windows

  /** The window before `p`: it ends the day before `p` starts and is as
      long; `None` where the dates would fall before year 1 (Python's
      `OverflowError`). */
  function Previous(p: Period): (r: Option<Period>)
    requires ValidPeriod(p)
    ensures r.None? <==> Ordinal(p.start) - (Ordinal(p.end) - Ordinal(p.start) + 1) < 1
    ensures r.Some? ==> ValidPeriod(r.value)
    ensures r.Some? ==> Ordinal(r.value.end) + 1 == Ordinal(p.start)
    ensures r.Some? ==> DaysBetween(r.value.start, r.value.end) == DaysBetween(p.start, p.end)
  {
    OrdinalOrder(p.start, p.end);
    var days := DaysBetween(p.start, p.end) + 1;
    if Ordinal(p.start) - days < 1 then None
    else
      var prevEnd := AddDays(p.start, -1);
      var prevStart := AddDays(prevEnd, -(days - 1));
      OrdinalOrder(prevStart, prevEnd);
      Some(Period(prevStart, prevEnd))
  }

  /** `d` lies in the period, both ends included. */
  predicate InPeriod(d: Date, p: Period) {
    Le(p.start, d) && Le(d, p.end)
  }

  /** No date lies in both a period and the window before it. */
  lemma PreviousDisjoint(p: Period, d: Date)
    requires ValidPeriod(p) && Valid(d) && Previous(p).Some?
    ensures !(InPeriod(d, p) && InPeriod(d, Previous(p).value))
  {
    var q := Previous(p).value;
    OrdinalOrder(p.start, d);
    OrdinalOrder(d, q.end);
  }

  /** The window before `p` and `p` are adjacent: the day after the previous
      window is the first day of `p`. */
  lemma PreviousAdjacent(p: Period)
    requires ValidPeriod(p) && Previous(p).Some?
    ensures NextDay(Previous(p).value.end) == p.start
  {
    OrdinalInjective(NextDay(Previous(p).value.end), p.start);
  }

  /** `_filtrar_periodo(df, start, end)`: the rows whose `Data` lies in the
      period, each as often as in `t` and in their order in `t`; no rows
      without data or a `Data` column. */
  function FilterPeriod(t: Table, p: Period): (r: Table)
    ensures r.columns == t.columns
    ensures IsEmpty(t) || !HasColumn(t, "Data") ==> r.rows == []
    ensures forall row :: row in r.rows <==>
              (!IsEmpty(t) && HasColumn(t, "Data") && row in t.rows && Get(row, "Data").Day? && InPeriod(Get(row, "Data").date, p))
    ensures forall row :: multiset(r.rows)[row] ==
              if !IsEmpty(t) && HasColumn(t, "Data") && Dated(row, p) then multiset(t.rows)[row] else 0
    ensures |r.rows| <= |t.rows|
  {
    if IsEmpty(t) || !HasColumn(t, "Data") then Table(t.columns, [])
    else Table(t.columns, RowsIn(t.rows, p))
  }

  predicate Dated(row: Row, p: Period) {
    Get(row, "Data").Day? && InPeriod(Get(row, "Data").date, p)
  }

  /** `Dated` as a filter condition. */
  function DatedIn(p: Period): Row -> bool {
    row => Dated(row, p)
  }

  /** The rows dated inside the period: each such row as often as in `rows`,
      no other row. */
  function RowsIn(rows: seq<Row>, p: Period): (r: seq<Row>)
    ensures |r| <= |rows|
    ensures forall row :: row in r <==> row in rows && Dated(row, p)
    ensures forall row :: multiset(r)[row] == if Dated(row, p) then multiset(rows)[row] else 0
  {
    FilterCounts(rows, DatedIn(p));
    Filter(rows, DatedIn(p))
  }

  /** RowsIn keeps the order of the rows: it distributes over concatenation. */
  lemma RowsInConcat(xs: seq<Row>, ys: seq<Row>, p: Period)
    ensures RowsIn(xs + ys, p) == RowsIn(xs, p) + RowsIn(ys, p)
  {
    FilterConcat(xs, ys, DatedIn(p));
  }

  /** FilterPeriod keeps the order of the table's rows: the rows of a table
      with data and a `Data` column, split anywhere, are filtered part by part. */
  lemma FilterPeriodConcat(t: Table, xs: seq<Row>, ys: seq<Row>, p: Period)
    requires t.rows == xs + ys && !IsEmpty(t) && HasColumn(t, "Data")
    ensures FilterPeriod(t, p).rows == RowsIn(xs, p) + RowsIn(ys, p)
  {
    RowsInConcat(xs, ys, p);
  }

  // ---------------------------------------------------------------------
  // Shortcut periods

  /** "Hoje": today alone. */
  function Today(today: Date): (r: Period)
    ensures r.start == today && r.end == today
  {
    Ordered(today, today)
  }

  /** "Últimos 3 dias": the two days before today and today; `None` before
      year 1. */
  function LastThreeDays(today: Date): (r: Option<Period>)
    requires Valid(today)
    ensures r.None? <==> Ordinal(today) <= 2
    ensures r.Some? ==> ValidPeriod(r.value) && r.value.end == today && Ordinal(r.value.start) + 2 == Ordinal(today)
  {
    if Ordinal(today) <= 2 then None
    else
      var start := AddDays(today, -2);
      OrdinalOrder(start, today);
      Some(Ordered(start, today))
  }

  /** Stepping back `(n + 6) % 7` days from day `n` lands on a Monday of
      the same week. */
  lemma WeekStart(n: int, m: int)
    requires n >= 1 && m == n - (n + 6) % 7
    ensures m >= 1 && (m + 6) % 7 == 0 && 0 <= n - m < 7
  {
    var q := (n + 6) / 7;
    assert n + 6 == 7 * q + (n + 6) % 7;
    assert m + 6 == 7 * q;
  }

  /** "Esta semana": Monday of this week to today. */
  function ThisWeek(today: Date): (r: Period)
    requires Valid(today)
    ensures ValidPeriod(r)
    ensures Weekday(r.start) == 0
    ensures r.end == today
    ensures 0 <= Ordinal(today) - Ordinal(r.start) < 7
  {
    var monday := MondayOf(today);
    var sunday := AddDays(monday, 6);
    OrdinalOrder(monday, today);
    OrdinalOrder(today, sunday);
    var end := Min(sunday, today);
    assert end == today;
    Ordered(monday, end)
  }

  /** The Monday of the week of `today`. */
  function MondayOf(today: Date): (r: Date)
    requires Valid(today)
    ensures Valid(r) && Weekday(r) == 0
    ensures 0 <= Ordinal(today) - Ordinal(r) < 7
  {
    var n := Ordinal(today);
    var m := n - (n + 6) % 7;
    WeekStart(n, m);
    var monday := AddDays(today, m - n);
    assert Ordinal(monday) == m;
    assert Weekday(monday) == (m + 6) % 7;
    monday
  }

  /** The last day of the month of `d`. */
  function MonthEnd(d: Date): (r: Date)
    requires Valid(d)
    ensures Valid(r) && r.year == d.year && r.month == d.month && r.day == DaysInMonth(d.year, d.month)
  {
    if d.month == 12 then Date(d.year, 12, 31)
    else
      var next := Date(d.year, d.month + 1, 1);
      PrevDay(next)
  }

  /** "Este mês": the first to the last day of this month. */
  function ThisMonth(today: Date): (r: Period)
    requires Valid(today)
    ensures ValidPeriod(r)
    ensures r.start == Date(today.year, today.month, 1)
    ensures r.end == Date(today.year, today.month, DaysInMonth(today.year, today.month))
    ensures InPeriod(today, r)
  {
    Ordered(Date(today.year, today.month, 1), MonthEnd(today))
  }

  /** `_periodo_mes_atual(d)`: the first of the month to the day before the
      first of the next month. */
  function CurrentMonth(d: Date): (r: Period)
    requires Valid(d)
    ensures ValidPeriod(r)
  {
    var first := Date(d.year, d.month, 1);
    var next := if d.month == 12 then Date(d.year + 1, 1, 1) else Date(d.year, d.month + 1, 1);
    DaysBeforeYearStep(d.year);
    Period(first, PrevDay(next))
  }

  /** The treasury page's month and the statistics page's month are the
      same period. */
  lemma MonthPeriodsAgree(d: Date)
    requires Valid(d)
    ensures CurrentMonth(d) == ThisMonth(d)
  {
  }

  /** The statistics page's default: the 28 days ending today. */
  function DefaultStatsPeriod(today: Date): (r: Option<Period>)
    requires Valid(today)
    ensures r.Some? <==> Ordinal(today) > 27
    ensures r.Some? ==> ValidPeriod(r.value) && r.value.end == today && DaysBetween(r.value.start, today) == 27
  {
    if Ordinal(today) <= 27 then None
    else
      var start := AddDays(today, -27);
      OrdinalOrder(start, today);
      Some(Period(start, today))
  }
}

=== FILE: receipts.dfy ===
/** `preparar_dataframe_recebimentos` (data_utils.py): the receipts table
    reduced to its useful columns, with names resolved through the scouts
    map, the permissions map and the general name map, which it also
    returns. */
module Receipts {
  import opened Common
  import opened Text
  import opened Cells
  import opened Tables
  import opened Sorting
  import Calendar
  import NameMap
  import Reversals

  // ---------------------------------------------------------------------
  // The scouts map

  /** The name columns of the scouts table, in order of preference. */
  const ScoutNameColumns: seq<string> := ["Nome do Escuteiro", "Escuteiro", "Nome"]

  /** Row `i` gives `k` a value in column `col`: its identifier is the text
      `k` and its cell is not missing. */
  predicate Indexes(rows: seq<Row>, col: string, i: nat, k: string)
    requires i < |rows|
  {
    Get(rows[i], "id") == Str(k) && !IsNA(Get(rows[i], col))
  }

  /** `set_index("id")[col].dropna().to_dict()`: identifier to cell, a later
      row with the same identifier replacing an earlier one. */
  function IndexBy(rows: seq<Row>, col: string): (m: IdMap)
    ensures forall k :: k in m <==> exists i :: 0 <= i < |rows| && Indexes(rows, col, i, k)
    ensures forall k :: k in m ==> !IsNA(m[k])
  {
    if |rows| == 0 then map[]
    else
      var init := rows[..|rows| - 1];
      var m := IndexBy(init, col);
      var last := rows[|rows| - 1];
      assert forall i, k :: 0 <= i < |init| ==> (Indexes(init, col, i, k) <==> Indexes(rows, col, i, k));
      if Get(last, "id").Str? && !IsNA(Get(last, col)) then
        assert Indexes(rows, col, |rows| - 1, Get(last, "id").s);
        m[Get(last, "id").s := Get(last, col)]
      else m
  }

  /** The value kept for an identifier is the one of the last row giving it
      one. */
  lemma {:induction false} IndexByLastWins(rows: seq<Row>, col: string, k: string, i: nat)
    requires i < |rows| && Indexes(rows, col, i, k)
    requires forall j :: i < j < |rows| ==> !Indexes(rows, col, j, k)
    ensures k in IndexBy(rows, col) && IndexBy(rows, col)[k] == Get(rows[i], col)
  {
    if i < |rows| - 1 {
      var init := rows[..|rows| - 1];
      assert Indexes(init, col, i, k);
      forall j | i < j < |init|
        ensures !Indexes(init, col, j, k)
      {
        assert !Indexes(rows, col, j, k);
      }
      IndexByLastWins(init, col, k, i);
      assert !Indexes(rows, col, |rows| - 1, k);
    }
  }

  /** The scouts map: the `Escuteiros` table indexed by identifier on its
      first name column; empty when the table is missing, empty, has no
      `id` column or no name column. */
  function ScoutMap(ds: Dataset): (m: IdMap)
    ensures FindNonEmpty(ds, "Escuteiros").None? ==> m == map[]
    ensures FindNonEmpty(ds, "Escuteiros").Some? && "id" !in FindNonEmpty(ds, "Escuteiros").value.columns ==> m == map[]
    ensures FindNonEmpty(ds, "Escuteiros").Some? && "id" in FindNonEmpty(ds, "Escuteiros").value.columns ==>
              var t := FindNonEmpty(ds, "Escuteiros").value;
              match FirstExisting(t, ScoutNameColumns)
              case None => m == map[]
              case Some(col) => m == IndexBy(t.rows, col)
    ensures forall k :: k in m ==> !IsNA(m[k])
  {
    match FindNonEmpty(ds, "Escuteiros")
    case None => map[]
    case Some(t) =>
      if "id" !in t.columns then map[]
      else
        match FirstExisting(t, ScoutNameColumns)
        case None => map[]
        case Some(col) => IndexBy(t.rows, col)
  }

  // ---------------------------------------------------------------------
  // The "received by" column

  /** A column holding the receiver's name: starts with "quem recebeu" in
      lower case and is neither of the two raw columns. */
  predicate IsReceiverColumn(col: string) {
    col != "Quem Recebeu?" && col != "Quem recebeu?_OLD" && StartsWith(Lower(col), "quem recebeu")
  }

  /** The receiver columns, in table order. */
  function ReceiverColumns(cols: seq<string>): (r: seq<string>)
    ensures forall c :: c in r <==> c in cols && IsReceiverColumn(c)
  {
    if |cols| == 0 then []
    else
      var rest := ReceiverColumns(cols[1..]);
      if IsReceiverColumn(cols[0]) then [cols[0]] + rest else rest
  }

  /** `_score_coluna`: names mentioning "nome" or "name" first, then
      "lookup" columns, then the rest. */
  function ReceiverScore(col: string): (s: nat)
    ensures s <= 2
    ensures s == 0 <==> Contains(Lower(col), "nome") || Contains(Lower(col), "name")
    ensures s == 1 <==> !Contains(Lower(col), "nome") && !Contains(Lower(col), "name") && Contains(Lower(col), "lookup")
  {
    var lower := Lower(col);
    if Contains(lower, "nome") || Contains(lower, "name") then 0
    else if Contains(lower, "lookup") then 1
    else 2
  }

  /** Python's `<=` on the sort key `(score, lowercase name)`. */
  predicate ReceiverLe(a: string, b: string) {
    ReceiverScore(a) < ReceiverScore(b) || (ReceiverScore(a) == ReceiverScore(b) && StrLe(Lower(a), Lower(b)))
  }

  lemma ReceiverLeTotalPreorder()
    ensures TotalPreorder(ReceiverLe)
  {
    forall a, b
      ensures ReceiverLe(a, b) || ReceiverLe(b, a)
    {
      StrLeTotal(Lower(a), Lower(b));
    }
    forall a, b, c | ReceiverLe(a, b) && ReceiverLe(b, c)
      ensures ReceiverLe(a, c)
    {
      if ReceiverScore(a) == ReceiverScore(b) && ReceiverScore(b) == ReceiverScore(c) {
        StrLeTransitive(Lower(a), Lower(b), Lower(c));
      }
    }
  }

  /** The head of a sorted sequence is at most each of its elements. */
  lemma HeadIsLeast<T(!new)>(xs: seq<T>, le: (T, T) -> bool, x: T)
    requires TotalPreorder(le) && SortedBy(xs, le)
    requires x in xs
    ensures le(xs[0], x)
  {
    var j :| 0 <= j < |xs| && xs[j] == x;
    if j == 0 {
      assert le(x, x) || le(x, x);
    }
  }

  /** The receiver column read for the names: the first after sorting the
      receiver columns by `ReceiverLe`, so one that ranks at most every
      other. */
  function ReceiverColumn(t: Table): (r: Option<string>)
    ensures r.None? <==> forall c :: c in t.columns ==> !IsReceiverColumn(c)
    ensures r.Some? ==> r.value in t.columns && IsReceiverColumn(r.value)
    ensures r.Some? ==> forall c :: c in t.columns && IsReceiverColumn(c) ==> ReceiverLe(r.value, c)
  {
    var cands := ReceiverColumns(t.columns);
    if |cands| == 0 then None
    else
      assert cands[0] in cands;
      var sorted := Sort(cands, ReceiverLe);
      ReceiverLeTotalPreorder();
      SortSorted(cands, ReceiverLe);
      assert sorted[0] in multiset(sorted);
      assert forall c :: c in cands ==> c in multiset(sorted);
      assert forall c :: c in cands ==> ReceiverLe(sorted[0], c) by {
        forall c | c in cands
          ensures ReceiverLe(sorted[0], c)
        {
          HeadIsLeast(sorted, ReceiverLe, c);
        }
      }
      Some(sorted[0])
  }

  /** The maps returned besides the frame. */
  datatype Maps = Maps(scouts: IdMap, permissions: NameMap.Names, names: NameMap.Names)

  /** Where the receiver's name comes from: a receiver column read as it is,
      the raw column through one map, or the raw column untouched. */
  datatype Resolver = OwnColumn(col: string) | Through(mapping: IdMap) | AsIs

  /** The receiver column if there is one, else the first non-empty map
      among permissions, names and scouts. */
  function ResolverFor(t: Table, maps: Maps): Resolver {
    match ReceiverColumn(t)
    case Some(col) => OwnColumn(col)
    case None =>
      if maps.permissions != map[] then Through(TextMap(maps.permissions))
      else if maps.names != map[] then Through(TextMap(maps.names))
      else if maps.scouts != map[] then Through(maps.scouts)
      else AsIs
  }

  // ---------------------------------------------------------------------
  // The output rows

  /** Which of the useful columns the receipts table has. */
  datatype Layout = Layout(scout: bool, amount: bool, payment: bool, date: bool, receivedBy: bool)

  const NoLayout := Layout(false, false, false, false, false)

  function LayoutOf(t: Table): (l: Layout)
    ensures l.scout <==> "Escuteiros" in t.columns
    ensures l.amount <==> "Valor Recebido" in t.columns
    ensures l.payment <==> "Meio de Pagamento" in t.columns
    ensures l.date <==> "Date" in t.columns
    ensures l.receivedBy <==> "Quem Recebeu?" in t.columns
  {
    Layout("Escuteiros" in t.columns, "Valor Recebido" in t.columns, "Meio de Pagamento" in t.columns,
           "Date" in t.columns, "Quem Recebeu?" in t.columns)
  }

  /** One normalised receipt. A field whose column is missing is `Absent` /
      `None`. */
  datatype Receipt = Receipt(scout: Cell, amount: Option<real>, payment: Cell, date: Option<Calendar.Date>, receivedBy: Cell)

  /** The scout field of a row: mapped through a non-empty scouts map. */
  function ReadScout(row: Row, layout: Layout, scouts: IdMap): (r: Option<Cell>)
    ensures layout.scout && scouts != map[] ==> r == MapList(Get(row, "Escuteiros"), scouts)
    ensures layout.scout && scouts == map[] ==> r == Some(Get(row, "Escuteiros"))
    ensures !layout.scout ==> r == Some(Absent)
  {
    if !layout.scout then Some(Absent)
    else if scouts != map[] then MapList(Get(row, "Escuteiros"), scouts)
    else Some(Get(row, "Escuteiros"))
  }

  /** The receiver field of a row, read through the resolver. */
  function ReadReceiver(row: Row, layout: Layout, resolver: Resolver): (r: Option<Cell>)
    ensures layout.receivedBy ==>
              match resolver
              case OwnColumn(col) => r == MapList(Get(row, col), map[])
              case Through(m) => r == MapList(Get(row, "Quem Recebeu?"), m)
              case AsIs => r == Some(Get(row, "Quem Recebeu?"))
    ensures !layout.receivedBy ==> r == Some(Absent)
  {
    if !layout.receivedBy then Some(Absent)
    else match resolver
      case OwnColumn(col) => MapList(Get(row, col), map[])
      case Through(m) => MapList(Get(row, "Quem Recebeu?"), m)
      case AsIs => Some(Get(row, "Quem Recebeu?"))
  }

  /** Normalises one receipts row; `None` where Python raises. */
  function ReadReceipt(row: Row, layout: Layout, scouts: IdMap, resolver: Resolver): (r: Option<Receipt>)
    ensures r.Some? && layout.scout && scouts != map[] ==> Some(r.value.scout) == MapList(Get(row, "Escuteiros"), scouts)
    ensures r.Some? && layout.scout && scouts == map[] ==> r.value.scout == Get(row, "Escuteiros")
    ensures r.Some? && layout.amount ==> r.value.amount == ToNumeric(Get(row, "Valor Recebido"))
    ensures r.Some? && layout.payment ==> r.value.payment == Get(row, "Meio de Pagamento")
    ensures r.Some? && layout.date ==> r.value.date == Reversals.ToDate(Get(row, "Date"))
    ensures r.Some? && layout.receivedBy ==>
              match resolver
              case OwnColumn(col) => Some(r.value.receivedBy) == MapList(Get(row, col), map[])
              case Through(m) => Some(r.value.receivedBy) == MapList(Get(row, "Quem Recebeu?"), m)
              case AsIs => r.value.receivedBy == Get(row, "Quem Recebeu?")
    ensures r.Some? && !layout.scout ==> r.value.scout == Absent
    ensures r.Some? && !layout.amount ==> r.value.amount.None?
    ensures r.Some? && !layout.receivedBy ==> r.value.receivedBy == Absent
    ensures r.None? <==>
              (layout.scout && scouts != map[] && MapList(Get(row, "Escuteiros"), scouts).None?)
              || (layout.receivedBy &&
                  match resolver
                  case OwnColumn(col) => MapList(Get(row, col), map[]).None?
                  case Through(m) => MapList(Get(row, "Quem Recebeu?"), m).None?
                  case AsIs => false)
  {
    var scout :- ReadScout(row, layout, scouts);
    var receivedBy :- ReadReceiver(row, layout, resolver);
    Some(Receipt(
      scout,
      if layout.amount then ToNumeric(Get(row, "Valor Recebido")) else None,
      if layout.payment then Get(row, "Meio de Pagamento") else Absent,
      if layout.date then Reversals.ToDate(Get(row, "Date")) else None,
      receivedBy))
  }

  /** The result: the columns present, one receipt per source row, and the
      three maps. */
  datatype Output = Output(layout: Layout, rows: seq<Receipt>, maps: Maps)

  /** Normalises every row of a non-empty receipts table. */
  function Normalise(t: Table, maps: Maps): (r: Option<seq<Receipt>>)
    ensures r.Some? ==> |r.value| == |t.rows|
    ensures r.Some? ==> forall i :: 0 <= i < |t.rows| ==>
              ReadReceipt(t.rows[i], LayoutOf(t), maps.scouts, ResolverFor(t, maps)) == Some(r.value[i])
    ensures r.None? <==>
              exists i :: 0 <= i < |t.rows| && ReadReceipt(t.rows[i], LayoutOf(t), maps.scouts, ResolverFor(t, maps)).None?
  {
    var layout := LayoutOf(t);
    var resolver := ResolverFor(t, maps);
    Traverse(t.rows, row => ReadReceipt(row, layout, maps.scouts, resolver))
  }

  /** The permissions map: the name map of the `Permissoes` table alone,
      when that table is present and not empty. */
  function PermissionsMap(ds: Dataset): (r: Option<NameMap.Names>)
    ensures FindNonEmpty(ds, "Permissoes").None? ==> r == Some(map[])
    ensures FindNonEmpty(ds, "Permissoes").Some? ==>
              r == NameMap.Build([NamedTable("Permissoes", FindNonEmpty(ds, "Permissoes").value)])
    ensures r.Some? ==> NameMap.WellFormed(r.value)
  {
    match FindNonEmpty(ds, "Permissoes")
    case None => Some(map[])
    case Some(t) => NameMap.Build([NamedTable("Permissoes", t)])
  }

  /** `preparar_dataframe_recebimentos(dados)`; `None` where Python raises. */
  function Prepare(ds: Dataset): (r: Option<Output>)
    ensures r.Some? ==> r.value.maps.scouts == ScoutMap(ds)
    ensures r.Some? ==> Some(r.value.maps.permissions) == PermissionsMap(ds)
    ensures r.Some? ==> Some(r.value.maps.names) == NameMap.Build(ds)
    ensures r.Some? && FindNonEmpty(ds, "Recebimento").None? ==> r.value.layout == NoLayout && r.value.rows == []
    ensures r.Some? && FindNonEmpty(ds, "Recebimento").Some? ==>
              var t := FindNonEmpty(ds, "Recebimento").value;
              r.value.layout == LayoutOf(t) && Normalise(t, r.value.maps) == Some(r.value.rows)
    ensures r.Some? <==>
              PermissionsMap(ds).Some? && NameMap.Build(ds).Some?
              && (FindNonEmpty(ds, "Recebimento").Some? ==>
                    Normalise(FindNonEmpty(ds, "Recebimento").value,
                              Maps(ScoutMap(ds), PermissionsMap(ds).value, NameMap.Build(ds).value)).Some?)
  {
    var scouts := ScoutMap(ds);
    var permissions :- PermissionsMap(ds);
    var names :- NameMap.Build(ds);
    var maps := Maps(scouts, permissions, names);
    match FindNonEmpty(ds, "Recebimento")
    case None => Some(Output(NoLayout, [], maps))
    case Some(t) =>
      var rows :- Normalise(t, maps);
      Some(Output(LayoutOf(t), rows, maps))
  }

  /** A receiver column is read as it is, whatever the maps hold: the maps
      only apply to a table without one. */
  lemma OwnColumnBeatsMaps(t: Table, maps: Maps)
    requires ReceiverColumn(t).Some?
    ensures ResolverFor(t, maps) == OwnColumn(ReceiverColumn(t).value)
  {
  }

  /** Without a receiver column the raw column goes through exactly one map,
      the first non-empty one; there is no fallback to the next map for a
      value the first does not know. */
  lemma FirstNonEmptyMapOnly(t: Table, maps: Maps, row: Row, r: Receipt)
    requires ReceiverColumn(t).None? && maps.permissions != map[]
    requires "Quem Recebeu?" in t.columns
    requires ReadReceipt(row, LayoutOf(t), maps.scouts, ResolverFor(t, maps)) == Some(r)
    ensures Some(r.receivedBy) == MapList(Get(row, "Quem Recebeu?"), TextMap(maps.permissions))
  {
  }
}

=== FILE: reversals.dfy ===
/** `preparar_dataframe_estornos`: the reversals (refunds of receipts), read
    from a dedicated table or recognised among the receipts, with their
    scout, absolute amount, payment method, date, responsible person and
    reason. Two versions exist: the current one and an older copy kept with
    the second section's pages. */
module Reversals {
  import opened Common
  import opened Text
  import opened Cells
  import opened Tables
  import Calendar
  import Columns

  /** Which copy of the builder: the older one reads the amount, method and
      date cells as they are and has no reason column. */
  datatype Version = Current | Legacy

  /** The tables that hold reversals, tried in this order. */
  const ReversalTables: seq<string> :=
    ["Estorno de Recebimento", "Estornos de Recebimento", "Estorno Recebimento", "Estorno", "Estornos"]

  const ReceiptsTable := "Recebimento"

  /** Where the reversals are read from. */
  datatype Source = Dedicated(name: string, table: Table) | FromReceipts(table: Table)

  function FirstNonEmpty(ds: Dataset, names: seq<string>): (r: Option<(string, Table)>)
    ensures r.Some? ==> r.value.0 in names && FindNonEmpty(ds, r.value.0) == Some(r.value.1)
    ensures r.None? <==> forall k :: 0 <= k < |names| ==> FindNonEmpty(ds, names[k]).None?
  {
    if |names| == 0 then None
    else match FindNonEmpty(ds, names[0])
      case Some(t) => Some((names[0], t))
      case None =>
        var r := FirstNonEmpty(ds, names[1..]);
        assert forall k :: 1 <= k < |names| ==> names[k] == names[1..][k - 1];
        r
  }

  /** The first non-empty reversal table, else the non-empty receipts
      table. */
  function FindSource(ds: Dataset): (r: Option<Source>)
    ensures r.Some? ==> !IsEmpty(r.value.table)
    ensures r.Some? && r.value.Dedicated? ==> r.value.name in ReversalTables
    ensures r.None? <==> (forall k :: 0 <= k < |ReversalTables| ==> FindNonEmpty(ds, ReversalTables[k]).None?)
                         && FindNonEmpty(ds, ReceiptsTable).None?
    ensures r.Some? && r.value.FromReceipts? ==>
              && FindNonEmpty(ds, ReceiptsTable) == Some(r.value.table)
              && forall k :: 0 <= k < |ReversalTables| ==> FindNonEmpty(ds, ReversalTables[k]).None?
  {
    match FirstNonEmpty(ds, ReversalTables)
    case Some((name, t)) => Some(Dedicated(name, t))
    case None =>
      match FindNonEmpty(ds, ReceiptsTable)
      case Some(t) => Some(FromReceipts(t))
      case None => None
  }

  // ---------------------------------------------------------------------
  // Recognising reversals among receipts

  const TypeColumns: seq<string> := ["Tipo de Movimento", "Tipo", "Categoria", "Movimento", "Motivo"]
  const FlagColumns: seq<string> := ["É Estorno", "E Estorno", "Estorno?", "Estorno", "é Estorno", "é_estorno"]
  const FlagWords: set<string> := {"1", "true", "verdadeiro", "sim", "yes"}

  /** A type or category column mentions "estorno" (in any case). */
  predicate TypeSignal(t: Table, row: Row) {
    exists k :: 0 <= k < |TypeColumns| && TypeColumns[k] in t.columns
      && Contains(Lower(PyStr(Get(row, TypeColumns[k]))), "estorno")
  }

  /** A flag column is set: a true cell of a boolean column, or a cell whose
      stripped, lowercased text is a yes-word. */
  predicate FlagSet(t: Table, row: Row, col: string) {
    if BoolColumn(t, col) then Get(row, col).Bool? && Get(row, col).b
    else Lower(Strip(PyStr(Get(row, col)))) in FlagWords
  }

  predicate FlagSignal(t: Table, row: Row) {
    exists k :: 0 <= k < |FlagColumns| && FlagColumns[k] in t.columns && FlagSet(t, row, FlagColumns[k])
  }

  /** A non-zero reversed amount. */
  predicate RefundedSignal(t: Table, row: Row) {
    "Valor Estornado" in t.columns && ToNumeric(Get(row, "Valor Estornado")).Some?
    && ToNumeric(Get(row, "Valor Estornado")).value != 0.0
  }

  /** A negative received amount. */
  predicate NegativeSignal(t: Table, row: Row) {
    "Valor Recebido" in t.columns && ToNumeric(Get(row, "Valor Recebido")).Some?
    && ToNumeric(Get(row, "Valor Recebido")).value < 0.0
  }

  /** The four signals, OR-combined. */
  predicate IsReversal(t: Table, row: Row) {
    TypeSignal(t, row) || FlagSignal(t, row) || RefundedSignal(t, row) || NegativeSignal(t, row)
  }

  /** Positions, from `from` on, of the rows satisfying `keep`: a boolean
      mask applied with `df.loc[mask]`. */
  function Positions(rows: seq<Row>, keep: Row -> bool, from: nat): (r: seq<nat>)
    requires from <= |rows|
    ensures forall k :: 0 <= k < |r| ==> from <= r[k] < |rows| && keep(rows[r[k]])
    ensures forall k, l :: 0 <= k < l < |r| ==> r[k] < r[l]
    ensures forall i :: from <= i < |rows| && keep(rows[i]) ==> i in r
    decreases |rows| - from
  {
    if from == |rows| then []
    else
      var rest := Positions(rows, keep, from + 1);
      if keep(rows[from]) then [from] + rest else rest
  }

  /** The positions of the receipts recognised as reversals, in order. */
  function ReversalPositions(t: Table): (r: seq<nat>)
    ensures forall k :: 0 <= k < |r| ==> r[k] < |t.rows| && IsReversal(t, t.rows[r[k]])
    ensures forall k, l :: 0 <= k < l < |r| ==> r[k] < r[l]
    ensures forall i :: 0 <= i < |t.rows| && IsReversal(t, t.rows[i]) ==> i in r
  {
    Positions(t.rows, row => IsReversal(t, row), 0)
  }

  function AllPositions(n: nat): (r: seq<nat>)
    ensures |r| == n
    ensures forall k :: 0 <= k < n ==> r[k] == k
  {
    seq(n, k requires 0 <= k < n => k)
  }

  // ---------------------------------------------------------------------
  // One output row

  /** The columns chosen for each output field. */
  datatype Chosen = Chosen(
    scout: Option<string>, amount: Option<string>, date: Option<string>,
    payment: Option<string>, responsible: Option<string>, reason: Option<string>)

  function Choose(t: Table, version: Version): (c: Chosen)
    ensures version.Legacy? ==> c.reason.None?
    ensures c.amount.Some? ==> c.amount.value in t.columns
  {
    Chosen(
      Columns.ChooseColumn(t, ["Escuteiros", "Escuteiro", "Escuteiro(s)", "Escuteiros Relacionados"]),
      Columns.ChooseColumn(t, ["Valor Estornado", "Valor Estorno", "Valor do Estorno", "Valor", "Valor (€)", "Valor Recebido"]),
      Columns.ChooseColumn(t, ["Data do Estorno", "Date", "Data"]),
      Columns.ChooseColumn(t, ["Meio de Pagamento", "Método de Pagamento", "Metodo de Pagamento", "Método", "Metodo"]),
      Columns.ChooseColumn(t, ["Quem Estornou?", "Quem Estornou", "Quem Recebeu?", "Registado Por", "Responsável", "Criado Por"]),
      if version.Legacy? then None
      else Columns.ChooseColumn(t, ["Tag_Cancelamento", "Tag Cancelamento", "Motivo do Estorno", "Motivo Estorno", "Motivo", "Tag"]))
  }

  /** One reversal; `origin` is its row position in the source table. A
      missing field is `Absent` / `None`. */
  datatype Reversal = Reversal(
    origin: nat, scout: Cell, amount: Option<real>, payment: Cell,
    date: Option<Calendar.Date>, responsible: Cell, reason: Cell)

  /** `_extrair_valor`: the first element of a list (missing for an empty
      one), the `"value"` of a mapping that has one, else the cell itself. */
  function ExtractAmount(v: Cell): (r: Cell)
    ensures v.List? && |v.items| > 0 ==> r == v.items[0]
    ensures v.List? && |v.items| == 0 ==> r == Absent
    ensures !v.List? && !v.Dict? ==> r == v
  {
    match v
    case List(items) => if |items| > 0 then items[0] else Absent
    case Dict(entries) =>
      (match Lookup(entries, "value")
       case Some(x) => x
       case None => v)
    case _ => v
  }

  /** The first element of a non-empty list, else the cell itself. */
  function FirstOfList(v: Cell): (r: Cell)
    ensures v.List? && |v.items| > 0 ==> r == v.items[0]
    ensures !(v.List? && |v.items| > 0) ==> r == v
  {
    if v.List? && |v.items| > 0 then v.items[0] else v
  }

  /** Two digits whose value is below `limit`. */
  predicate TwoDigitsBelow(s: string, limit: nat) {
    |s| == 2 && Calendar.AllDigits(s) && Calendar.DigitsValue(s) < limit
  }

  /** An ISO time of day: `HH:MM`, `HH:MM:SS` or `HH:MM:SS.f…`, with an
      optional trailing `Z`. */
  predicate TimeShape(t: string) {
    var u := if |t| > 0 && t[|t| - 1] == 'Z' then t[..|t| - 1] else t;
    |u| >= 5 && TwoDigitsBelow(u[..2], 24) && u[2] == ':' && TwoDigitsBelow(u[3..5], 60)
    && (|u| == 5
        || (|u| >= 8 && u[5] == ':' && TwoDigitsBelow(u[6..8], 60)
            && (|u| == 8 || (|u| > 9 && u[8] == '.' && Calendar.AllDigits(u[9..])))))
  }

  /** An ISO date, alone or followed by `T` or a space and a time of day. */
  predicate DateTimeShape(s: string) {
    |s| >= 10 && (|s| == 10 || ((s[10] == 'T' || s[10] == ' ') && TimeShape(s[11..])))
  }

  /** Nanoseconds in a day. */
  const NsPerDay: int := 86_400_000_000_000

  /** The largest nanosecond count a pandas timestamp holds (2^63 - 1). */
  const NsMax: int := 9_223_372_036_854_775_807

  /** The day a number of nanoseconds since the epoch falls on, when the
      count fits a timestamp and the day's midnight is in range. */
  function EpochDay(n: real): (r: Option<Calendar.Date>)
    ensures r.Some? ==> Calendar.InNsRange(r.value)
    ensures r.Some? ==> Calendar.Ordinal(r.value) == Calendar.Ordinal(Calendar.Epoch) + (n / NsPerDay as real).Floor
    ensures r.Some? <==> n <= NsMax as real && (n / NsPerDay as real).Floor >= -106751
  {
    var k := (n / NsPerDay as real).Floor;
    Calendar.NsRangeOrdinal(Calendar.Epoch);
    if -NsMax as real <= n <= NsMax as real && k >= -106752 then
      var d := Calendar.AddDays(Calendar.Epoch, k);
      Calendar.NsRangeOrdinal(d);
      if Calendar.InNsRange(d) then Some(d) else None
    else None
  }

  /** `pd.to_datetime(v, errors="coerce").normalize()` on one cell: a date,
      a text holding an ISO date and possibly a time of day, which
      normalising drops, or a number of nanoseconds since 1970-01-01,
      floored to its day; in each case only inside the timestamp range.
      Anything else is `NaT` (None). */
  function ToDate(v: Cell): (r: Option<Calendar.Date>)
    ensures r.Some? ==> Calendar.Valid(r.value) && Calendar.InNsRange(r.value)
    ensures v.Day? ==> (r.Some? <==> Calendar.InNsRange(v.date)) && (r.Some? ==> r.value == v.date)
    ensures v.Str? && r.Some? ==> DateTimeShape(v.s) && Calendar.IsoFormat(r.value) == v.s[..10]
    ensures v.Str? && !DateTimeShape(v.s) ==> r.None?
    ensures v.Num? ==> r == EpochDay(v.n)
    ensures !v.Day? && !v.Str? && !v.Num? ==> r.None?
  {
    match v
    case Day(d) => if Calendar.InNsRange(d) then Some(d) else None
    case Str(s) =>
      if DateTimeShape(s) then
        match Calendar.ParseIso(s[..10])
        case Some(d) => if Calendar.InNsRange(d) then Some(d) else None
        case None => None
      else None
    case Num(n, _) => EpochDay(n)
    case _ => None
  }

  /** A number is a count of nanoseconds: 5 is 1970-01-01, one day's count
      is 1970-01-02, and one nanosecond before the epoch is 1969-12-31. */
  lemma ToDateOfNumber()
    ensures ToDate(Num(5.0, "5")) == Some(Calendar.Epoch)
    ensures ToDate(Num(NsPerDay as real, "86400000000000")) == Some(Calendar.Date(1970, 1, 2))
    ensures ToDate(Num(-1.0, "-1")) == Some(Calendar.Date(1969, 12, 31))
  {
    Calendar.NsRangeOrdinal(Calendar.Epoch);
    var a := ToDate(Num(5.0, "5")).value;
    Calendar.OrdinalInjective(a, Calendar.Epoch);
    var b := ToDate(Num(NsPerDay as real, "86400000000000")).value;
    Calendar.OrdinalInjective(b, Calendar.NextDay(Calendar.Epoch));
    var c := ToDate(Num(-1.0, "-1")).value;
    Calendar.OrdinalInjective(c, Calendar.PrevDay(Calendar.Epoch));
  }

  /** Dates outside the timestamp range are `NaT`, as a date cell and as
      text: 1500-01-01 is before 1677-09-22. */
  lemma ToDateOutOfRange()
    ensures ToDate(Day(Calendar.Date(1500, 1, 1))).None?
    ensures ToDate(Str("1500-01-01")).None?
    ensures ToDate(Num(NsMax as real + 1.0, "9223372036854775808")).None?
  {
    assert !Calendar.InNsRange(Calendar.Date(1500, 1, 1));
    var s := "1500-01-01";
    assert s[..10] == s;
    assert s[..4] == "1500";
    assert Calendar.DigitsValue("1") == 1;
    assert Calendar.DigitsValue("15") == 15 by { assert "15"[..1] == "1"; }
    assert Calendar.DigitsValue("150") == 150 by { assert "150"[..2] == "15"; }
    assert Calendar.DigitsValue("1500") == 1500 by { assert "1500"[..3] == "150"; }
  }

  /** A printed date reads back as itself, alone or with a time of day. */
  lemma ToDateOfIso(d: Calendar.Date, time: string)
    requires Calendar.InNsRange(d) && TimeShape(time)
    ensures ToDate(Str(Calendar.IsoFormat(d))) == Some(d)
    ensures ToDate(Str(Calendar.IsoFormat(d) + "T" + time)) == Some(d)
    ensures ToDate(Str(Calendar.IsoFormat(d) + " " + time)) == Some(d)
  {
    Calendar.ParseIsoFormat(d);
    var s := Calendar.IsoFormat(d);
    assert s[..10] == s;
    ToDateWithTime(s, 'T', time, d);
    ToDateWithTime(s, ' ', time, d);
  }

  lemma ToDateWithTime(s: string, sep: char, time: string, d: Calendar.Date)
    requires Calendar.ParseIso(s) == Some(d) && Calendar.InNsRange(d) && TimeShape(time) && (sep == 'T' || sep == ' ')
    ensures ToDate(Str(s + [sep] + time)) == Some(d)
  {
    var u := s + [sep] + time;
    assert u[..10] == s && u[10] == sep && u[11..] == time;
  }

  /** `if mapa:` and `if texto:` both hold: the map is non-empty and reads
      the value as a truthy text, which is returned. */
  predicate Wins(v: Cell, m: IdMap) {
    m != map[] && MapList(v, m).Some? && Truthy(MapList(v, m).value)
  }

  /** The map is non-empty and reading the value through it raises. */
  predicate Raises(v: Cell, m: IdMap) {
    m != map[] && MapList(v, m).None?
  }

  /** The map is skipped (`if mapa:` fails) or reads the value as a falsy
      text, so the next map is tried. */
  predicate PassesOn(v: Cell, m: IdMap) {
    m == map[] || (MapList(v, m).Some? && !Truthy(MapList(v, m).value))
  }

  /** Every map before position `k` passes the value on. */
  predicate AllPassOn(v: Cell, maps: seq<IdMap>, k: nat)
    requires k <= |maps|
  {
    forall h :: 0 <= h < k ==> PassesOn(v, maps[h])
  }

  /** `_mapear_responsavel`: each non-empty map in turn, keeping the first
      truthy reading; a map that raises ends the search with the exception;
      otherwise the value read with no map. */
  function ResolveWith(v: Cell, maps: seq<IdMap>): (r: Option<Cell>)
    ensures r.Some? ==>
      (exists k :: 0 <= k < |maps| && maps[k] != map[] && MapList(v, maps[k]) == r && Truthy(r.value))
      || r == MapList(v, map[])
    ensures (forall k :: 0 <= k < |maps| ==> maps[k] == map[]) ==> r == MapList(v, map[])
    ensures forall k :: 0 <= k < |maps| && AllPassOn(v, maps, k) && Wins(v, maps[k]) ==> r == MapList(v, maps[k])
    ensures forall k :: 0 <= k < |maps| && AllPassOn(v, maps, k) && Raises(v, maps[k]) ==> r.None?
    ensures AllPassOn(v, maps, |maps|) ==> r == MapList(v, map[])
  {
    if |maps| == 0 then MapList(v, map[])
    else
      var rest := ResolveWith(v, maps[1..]);
      assert forall k :: 1 <= k < |maps| ==> maps[k] == maps[1..][k - 1];
      assert forall k :: 1 <= k <= |maps| && AllPassOn(v, maps, k) ==> AllPassOn(v, maps[1..], k - 1);
      if maps[0] == map[] then rest
      else
        match MapList(v, maps[0])
        case None => None
        case Some(text) => if Truthy(text) then Some(text) else rest
  }

  /** The responsible person: the permissions map, then the general name
      map, then the scouts map; the first that reads a truthy text wins, a
      map that raises before that raises, and with none the raw reading. */
  function Responsible(v: Cell, permissions: IdMap, names: IdMap, scouts: IdMap): (r: Option<Cell>)
    ensures r.Some? ==>
      (permissions != map[] && MapList(v, permissions) == r && Truthy(r.value))
      || (names != map[] && MapList(v, names) == r && Truthy(r.value))
      || (scouts != map[] && MapList(v, scouts) == r && Truthy(r.value))
      || r == MapList(v, map[])
    ensures Wins(v, permissions) ==> r == MapList(v, permissions)
    ensures PassesOn(v, permissions) && Wins(v, names) ==> r == MapList(v, names)
    ensures PassesOn(v, permissions) && PassesOn(v, names) && Wins(v, scouts) ==> r == MapList(v, scouts)
    ensures Raises(v, permissions) ==> r.None?
    ensures PassesOn(v, permissions) && Raises(v, names) ==> r.None?
    ensures PassesOn(v, permissions) && PassesOn(v, names) && Raises(v, scouts) ==> r.None?
    ensures PassesOn(v, permissions) && PassesOn(v, names) && PassesOn(v, scouts) ==> r == MapList(v, map[])
  {
    var maps := [permissions, names, scouts];
    assert AllPassOn(v, maps, 0);
    assert PassesOn(v, permissions) ==> AllPassOn(v, maps, 1);
    assert PassesOn(v, permissions) && PassesOn(v, names) ==> AllPassOn(v, maps, 2);
    assert PassesOn(v, permissions) && PassesOn(v, names) && PassesOn(v, scouts) ==> AllPassOn(v, maps, 3);
    ResolveWith(v, maps)
  }

  /** An identifier the permissions map knows, with a non-empty name, is
      resolved through that map whatever the other maps hold. */
  lemma PermissionsFirst(id: string, permissions: IdMap, names: IdMap, scouts: IdMap)
    requires id in permissions && permissions[id].Str? && permissions[id].s != ""
    ensures Responsible(Str(id), permissions, names, scouts) == Some(permissions[id])
  {
    assert [permissions, names, scouts][0] == permissions;
  }

  /** With no permissions map, an identifier the name map knows, with a
      non-empty name, is resolved there whatever the scouts map holds. */
  lemma NamesWhenNoPermissions(id: string, names: IdMap, scouts: IdMap)
    requires id in names && names[id].Str? && names[id].s != ""
    ensures Responsible(Str(id), map[], names, scouts) == Some(names[id])
  {
  }

  /** `mapping.get(v, v)` keeps an identifier the map does not know, and a
      non-empty identifier is truthy: a non-empty permissions map that does
      not know the identifier returns it as it is, and the name and scouts
      maps are never consulted. */
  lemma UnknownIdStopsAtPermissions(id: string, permissions: IdMap, names: IdMap, scouts: IdMap)
    requires permissions != map[] && id !in permissions && id != ""
    ensures Responsible(Str(id), permissions, names, scouts) == Some(Str(id))
  {
  }

  /** The scouts map is reached only past two maps that pass the value on:
      with the other two empty, a scout the scouts map knows is named there. */
  lemma ScoutsWhenOthersEmpty(id: string, scouts: IdMap)
    requires id in scouts && scouts[id].Str? && scouts[id].s != ""
    ensures Responsible(Str(id), map[], map[], scouts) == Some(scouts[id])
  {
  }

  /** With every map empty, the value is read as it is. */
  lemma NoMapsRaw(v: Cell)
    ensures Responsible(v, map[], map[], map[]) == MapList(v, map[])
  {
  }

  /** The maps used to name people. */
  datatype Maps = Maps(scouts: IdMap, permissions: IdMap, names: IdMap)

  /** Reads one source row into a reversal; `None` where Python raises. */
  function ReadRow(row: Row, origin: nat, c: Chosen, maps: Maps, version: Version): (r: Option<Reversal>)
    ensures r.Some? ==> r.value.origin == origin
    ensures r.Some? && r.value.amount.Some? ==> r.value.amount.value >= 0.0
    ensures r.Some? && c.amount.Some? && version.Current? ==>
      r.value.amount == (match ToNumeric(ExtractAmount(Get(row, c.amount.value)))
                         case Some(x) => Some(Abs(x)) case None => None)
    ensures r.Some? && c.amount.Some? && version.Legacy? ==>
      r.value.amount == (match ToNumeric(Get(row, c.amount.value))
                         case Some(x) => Some(Abs(x)) case None => None)
    ensures r.Some? && c.amount.None? ==> r.value.amount.None?
    ensures r.Some? && c.reason.None? ==> r.value.reason == Absent
  {
    var scout :- if c.scout.Some? then MapList(Get(row, c.scout.value), maps.scouts) else Some(Absent);
    var responsible :- if c.responsible.Some?
      then Responsible(Get(row, c.responsible.value), maps.permissions, maps.names, maps.scouts)
      else Some(Absent);
    var reason :- if c.reason.Some? then MapList(Get(row, c.reason.value), map[]) else Some(Absent);
    var amountCell := if c.amount.Some? then
      (if version.Current? then ExtractAmount(Get(row, c.amount.value)) else Get(row, c.amount.value))
      else Absent;
    var amount := match ToNumeric(amountCell) case Some(x) => Some(Abs(x)) case None => None;
    var payment := if c.payment.Some? then
      (if version.Current? then FirstOfList(Get(row, c.payment.value)) else Get(row, c.payment.value))
      else Absent;
    var date := if c.date.Some? then
      ToDate(if version.Current? then FirstOfList(Get(row, c.date.value)) else Get(row, c.date.value))
      else None;
    Some(Reversal(origin, scout, amount, payment, date, responsible, reason))
  }

  /** Reading a row raises exactly when mapping its scout, its responsible
      person or its reason raises. */
  lemma ReadRowRaises(row: Row, origin: nat, c: Chosen, maps: Maps, version: Version)
    ensures ReadRow(row, origin, c, maps, version).None? <==>
      (c.scout.Some? && MapList(Get(row, c.scout.value), maps.scouts).None?)
      || (c.responsible.Some?
          && Responsible(Get(row, c.responsible.value), maps.permissions, maps.names, maps.scouts).None?)
      || (c.reason.Some? && MapList(Get(row, c.reason.value), map[]).None?)
  {
  }

  /** The mapped fields of a row read: the scout through the scouts map,
      the responsible person through the three maps in turn, the reason
      with no map, each missing without its column. */
  lemma ReadRowMapped(row: Row, origin: nat, c: Chosen, maps: Maps, version: Version)
    requires ReadRow(row, origin, c, maps, version).Some?
    ensures var rev := ReadRow(row, origin, c, maps, version).value;
      (c.scout.Some? ==> Some(rev.scout) == MapList(Get(row, c.scout.value), maps.scouts))
      && (c.scout.None? ==> rev.scout == Absent)
      && (c.responsible.Some? ==>
            Some(rev.responsible) == Responsible(Get(row, c.responsible.value), maps.permissions, maps.names, maps.scouts))
      && (c.responsible.None? ==> rev.responsible == Absent)
      && (c.reason.Some? ==> Some(rev.reason) == MapList(Get(row, c.reason.value), map[]))
      && (c.reason.None? ==> rev.reason == Absent)
  {
  }

  /** The payment and date fields of a row read: the first element of a
      list in the current version, the cell itself in the older one, and
      the date through `ToDate`; missing without their column. */
  lemma ReadRowPlain(row: Row, origin: nat, c: Chosen, maps: Maps, version: Version)
    requires ReadRow(row, origin, c, maps, version).Some?
    ensures var rev := ReadRow(row, origin, c, maps, version).value;
      (c.payment.Some? && version.Current? ==> rev.payment == FirstOfList(Get(row, c.payment.value)))
      && (c.payment.Some? && version.Legacy? ==> rev.payment == Get(row, c.payment.value))
      && (c.payment.None? ==> rev.payment == Absent)
      && (c.date.Some? && version.Current? ==> rev.date == ToDate(FirstOfList(Get(row, c.date.value))))
      && (c.date.Some? && version.Legacy? ==> rev.date == ToDate(Get(row, c.date.value)))
      && (c.date.None? ==> rev.date.None?)
  {
  }

  /** Every field is missing (`dropna(how="all")`). */
  predicate AllMissing(r: Reversal) {
    r.scout.Absent? && r.amount.None? && r.payment.Absent? && r.date.None?
    && r.responsible.Absent? && r.reason.Absent?
  }

  /** The row survives the two drops: not all missing, and with an amount
      when there is an amount column. */
  predicate Kept(r: Reversal, c: Chosen) {
    !AllMissing(r) && (c.amount.Some? ==> r.amount.Some?)
  }

  predicate Increasing(xs: seq<nat>) {
    forall k, l :: 0 <= k < l < |xs| ==> xs[k] < xs[l]
  }

  /** The source positions of some reversals. */
  function Origins(rs: seq<Reversal>): (r: seq<nat>)
    ensures |r| == |rs|
    ensures forall k :: 0 <= k < |rs| ==> r[k] == rs[k].origin
  {
    seq(|rs|, k requires 0 <= k < |rs| => rs[k].origin)
  }

  /** Reads the rows at `positions` in order with `read` and keeps those
      satisfying `keep`; `None` as soon as a read raises. */
  function Collect(positions: seq<nat>, read: nat -> Option<Reversal>, keep: Reversal -> bool): (r: Option<seq<Reversal>>)
    requires forall p :: p in positions && read(p).Some? ==> read(p).value.origin == p
    ensures r.None? <==> exists p :: p in positions && read(p).None?
    ensures r.Some? ==> forall rev :: rev in r.value ==>
              keep(rev) && rev.origin in positions && read(rev.origin) == Some(rev)
  {
    if |positions| == 0 then Some([])
    else
      var p := positions[0];
      var tail := positions[1..];
      assert forall q :: q in tail ==> q in positions;
      assert forall q :: q in positions ==> q == p || q in tail;
      match read(p)
      case None => None
      case Some(rev) =>
        match Collect(tail, read, keep)
        case None => None
        case Some(rest) =>
          if keep(rev) then
            assert forall x :: x in [rev] + rest ==> x == rev || x in rest;
            Some([rev] + rest)
          else Some(rest)
  }

  /** Every read row that survives is collected. */
  lemma {:induction false} CollectComplete(positions: seq<nat>, read: nat -> Option<Reversal>, keep: Reversal -> bool)
    requires forall p :: p in positions && read(p).Some? ==> read(p).value.origin == p
    requires Collect(positions, read, keep).Some?
    ensures forall p :: p in positions && read(p).Some? && keep(read(p).value) ==>
              p in Origins(Collect(positions, read, keep).value)
  {
    if |positions| > 0 {
      var p := positions[0];
      var tail := positions[1..];
      assert forall q :: q in tail ==> q in positions;
      CollectComplete(tail, read, keep);
      var rest := Collect(tail, read, keep).value;
      var out := Collect(positions, read, keep).value;
      assert forall q :: q in Origins(rest) ==> q in Origins(out) by {
        if keep(read(p).value) {
          assert out == [read(p).value] + rest;
          assert Origins(out) == [p] + Origins(rest);
        } else {
          assert out == rest;
        }
      }
      assert keep(read(p).value) ==> p in Origins(out) by {
        if keep(read(p).value) {
          assert out[0] == read(p).value;
          assert Origins(out)[0] == p;
        }
      }
      forall q | q in positions && read(q).Some? && keep(read(q).value)
        ensures q in Origins(out)
      {
        if q != p {
          assert q in tail;
        }
      }
    }
  }

  /** Rows are collected in the order of their positions. */
  lemma {:induction false} CollectOrdered(positions: seq<nat>, read: nat -> Option<Reversal>, keep: Reversal -> bool)
    requires forall p :: p in positions && read(p).Some? ==> read(p).value.origin == p
    requires Collect(positions, read, keep).Some? && Increasing(positions)
    ensures Increasing(Origins(Collect(positions, read, keep).value))
  {
    if |positions| > 0 {
      var p := positions[0];
      var tail := positions[1..];
      CollectStep(positions, read, keep);
      IncreasingTail(positions);
      CollectOrdered(tail, read, keep);
      var rest := Collect(tail, read, keep).value;
      var rev := read(p).value;
      if keep(rev) {
        OriginsCons(rev, rest);
        OriginsIn(rest, tail);
        PrependIncreasing(p, Origins(rest));
      }
    }
  }

  /** One step of collecting: the first row read, then the rest. */
  lemma CollectStep(positions: seq<nat>, read: nat -> Option<Reversal>, keep: Reversal -> bool)
    requires forall p :: p in positions && read(p).Some? ==> read(p).value.origin == p
    requires |positions| > 0 && Collect(positions, read, keep).Some?
    ensures forall q :: q in positions[1..] && read(q).Some? ==> read(q).value.origin == q
    ensures read(positions[0]).Some? && read(positions[0]).value.origin == positions[0]
    ensures Collect(positions[1..], read, keep).Some?
    ensures forall rev :: rev in Collect(positions[1..], read, keep).value ==> rev.origin in positions[1..]
    ensures Collect(positions, read, keep).value ==
      (if keep(read(positions[0]).value)
       then [read(positions[0]).value] + Collect(positions[1..], read, keep).value
       else Collect(positions[1..], read, keep).value)
  {
    assert forall q :: q in positions[1..] ==> q in positions;
  }

  lemma OriginsCons(rev: Reversal, rest: seq<Reversal>)
    ensures Origins([rev] + rest) == [rev.origin] + Origins(rest)
  {
  }

  lemma IncreasingTail(xs: seq<nat>)
    requires |xs| > 0 && Increasing(xs)
    ensures Increasing(xs[1..]) && forall q :: q in xs[1..] ==> xs[0] < q
  {
    forall k, l | 0 <= k < l < |xs[1..]| ensures xs[1..][k] < xs[1..][l] {
      assert xs[1..][k] == xs[k + 1] && xs[1..][l] == xs[l + 1];
    }
    forall q | q in xs[1..] ensures xs[0] < q {
      var i :| 0 <= i < |xs[1..]| && xs[1..][i] == q;
      assert xs[i + 1] == q;
    }
  }

  lemma OriginsIn(rs: seq<Reversal>, ps: seq<nat>)
    requires forall rev :: rev in rs ==> rev.origin in ps
    ensures forall q :: q in Origins(rs) ==> q in ps
  {
    forall q | q in Origins(rs) ensures q in ps {
      var k :| 0 <= k < |Origins(rs)| && Origins(rs)[k] == q;
      assert rs[k] in rs;
    }
  }

  lemma PrependIncreasing(p: nat, xs: seq<nat>)
    requires Increasing(xs) && forall q :: q in xs ==> p < q
    ensures Increasing([p] + xs)
  {
    forall k, l | 0 <= k < l < |[p] + xs|
      ensures ([p] + xs)[k] < ([p] + xs)[l]
    {
      assert ([p] + xs)[l] == xs[l - 1] && xs[l - 1] in xs;
      if k > 0 {
        assert ([p] + xs)[k] == xs[k - 1];
      }
    }
  }

  /** The result: the chosen columns and the rows kept. */
  datatype Frame = Frame(chosen: Chosen, rows: seq<Reversal>)

  const NoColumns := Chosen(None, None, None, None, None, None)

  /** `pd.DataFrame()` */
  const EmptyFrame := Frame(NoColumns, [])

  /** The rows the builder reads: every row of a dedicated table, or the
      receipts recognised as reversals. */
  function Selection(src: Source): (r: seq<nat>)
    ensures Increasing(r)
    ensures forall k :: 0 <= k < |r| ==> r[k] < |src.table.rows|
    ensures src.FromReceipts? ==> forall k :: 0 <= k < |r| ==> IsReversal(src.table, src.table.rows[r[k]])
    ensures src.FromReceipts? ==> forall i :: 0 <= i < |src.table.rows| && IsReversal(src.table, src.table.rows[i]) ==> i in r
    ensures src.Dedicated? ==> |r| == |src.table.rows|
  {
    if src.FromReceipts? then ReversalPositions(src.table) else AllPositions(|src.table.rows|)
  }

  /** Reads the row at position `p`, when there is one. */
  function ReadAt(t: Table, p: nat, c: Chosen, maps: Maps, version: Version): (r: Option<Reversal>)
    ensures r.Some? ==> p < |t.rows| && r.value.origin == p
    ensures r.Some? ==> r == ReadRow(t.rows[p], p, c, maps, version)
  {
    if p < |t.rows| then ReadRow(t.rows[p], p, c, maps, version) else None
  }

  /** Reads the selected rows with the chosen columns and keeps the ones
      that survive the drops. */
  function Assemble(t: Table, positions: seq<nat>, c: Chosen, maps: Maps, version: Version): (r: Option<Frame>)
    requires Increasing(positions)
    ensures r.Some? ==> r.value.chosen == c
    ensures r.Some? ==> forall rev :: rev in r.value.rows ==>
              Kept(rev, c) && rev.origin in positions && rev.origin < |t.rows|
              && ReadRow(t.rows[rev.origin], rev.origin, c, maps, version) == Some(rev)
    ensures r.Some? ==> Increasing(Origins(r.value.rows))
  {
    var read := (p: nat) => ReadAt(t, p, c, maps, version);
    var keep := rev => Kept(rev, c);
    var rows :- Collect(positions, read, keep);
    CollectOrdered(positions, read, keep);
    Some(Frame(c, rows))
  }

  /** Assembling raises exactly when reading one of the selected rows
      raises, and every selected row that survives the drops is kept. */
  lemma AssembleComplete(t: Table, positions: seq<nat>, c: Chosen, maps: Maps, version: Version)
    requires Increasing(positions)
    ensures Assemble(t, positions, c, maps, version).None? <==>
              exists p :: p in positions && ReadAt(t, p, c, maps, version).None?
    ensures Assemble(t, positions, c, maps, version).Some? ==>
              forall p :: (p in positions && ReadAt(t, p, c, maps, version).Some?
                && Kept(ReadAt(t, p, c, maps, version).value, c)) ==> p in Origins(Assemble(t, positions, c, maps, version).value.rows)
  {
    var read := (p: nat) => ReadAt(t, p, c, maps, version);
    var keep := rev => Kept(rev, c);
    if Collect(positions, read, keep).Some? {
      CollectComplete(positions, read, keep);
    }
  }

  /** `preparar_dataframe_estornos` in either version; `None` where Python
      raises. */
  function Build(ds: Dataset, maps: Maps, version: Version): (r: Option<Frame>)
    ensures FindSource(ds).None? ==> r == Some(EmptyFrame)
    ensures r.Some? ==> forall rev :: rev in r.value.rows ==> !AllMissing(rev)
    ensures r.Some? ==> forall rev :: rev in r.value.rows ==> rev.amount.Some? ==> rev.amount.value >= 0.0
    ensures r.Some? && r.value.chosen.amount.Some? ==> forall rev :: rev in r.value.rows ==> rev.amount.Some?
    ensures r.Some? ==> Increasing(Origins(r.value.rows))
    ensures r.Some? && FindSource(ds).Some? ==> forall rev :: rev in r.value.rows ==> rev.origin < |FindSource(ds).value.table.rows|
    ensures r.Some? && FindSource(ds).Some? && FindSource(ds).value.FromReceipts? ==>
              forall rev :: rev in r.value.rows ==> IsReversal(FindSource(ds).value.table, FindSource(ds).value.table.rows[rev.origin])
    ensures r.Some? && version.Legacy? ==> forall rev :: rev in r.value.rows ==> rev.reason == Absent
  {
    match FindSource(ds)
    case None => Some(EmptyFrame)
    case Some(src) =>
      var positions := Selection(src);
      if |positions| == 0 then Some(EmptyFrame)
      else
        var c := Choose(SelectRows(src.table, positions), version);
        var r := Assemble(src.table, positions, c, maps, version);
        assert r.Some? ==> forall rev :: rev in r.value.rows ==> rev.amount.Some? ==> rev.amount.value >= 0.0;
        r
  }

  /** With a source found, the builder reads exactly the selected rows with
      the columns chosen from them: it raises exactly when one of those rows
      raises, and every selected row that survives the drops is in the
      result. */
  lemma BuildReadsSelection(ds: Dataset, maps: Maps, version: Version, src: Source, c: Chosen)
    requires FindSource(ds) == Some(src)
    requires c == Choose(SelectRows(src.table, Selection(src)), version)
    ensures Build(ds, maps, version).None? <==>
              exists p :: p in Selection(src) && ReadAt(src.table, p, c, maps, version).None?
    ensures Build(ds, maps, version).Some? && |Selection(src)| > 0 ==> Build(ds, maps, version).value.chosen == c
    ensures Build(ds, maps, version).Some? ==>
              forall p :: (p in Selection(src) && ReadAt(src.table, p, c, maps, version).Some?
                && Kept(ReadAt(src.table, p, c, maps, version).value, c)) ==> p in Origins(Build(ds, maps, version).value.rows)
  {
    var ps := Selection(src);
    if |ps| > 0 {
      BuildIsAssemble(ds, maps, version, src, c);
      AssembleComplete(src.table, ps, c, maps, version);
    }
  }

  /** With a source found and a non-empty selection, the builder is the
      assembly of the selected rows with the columns chosen from them. */
  lemma BuildIsAssemble(ds: Dataset, maps: Maps, version: Version, src: Source, c: Chosen)
    requires FindSource(ds) == Some(src) && |Selection(src)| > 0
    requires c == Choose(SelectRows(src.table, Selection(src)), version)
    ensures Build(ds, maps, version) == Assemble(src.table, Selection(src), c, maps, version)
  {
  }
}

=== FILE: session.dfy ===
/** The session side of the context registry (airtable_config.py): the
    selected context, automatic selection, clearing, and what is read from
    the selected context. The session state is a map from keys to values. */
module Session {
  import opened Common
  import opened Text
  import opened Cells
  import opened Contexts

  type State = map<string, Cell>

  /** `current_context()`: the context whose key the session holds, when the
      stored value is truthy. */
  function Current(s: State, ctxs: seq<Context>): (r: Option<Context>)
    ensures SessionContextKey !in s || !Truthy(s[SessionContextKey]) ==> r.None?
    ensures r.Some? ==> r.value in ctxs && r.value.key == ConfigText(s[SessionContextKey])
    ensures SessionContextKey in s && Truthy(s[SessionContextKey]) ==> r == ByKey(ctxs, ConfigText(s[SessionContextKey]))
  {
    if SessionContextKey in s && Truthy(s[SessionContextKey]) then ByKey(ctxs, ConfigText(s[SessionContextKey]))
    else None
  }

  /** `ensure_context_selected()`: the current context, else the only
      context (which becomes selected), else nothing with the session
      unchanged. */
  function EnsureSelected(s: State, ctxs: seq<Context>): (r: (Option<Context>, State))
    ensures Current(s, ctxs).Some? ==> r == (Current(s, ctxs), s)
    ensures Current(s, ctxs).None? && |ctxs| == 1 ==> r == (Some(ctxs[0]), s[SessionContextKey := Str(ctxs[0].key)])
    ensures Current(s, ctxs).None? && |ctxs| != 1 ==> r == (None, s)
    ensures forall k :: k != SessionContextKey ==> (k in r.1 <==> k in s) && (k in s ==> r.1[k] == s[k])
  {
    var cur := Current(s, ctxs);
    if cur.Some? then (cur, s)
    else if |ctxs| == 1 then (Some(ctxs[0]), s[SessionContextKey := Str(ctxs[0].key)])
    else (None, s)
  }

  /** Once a context is selected, selecting again returns the same context
      and leaves the session as it is, provided keys are non-empty (as every
      registry key is). */
  lemma EnsureSelectedIdempotent(s: State, ctxs: seq<Context>)
    requires forall i :: 0 <= i < |ctxs| ==> ctxs[i].key != ""
    requires EnsureSelected(s, ctxs).0.Some?
    ensures var (c, s') := EnsureSelected(s, ctxs); EnsureSelected(s', ctxs) == (c, s')
  {
    var (c, s') := EnsureSelected(s, ctxs);
    if Current(s, ctxs).None? {
      assert s'[SessionContextKey] == Str(ctxs[0].key);
      assert ByKey(ctxs, ctxs[0].key) == Some(ctxs[0]);
    }
  }

  /** `clear_authentication(keep_context)`: removes every key, except the
      context key when `keep`. */
  function Clear(s: State, keep: bool): (r: State)
    ensures forall k :: k in r <==> k in s && keep && k == SessionContextKey
    ensures forall k :: k in r ==> r[k] == s[k]
  {
    if keep && SessionContextKey in s then map[SessionContextKey := s[SessionContextKey]] else map[]
  }

  /** `reset_context()` */
  function Reset(s: State): (r: State)
    ensures r == map[]
  {
    Clear(s, false)
  }

  /** Clearing while keeping the context keeps the selection; resetting
      drops it. */
  lemma ClearKeepsSelection(s: State, ctxs: seq<Context>)
    ensures Current(Clear(s, true), ctxs) == Current(s, ctxs)
    ensures Current(Reset(s), ctxs).None?
  {
  }

  /** `get_airtable_credentials()`: the token and base id of the current
      context; `None` where Python raises for want of one. */
  function Credentials(s: State, ctxs: seq<Context>): (r: Option<(Cell, Cell)>)
    ensures r.None? <==> Current(s, ctxs).None?
    ensures r.Some? ==> r.value == (Current(s, ctxs).value.token, Current(s, ctxs).value.baseId)
  {
    var ctx :- Current(s, ctxs);
    Some((ctx.token, ctx.baseId))
  }

  /** `context_labels()`: "group · section" of the current context. */
  function Labels(s: State, ctxs: seq<Context>): (r: Option<string>)
    ensures r.None? <==> Current(s, ctxs).None?
    ensures r.Some? ==> r.value == Current(s, ctxs).value.groupLabel + " · " + Current(s, ctxs).value.sectionLabel
  {
    var ctx :- Current(s, ctxs);
    Some(ctx.groupLabel + " · " + ctx.sectionLabel)
  }

  /** `context_extra(name, default)`: the default without a current
      context. */
  function ContextExtra(s: State, ctxs: seq<Context>, name: string, default: Option<string>): (r: Option<string>)
    ensures Current(s, ctxs).None? ==> r == default
    ensures Current(s, ctxs).Some? ==> r == Extra(Current(s, ctxs).value, name, default)
  {
    match Current(s, ctxs)
    case None => default
    case Some(ctx) => Extra(ctx, name, default)
  }

  /** Selecting the only context of a registry makes its credentials and
      labels available. */
  lemma SingleContextSelected(s: State, ctxs: seq<Context>)
    requires |ctxs| == 1 && ctxs[0].key != ""
    ensures var s' := EnsureSelected(s, ctxs).1;
            Credentials(s', ctxs).Some? && Labels(s', ctxs).Some?
  {
    var s' := EnsureSelected(s, ctxs).1;
    if Current(s, ctxs).None? {
      assert s'[SessionContextKey] == Str(ctxs[0].key);
      assert ByKey(ctxs, ctxs[0].key) == Some(ctxs[0]);
    }
  }
}

=== FILE: sorting.dfy ===
/** Python's stable `list.sort(key=...)`, as an insertion sort over a
    "less than or equal" relation on the elements, and Python's ordering of
    strings (code point by code point). */
module Sorting {
  import opened Common

  /** `le` is total and transitive, so sorting by it is meaningful. */
  ghost predicate TotalPreorder<T(!new)>(le: (T, T) -> bool) {
    && (forall a, b :: le(a, b) || le(b, a))
    && (forall a, b, c :: le(a, b) && le(b, c) ==> le(a, c))
  }

  ghost predicate SortedBy<T>(xs: seq<T>, le: (T, T) -> bool) {
    forall i, j :: 0 <= i < j < |xs| ==> le(xs[i], xs[j])
  }

  /** Puts `x` in front of the first element it is not after. Because `x`
      goes before elements that compare equal to it, sorting by repeated
      insertion from the front keeps equal elements in their original order. */
  function Insert<T>(x: T, ys: seq<T>, le: (T, T) -> bool): (r: seq<T>)
    ensures multiset(r) == multiset(ys) + multiset{x}
    ensures |r| == |ys| + 1
  {
    if |ys| == 0 then [x]
    else if le(x, ys[0]) then [x] + ys
    else
      assert ys == [ys[0]] + ys[1..];
      [ys[0]] + Insert(x, ys[1..], le)
  }

  /** `sorted(xs, key=...)`: a permutation of `xs`, ordered by `le`. */
  function Sort<T>(xs: seq<T>, le: (T, T) -> bool): (r: seq<T>)
    ensures multiset(r) == multiset(xs)
    ensures |r| == |xs|
  {
    if |xs| == 0 then []
    else
      assert xs == [xs[0]] + xs[1..];
      Insert(xs[0], Sort(xs[1..], le), le)
  }

  lemma {:induction false} InsertSorted<T(!new)>(x: T, ys: seq<T>, le: (T, T) -> bool)
    requires TotalPreorder(le)
    requires SortedBy(ys, le)
    ensures SortedBy(Insert(x, ys, le), le)
  {
    if |ys| > 0 && !le(x, ys[0]) {
      InsertSorted(x, ys[1..], le);
      var r := Insert(x, ys, le);
      var tail := Insert(x, ys[1..], le);
      assert r == [ys[0]] + tail;
      assert le(ys[0], x);
      forall k | 0 <= k < |tail|
        ensures le(ys[0], tail[k])
      {
        assert tail[k] in multiset(tail);
        assert tail[k] in multiset(ys[1..]) + multiset{x};
        if tail[k] != x {
          assert tail[k] in multiset(ys[1..]);
          var m :| 0 <= m < |ys[1..]| && ys[1..][m] == tail[k];
          assert ys[m + 1] == tail[k];
        }
      }
    }
  }

  /** The result of `Sort` is ordered by `le`. */
  lemma {:induction false} SortSorted<T(!new)>(xs: seq<T>, le: (T, T) -> bool)
    requires TotalPreorder(le)
    ensures SortedBy(Sort(xs, le), le)
  {
    if |xs| > 0 {
      SortSorted(xs[1..], le);
      InsertSorted(xs[0], Sort(xs[1..], le), le);
    }
  }

  /** The elements `le` cannot tell apart from `x`. */
  function EquivTo<T>(le: (T, T) -> bool, x: T): T -> bool {
    a => le(a, x) && le(x, a)
  }

  /** Inserting `y` puts it in front of every element equivalent to it. */
  lemma {:induction false} InsertStable<T(!new)>(y: T, ys: seq<T>, le: (T, T) -> bool, x: T)
    requires TotalPreorder(le)
    ensures Filter(Insert(y, ys, le), EquivTo(le, x)) ==
            (if EquivTo(le, x)(y) then [y] else []) + Filter(ys, EquivTo(le, x))
  {
    var q := EquivTo(le, x);
    if |ys| > 0 {
      if le(y, ys[0]) {
        assert Insert(y, ys, le) == [y] + ys;
      } else {
        InsertStable(y, ys[1..], le, x);
        var tail := Insert(y, ys[1..], le);
        assert Insert(y, ys, le) == [ys[0]] + tail;
        assert Filter([ys[0]] + tail, q) == (if q(ys[0]) then [ys[0]] else []) + Filter(tail, q);
        assert q(y) ==> !q(ys[0]);
      }
    }
  }

  /** `Sort` is stable: the elements equivalent to any `x` come out in the
      order they went in. */
  lemma {:induction false} SortStable<T(!new)>(xs: seq<T>, le: (T, T) -> bool, x: T)
    requires TotalPreorder(le)
    ensures Filter(Sort(xs, le), EquivTo(le, x)) == Filter(xs, EquivTo(le, x))
  {
    if |xs| > 0 {
      SortStable(xs[1..], le, x);
      InsertStable(xs[0], Sort(xs[1..], le), le, x);
    }
  }

  /** Python's `a <= b` on strings. */
  predicate StrLe(a: string, b: string)
    decreases |a|
  {
    if |a| == 0 then true
    else if |b| == 0 then false
    else if a[0] != b[0] then a[0] < b[0]
    else StrLe(a[1..], b[1..])
  }

  lemma {:induction false} StrLeTotal(a: string, b: string)
    ensures StrLe(a, b) || StrLe(b, a)
    decreases |a|
  {
    if |a| > 0 && |b| > 0 && a[0] == b[0] {
      StrLeTotal(a[1..], b[1..]);
    }
  }

  lemma {:induction false} StrLeTransitive(a: string, b: string, c: string)
    requires StrLe(a, b) && StrLe(b, c)
    ensures StrLe(a, c)
    decreases |a|
  {
    if |a| > 0 && |b| > 0 && |c| > 0 && a[0] == b[0] && b[0] == c[0] {
      StrLeTransitive(a[1..], b[1..], c[1..]);
    }
  }

  lemma {:induction false} StrLeAntisymmetric(a: string, b: string)
    requires StrLe(a, b) && StrLe(b, a)
    ensures a == b
    decreases |a|
  {
    if |a| > 0 && |b| > 0 {
      StrLeAntisymmetric(a[1..], b[1..]);
      assert a == [a[0]] + a[1..] && b == [b[0]] + b[1..];
    }
  }

  /** Python's `<=` on the tuple `(x1, y1)` against `(x2, y2)` of strings. */
  predicate StrPairLe(x1: string, y1: string, x2: string, y2: string) {
    if x1 != x2 then StrLe(x1, x2) else StrLe(y1, y2)
  }

  lemma StrPairLeTotal(x1: string, y1: string, x2: string, y2: string)
    ensures StrPairLe(x1, y1, x2, y2) || StrPairLe(x2, y2, x1, y1)
  {
    StrLeTotal(x1, x2);
    StrLeTotal(y1, y2);
  }

  lemma StrPairLeTransitive(x1: string, y1: string, x2: string, y2: string, x3: string, y3: string)
    requires StrPairLe(x1, y1, x2, y2) && StrPairLe(x2, y2, x3, y3)
    ensures StrPairLe(x1, y1, x3, y3)
  {
    if x1 != x2 && x2 != x3 {
      StrLeTransitive(x1, x2, x3);
      if x1 == x3 {
        StrLeAntisymmetric(x1, x2);
      }
    } else if x1 == x2 && x2 == x3 {
      StrLeTransitive(y1, y2, y3);
    }
  }
}

=== FILE: stats.dfy ===
/** The statistics page's tallies (pages/5_Estatisticas.py): counting the
    values of a column and sorting account balances into bands. */
module Stats {
  import opened Common
  import opened Text
  import opened Cells
  import opened Tables

  // ---------------------------------------------------------------------
  // Occurrences

  /** The values one cell contributes: the stripped, non-blank texts of a
      list's elements, a text stripped (even when that leaves it empty),
      nothing otherwise. */
  function ValuesOf(c: Cell): (r: seq<string>)
    ensures c.Str? ==> r == [Strip(c.s)]
    ensures !c.Str? && !c.List? ==> r == []
    ensures c.List? ==> forall v :: v in r ==> v != ""
  {
    match c
    case Str(s) => [Strip(s)]
    case List(items) => ItemTexts(items)
    case _ => []
  }

  /** One element's contribution: its stripped text, unless blank. */
  function ItemText(c: Cell): (r: Option<string>)
    ensures r.Some? <==> !IsBlank(ConfigText(c))
    ensures r.Some? ==> r.value == Strip(ConfigText(c))
  {
    var v := Strip(ConfigText(c));
    if v != "" then Some(v) else None
  }

  /** `[str(v).strip() for v in item if str(v).strip()]` */
  function ItemTexts(items: seq<Cell>): (r: seq<string>)
    ensures |r| <= |items|
    ensures forall v :: v in r ==> v != "" && exists i :: 0 <= i < |items| && v == Strip(ConfigText(items[i]))
    ensures forall i :: 0 <= i < |items| && !IsBlank(ConfigText(items[i])) ==> Strip(ConfigText(items[i])) in r
  {
    FilterMap(items, ItemText)
  }

  /** The values of a column, in row order; missing cells are dropped. */
  function Collect(cells: seq<Cell>): (r: seq<string>)
    ensures (forall i :: 0 <= i < |cells| ==> !cells[i].Str? && !cells[i].List?) ==> r == []
  {
    if |cells| == 0 then [] else ValuesOf(cells[0]) + Collect(cells[1..])
  }

  /** Each text cell contributes exactly one value: its stripped text, in
      row order. */
  lemma {:induction false} CollectTexts(cells: seq<Cell>)
    requires forall i :: 0 <= i < |cells| ==> cells[i].Str?
    ensures |Collect(cells)| == |cells|
    ensures forall i :: 0 <= i < |cells| ==> Collect(cells)[i] == Strip(cells[i].s)
  {
    if |cells| > 0 {
      CollectTexts(cells[1..]);
      var rest := Collect(cells[1..]);
      assert Collect(cells) == [Strip(cells[0].s)] + rest;
      forall i | 1 <= i < |cells|
        ensures Collect(cells)[i] == Strip(cells[i].s)
      {
        var c := cells[1..][i - 1];
        assert c == cells[i];
        assert rest[i - 1] == Strip(c.s);
        assert Collect(cells)[i] == rest[i - 1];
      }
    }
  }

  /** A value is collected exactly when some cell contributes it. */
  lemma {:induction false} CollectMembers(cells: seq<Cell>, v: string)
    ensures v in Collect(cells) <==> exists i :: 0 <= i < |cells| && v in ValuesOf(cells[i])
  {
    if |cells| > 0 {
      CollectMembers(cells[1..], v);
      if v in Collect(cells[1..]) {
        var j :| 0 <= j < |cells[1..]| && v in ValuesOf(cells[1..][j]);
        assert cells[1..][j] == cells[j + 1];
      }
      if exists i :: 0 <= i < |cells| && v in ValuesOf(cells[i]) {
        var i :| 0 <= i < |cells| && v in ValuesOf(cells[i]);
        if i > 0 {
          assert cells[1..][i - 1] == cells[i];
        }
      }
    }
  }

  /** How many values a column yields: one per text cell, the non-blank
      elements of each list, nothing for the rest. */
  function ValueCount(cells: seq<Cell>): nat {
    if |cells| == 0 then 0 else |ValuesOf(cells[0])| + ValueCount(cells[1..])
  }

  /** The collected values are the cells' contributions laid end to end. */
  lemma {:induction false} CollectLength(cells: seq<Cell>)
    ensures |Collect(cells)| == ValueCount(cells)
  {
    if |cells| > 0 {
      CollectLength(cells[1..]);
    }
  }

  /** A tally: distinct values with how often each occurs, in order of
      first occurrence. */
  datatype Tally = Tally(item: string, total: nat)

  function Items(t: seq<Tally>): seq<string> {
    seq(|t|, i requires 0 <= i < |t| => t[i].item)
  }

  predicate DistinctItems(t: seq<Tally>) {
    forall i, j :: 0 <= i < j < |t| ==> t[i].item != t[j].item
  }

  function Sum(t: seq<Tally>): nat {
    if |t| == 0 then 0 else t[0].total + Sum(t[1..])
  }

  /** Counts one more occurrence of `x`. */
  function Bump(t: seq<Tally>, x: string): (r: seq<Tally>)
    ensures |r| == |t| || (|r| == |t| + 1 && r[|t|] == Tally(x, 1))
    ensures forall i :: 0 <= i < |t| ==> r[i].item == t[i].item
    ensures (forall i :: 0 <= i < |t| ==> t[i].item != x) <==> |r| == |t| + 1
    ensures DistinctItems(t) ==> DistinctItems(r)
  {
    if |t| == 0 then [Tally(x, 1)]
    else if t[0].item == x then
      var r := [Tally(x, t[0].total + 1)] + t[1..];
      assert forall i :: 1 <= i < |t| ==> r[i] == t[i];
      r
    else
      var rest := Bump(t[1..], x);
      var r := [t[0]] + rest;
      assert forall i :: 1 <= i < |r| ==> r[i] == rest[i - 1];
      assert forall i :: 1 <= i < |t| ==> t[i] == t[1..][i - 1];
      assert DistinctItems(t) ==> DistinctItems(r) by {
        if DistinctItems(t) {
          assert DistinctItems(t[1..]);
          assert forall i :: 1 <= i < |r| ==> r[i].item != t[0].item;
        }
      }
      r
  }

  /** In a tally of distinct items only the total of `x` moves, by one. */
  lemma {:induction false} BumpTotals(t: seq<Tally>, x: string)
    requires DistinctItems(t)
    ensures forall i :: 0 <= i < |t| ==> Bump(t, x)[i].total == t[i].total + (if t[i].item == x then 1 else 0)
  {
    if |t| > 0 && t[0].item != x {
      assert DistinctItems(t[1..]);
      BumpTotals(t[1..], x);
      assert forall i :: 1 <= i < |t| ==> Bump(t, x)[i] == Bump(t[1..], x)[i - 1] && t[i] == t[1..][i - 1];
    } else if |t| > 0 {
      assert forall i :: 1 <= i < |t| ==> t[i].item != x;
    }
  }

  lemma {:induction false} BumpSum(t: seq<Tally>, x: string)
    ensures Sum(Bump(t, x)) == Sum(t) + 1
  {
    if |t| > 0 && t[0].item != x {
      BumpSum(t[1..], x);
    } else if |t| > 0 {
      assert Bump(t, x)[1..] == t[1..];
    }
  }

  /** `pd.Series(values).value_counts()` as counts in order of first
      occurrence. */
  function Count(values: seq<string>): (r: seq<Tally>)
    ensures DistinctItems(r)
  {
    if |values| == 0 then [] else Bump(Count(values[..|values| - 1]), values[|values| - 1])
  }

  /** The counts add up to the number of values counted. */
  lemma {:induction false} CountSum(values: seq<string>)
    ensures Sum(Count(values)) == |values|
  {
    if |values| > 0 {
      CountSum(values[..|values| - 1]);
      BumpSum(Count(values[..|values| - 1]), values[|values| - 1]);
    }
  }

  /** `y` is one of the counted items. */
  predicate HasItem(t: seq<Tally>, y: string) {
    exists i :: 0 <= i < |t| && t[i].item == y
  }

  /** Counting one more value adds that value to the items and keeps the
      others. */
  lemma {:induction false} BumpItems(t: seq<Tally>, x: string, y: string)
    ensures HasItem(Bump(t, x), y) <==> HasItem(t, y) || y == x
  {
    var r := Bump(t, x);
    if HasItem(r, y) {
      var i :| 0 <= i < |r| && r[i].item == y;
      if i < |t| { assert t[i].item == y; }
    }
    if HasItem(t, y) {
      var i :| 0 <= i < |t| && t[i].item == y;
      assert r[i].item == y;
    }
    if y == x {
      if |r| == |t| + 1 {
        assert r[|t|].item == x;
      } else {
        var i :| 0 <= i < |t| && t[i].item == x;
        assert r[i].item == x;
      }
    }
  }

  /** Every value is counted and every counted item is a value. */
  lemma {:induction false} CountItems(values: seq<string>, y: string)
    ensures y in values <==> HasItem(Count(values), y)
  {
    if |values| > 0 {
      var init := values[..|values| - 1];
      var x := values[|values| - 1];
      assert values == init + [x];
      CountItems(init, y);
      BumpItems(Count(init), x, y);
    }
  }

  /** Each total is the number of times its item occurs. */
  lemma {:induction false} CountTotals(values: seq<string>)
    ensures forall i :: 0 <= i < |Count(values)| ==> Count(values)[i].total == multiset(values)[Count(values)[i].item]
  {
    if |values| > 0 {
      var init := values[..|values| - 1];
      var x := values[|values| - 1];
      assert values == init + [x];
      CountTotals(init);
      var t := Count(init);
      var r := Bump(t, x);
      BumpTotals(t, x);
      forall i | 0 <= i < |r|
        ensures r[i].total == multiset(values)[r[i].item]
      {
        if i < |t| {
          assert multiset(values)[t[i].item] == multiset(init)[t[i].item] + (if t[i].item == x then 1 else 0);
        } else {
          CountItems(init, x);
          assert !HasItem(t, x);
          assert x !in init;
        }
      }
    }
  }

  /** `contar_ocorrencias(df, col)`: the counts of the column's values;
      nothing for an empty frame or a missing column. */
  function Occurrences(t: Table, col: string): (r: seq<Tally>)
    ensures IsEmpty(t) || !HasColumn(t, col) ==> r == []
    ensures DistinctItems(r)
  {
    if IsEmpty(t) || !HasColumn(t, col) then [] else Count(Collect(Column(t, col)))
  }

  /** The totals of `contar_ocorrencias` add up to the number of values
      collected from the column. */
  lemma OccurrencesSum(t: Table, col: string)
    requires !IsEmpty(t) && HasColumn(t, col)
    ensures Sum(Occurrences(t, col)) == |Collect(Column(t, col))|
  {
    CountSum(Collect(Column(t, col)));
  }

  // ---------------------------------------------------------------------
  // Aging bands

  /** The band labels, in the order the table is shown (highest first). */
  const BandLabels := ["≥ 0€", "-10€ a 0€", "-20€ a -10€", "≤ -20€"]

  /** The band of a balance, as a position in `BandLabels`: right-closed
      intervals (-inf, -20], (-20, -10], (-10, 0], (0, inf). */
  function Band(x: real): (b: nat)
    ensures b < 4
    ensures b == 3 <==> x <= -20.0
    ensures b == 2 <==> -20.0 < x <= -10.0
    ensures b == 1 <==> -10.0 < x <= 0.0
    ensures b == 0 <==> 0.0 < x
  {
    if x <= -20.0 then 3 else if x <= -10.0 then 2 else if x <= 0.0 then 1 else 0
  }

  /** `pd.to_numeric(..., errors="coerce").fillna(0)` for one balance. */
  function Balance(c: Cell): (r: real)
    ensures ToNumeric(c).Some? ==> r == ToNumeric(c).value
    ensures ToNumeric(c).None? ==> r == 0.0
  {
    ToNumeric(c).GetOr(0.0)
  }

  /** How many of the balances fall in band `b`. */
  function InBand(cells: seq<Cell>, b: nat): (n: nat)
    ensures n <= |cells|
  {
    if |cells| == 0 then 0 else (if Band(Balance(cells[0])) == b then 1 else 0) + InBand(cells[1..], b)
  }

  /** Every account lands in exactly one band. */
  lemma {:induction false} BandsPartition(cells: seq<Cell>)
    ensures InBand(cells, 0) + InBand(cells, 1) + InBand(cells, 2) + InBand(cells, 3) == |cells|
  {
    if |cells| > 0 {
      BandsPartition(cells[1..]);
    }
  }

  /** `calcular_aging_contas(df)`: one row per band, highest band first,
      with how many accounts fall in it; nothing for an empty frame or one
      without the balance column. */
  function Aging(t: Table): (r: seq<Tally>)
    ensures IsEmpty(t) || !HasColumn(t, "Conta Corrente") ==> r == []
    ensures !(IsEmpty(t) || !HasColumn(t, "Conta Corrente")) ==> |r| == 4 && Items(r) == BandLabels
    ensures |r| == 4 ==> forall b :: 0 <= b < 4 ==> r[b].total == InBand(Column(t, "Conta Corrente"), b)
  {
    if IsEmpty(t) || !HasColumn(t, "Conta Corrente") then []
    else
      var cells := Column(t, "Conta Corrente");
      seq(4, b requires 0 <= b < 4 => Tally(BandLabels[b], InBand(cells, b)))
  }

  lemma SumOfFour(t: seq<Tally>)
    requires |t| == 4
    ensures Sum(t) == t[0].total + t[1].total + t[2].total + t[3].total
  {
    assert Sum(t[3..]) == t[3].total by {
      assert t[3..][1..] == [];
    }
    assert Sum(t[2..]) == t[2].total + Sum(t[3..]) by {
      assert t[2..][1..] == t[3..];
    }
    assert Sum(t[1..]) == t[1].total + Sum(t[2..]) by {
      assert t[1..][1..] == t[2..];
    }
  }

  /** The band totals account for every row of the frame. */
  lemma AgingSum(t: Table)
    requires !IsEmpty(t) && HasColumn(t, "Conta Corrente")
    ensures Sum(Aging(t)) == |t.rows|
  {
    var r := Aging(t);
    BandsPartition(Column(t, "Conta Corrente"));
    SumOfFour(r);
  }
}

=== FILE: store.dfy ===
/** The remote table store client: turning fetched records into a frame, and
    retrying failed calls with exponential backoff. */
module Store {
  import opened Common
  import opened Cells
  import opened Tables

  /** A fetched record: its identifier (`Absent` when the record has none)
      and its field entries in the order the store returned them (empty when
      the record has no fields). */
  datatype Record = Record(id: Cell, fields: seq<Entry>)

  /** A dictionary built from entries: a later entry with the same key
      replaces an earlier one. */
  function EntriesMap(entries: seq<Entry>): (m: map<string, Cell>)
    ensures forall k :: Lookup(entries, k) == (if k in m then Some(m[k]) else None)
  {
    if |entries| == 0 then map[]
    else
      var last := entries[|entries| - 1];
      EntriesMap(entries[..|entries| - 1])[last.key := last.value]
  }

  /** `{"id": record.get("id"), **(record.get("fields") or {})}`: a field
      named `id` replaces the identifier. */
  function RowOf(rec: Record): (row: Row)
    ensures "id" in row
    ensures forall k :: k in row <==> k == "id" || exists i :: 0 <= i < |rec.fields| && rec.fields[i].key == k
    ensures forall k :: Lookup(rec.fields, k).Some? ==> Get(row, k) == Lookup(rec.fields, k).value
    ensures Lookup(rec.fields, "id").None? ==> Get(row, "id") == rec.id
  {
    map["id" := rec.id] + EntriesMap(rec.fields)
  }

  function KeysOf(entries: seq<Entry>): (ks: seq<string>)
    ensures |ks| == |entries|
    ensures forall i :: 0 <= i < |entries| ==> ks[i] == entries[i].key
  {
    seq(|entries|, i requires 0 <= i < |entries| => entries[i].key)
  }

  /** Column names in order of first appearance over all records. */
  function AllKeys(records: seq<Record>): (ks: seq<string>)
    ensures forall k :: k in ks <==> exists i :: 0 <= i < |records| && k in RowOf(records[i])
  {
    if |records| == 0 then []
    else
      var here := ["id"] + KeysOf(records[0].fields);
      var rest := AllKeys(records[1..]);
      assert forall i :: 1 <= i < |records| ==> records[i] == records[1..][i - 1];
      assert forall k :: k in here <==> k in RowOf(records[0]) by {
        forall k | k in RowOf(records[0])
          ensures k in here
        {
          if k != "id" {
            var i :| 0 <= i < |records[0].fields| && records[0].fields[i].key == k;
            assert here[i + 1] == k;
          }
        }
      }
      here + rest
  }

  /** `pd.DataFrame(rows)` over the rows built from the fetched records. */
  function Frame(records: seq<Record>): (t: Table)
    ensures |t.rows| == |records|
    ensures forall i :: 0 <= i < |records| ==> t.rows[i] == RowOf(records[i])
    ensures forall i, j :: 0 <= i < j < |t.columns| ==> t.columns[i] != t.columns[j]
    ensures forall k :: k in t.columns <==> exists i :: 0 <= i < |records| && k in t.rows[i]
    ensures |records| == 0 <==> IsEmpty(t)
  {
    var t := Table(Dedupe(AllKeys(records)), seq(|records|, i requires 0 <= i < |records| => RowOf(records[i])));
    assert |records| > 0 ==> "id" in t.rows[0];
    t
  }

  // ---------------------------------------------------------------------
  // Retries

  /** `exc.response`, reduced to its status code attribute. */
  datatype Response = Response(statusCode: Option<int>)

  /** A raised exception, reduced to the two attributes the client reads. */
  datatype Exc = Exc(statusCode: Option<int>, response: Option<Response>)

  /** One call of the remote API: a value or a raised exception. */
  datatype Outcome<T> = Success(value: T) | Raise(exc: Exc)

  /** `_extract_status_code`: the exception's own status code, else its
      response's. */
  function StatusOf(exc: Exc): (r: Option<int>)
    ensures exc.statusCode.Some? ==> r == exc.statusCode
    ensures exc.statusCode.None? && exc.response.None? ==> r.None?
    ensures exc.statusCode.None? && exc.response.Some? ==> r == exc.response.value.statusCode
  {
    if exc.statusCode.Some? then exc.statusCode
    else if exc.response.Some? then exc.response.value.statusCode
    else None
  }

  /** The status codes worth another attempt. */
  const RetryableStatus: set<int> := {408, 425, 429, 500, 502, 503, 504}

  predicate Retryable(status: Option<int>) {
    status.Some? && status.value in RetryableStatus
  }

  /** The pause before the retry after attempt `k + 1`: the initial backoff,
      doubled after every pause. */
  function Backoff(initial: real, k: nat): (r: real)
    ensures k > 0 ==> r == 2.0 * Backoff(initial, k - 1)
    ensures initial > 0.0 ==> r >= initial
  {
    if k == 0 then initial else 2.0 * Backoff(initial, k - 1)
  }

  /** Attempt `k + 1` (counting from 1) failed in a way that is retried. */
  predicate RetriedAfter<T>(call: nat -> Outcome<T>, maxRetries: int, k: nat) {
    call(k).Raise? && Retryable(StatusOf(call(k).exc)) && k + 1 < maxRetries
  }

  /** `_with_retry(func)`: `call(k)` is the outcome of the `k`-th call
      (from 0). Returns the outcome passed on to the caller (a value, or the
      exception re-raised) and the pauses slept in between; there is one
      more call than there are pauses. */
  method WithRetry<T>(call: nat -> Outcome<T>, maxRetries: int, initialBackoff: real)
    returns (result: Outcome<T>, sleeps: seq<real>)
    ensures result == call(|sleeps|)
    ensures forall k :: 0 <= k < |sleeps| ==> RetriedAfter(call, maxRetries, k)
    ensures !RetriedAfter(call, maxRetries, |sleeps|)
    ensures forall k :: 0 <= k < |sleeps| ==> sleeps[k] == Backoff(initialBackoff, k)
    ensures |sleeps| + 1 <= (if maxRetries < 1 then 1 else maxRetries)
    ensures call(0).Raise? && !Retryable(StatusOf(call(0).exc)) ==> |sleeps| == 0 && result == call(0)
    ensures call(0).Success? ==> |sleeps| == 0 && result == call(0)
    ensures maxRetries >= 1 && (forall k :: 0 <= k < maxRetries ==> call(k).Raise? && Retryable(StatusOf(call(k).exc)))
            ==> |sleeps| + 1 == maxRetries && result.Raise?
  {
    var backoff := initialBackoff;
    var attempt := 1;
    sleeps := [];
    while true
      invariant attempt == |sleeps| + 1
      invariant attempt <= (if maxRetries < 1 then 1 else maxRetries)
      invariant backoff == Backoff(initialBackoff, |sleeps|)
      invariant forall k :: 0 <= k < |sleeps| ==> RetriedAfter(call, maxRetries, k)
      invariant forall k :: 0 <= k < |sleeps| ==> sleeps[k] == Backoff(initialBackoff, k)
      decreases maxRetries - attempt
    {
      var outcome := call(attempt - 1);
      if outcome.Success? {
        StopFacts(call, maxRetries, |sleeps|);
        return outcome, sleeps;
      }
      var status := StatusOf(outcome.exc);
      if attempt >= maxRetries || status.None? || status.value !in RetryableStatus {
        StopFacts(call, maxRetries, |sleeps|);
        return outcome, sleeps;
      }
      sleeps := sleeps + [backoff];
      backoff := backoff * 2.0;
      attempt := attempt + 1;
    }
  }

  /** What stopping after `n` retries tells about the first call and about a
      call that never succeeds. */
  lemma StopFacts<T>(call: nat -> Outcome<T>, maxRetries: int, n: nat)
    requires n + 1 <= (if maxRetries < 1 then 1 else maxRetries)
    requires forall k :: 0 <= k < n ==> RetriedAfter(call, maxRetries, k)
    requires !RetriedAfter(call, maxRetries, n)
    ensures call(0).Raise? && !Retryable(StatusOf(call(0).exc)) ==> n == 0
    ensures call(0).Success? ==> n == 0
    ensures maxRetries >= 1 && (forall k :: 0 <= k < maxRetries ==> call(k).Raise? && Retryable(StatusOf(call(k).exc)))
            ==> n + 1 == maxRetries && call(n).Raise?
  {
    if n > 0 {
      assert RetriedAfter(call, maxRetries, 0);
    }
  }
}

=== FILE: tables.dfy ===
/** Data frames as the program uses them: named columns over rows of cells,
    and the set of tables loaded from the store. */
module Tables {
  import opened Common
  import opened Cells

  /** One row: column name to cell. A column the row does not hold reads as
      missing (`NaN`). */
  type Row = map<string, Cell>

  datatype Table = Table(columns: seq<string>, rows: seq<Row>)

  /** `row[col]`, missing as `Absent`. */
  function Get(row: Row, col: string): Cell {
    if col in row then row[col] else Absent
  }

  /** `df.empty`: no rows or no columns. */
  predicate IsEmpty(t: Table) {
    |t.rows| == 0 || |t.columns| == 0
  }

  predicate HasColumn(t: Table, col: string) {
    col in t.columns
  }

  /** `df[col].dtype == bool`: every cell is a boolean. */
  predicate BoolColumn(t: Table, col: string) {
    |t.rows| > 0 && forall i :: 0 <= i < |t.rows| ==> Get(t.rows[i], col).Bool?
  }

  /** The column is numeric (`float64`/`int64`): every cell is a number or
      missing. */
  predicate NumericColumn(t: Table, col: string) {
    forall i :: 0 <= i < |t.rows| ==> Get(t.rows[i], col).Num? || Get(t.rows[i], col).Absent?
  }

  /** `df[col].dtype == object`: neither numeric nor boolean. Text, lists,
      dates and mixed columns are `object`. */
  predicate ObjectColumn(t: Table, col: string) {
    !NumericColumn(t, col) && !BoolColumn(t, col)
  }

  /** The cells of one column, in row order. */
  function Column(t: Table, col: string): (r: seq<Cell>)
    ensures |r| == |t.rows|
    ensures forall i :: 0 <= i < |r| ==> r[i] == Get(t.rows[i], col)
  {
    seq(|t.rows|, i requires 0 <= i < |t.rows| => Get(t.rows[i], col))
  }

  /** The same rows, restricted to the given row positions. */
  function SelectRows(t: Table, keep: seq<nat>): (r: Table)
    requires forall k :: 0 <= k < |keep| ==> keep[k] < |t.rows|
    ensures r.columns == t.columns
    ensures |r.rows| == |keep|
    ensures forall k :: 0 <= k < |keep| ==> r.rows[k] == t.rows[keep[k]]
  {
    Table(t.columns, seq(|keep|, k requires 0 <= k < |keep| => t.rows[keep[k]]))
  }

  /** The tables loaded from the store, by name. */
  datatype NamedTable = NamedTable(name: string, table: Table)

  type Dataset = seq<NamedTable>

  /** `dados.get(name)`: the first table loaded under that name. */
  function Find(ds: Dataset, name: string): (r: Option<Table>)
    ensures r.Some? <==> exists i :: 0 <= i < |ds| && ds[i].name == name
    ensures r.Some? ==> exists i :: 0 <= i < |ds| && ds[i].name == name && ds[i].table == r.value
  {
    if |ds| == 0 then None
    else if ds[0].name == name then Some(ds[0].table)
    else Find(ds[1..], name)
  }

  /** `dados.get(name)` when the result is only used if it is a non-empty
      frame. */
  function FindNonEmpty(ds: Dataset, name: string): (r: Option<Table>)
    ensures r.Some? ==> !IsEmpty(r.value) && Find(ds, name) == r
    ensures r.None? ==> Find(ds, name).None? || IsEmpty(Find(ds, name).value)
  {
    match Find(ds, name)
    case Some(t) => if IsEmpty(t) then None else Some(t)
    case None => None
  }

  /** The first of `names` that is a column of `t`. */
  function FirstExisting(t: Table, names: seq<string>): (r: Option<string>)
    ensures r.Some? ==> r.value in names && r.value in t.columns
    ensures r.None? <==> forall k :: 0 <= k < |names| ==> names[k] !in t.columns
    ensures r.Some? ==> exists k :: 0 <= k < |names| && names[k] == r.value
                          && forall j :: 0 <= j < k ==> names[j] !in t.columns
  {
    if |names| == 0 then None
    else if names[0] in t.columns then Some(names[0])
    else
      var r := FirstExisting(t, names[1..]);
      assert forall k :: 1 <= k < |names| ==> names[k] == names[1..][k - 1];
      r
  }

  /** Removes later repetitions, keeping first occurrences in order. */
  function Dedupe(xs: seq<string>): (r: seq<string>)
    ensures forall x :: x in r <==> x in xs
    ensures forall i, j :: 0 <= i < j < |r| ==> r[i] != r[j]
  {
    DedupeAfter(xs, [])
  }

  function DedupeAfter(xs: seq<string>, seen: seq<string>): (r: seq<string>)
    requires forall i, j :: 0 <= i < j < |seen| ==> seen[i] != seen[j]
    ensures |seen| <= |r| && r[..|seen|] == seen
    ensures forall x :: x in r <==> x in xs || x in seen
    ensures forall i, j :: 0 <= i < j < |r| ==> r[i] != r[j]
  {
    if |xs| == 0 then seen
    else if xs[0] in seen then DedupeAfter(xs[1..], seen)
    else
      var r := DedupeAfter(xs[1..], seen + [xs[0]]);
      assert r[..|seen|] == (seen + [xs[0]])[..|seen|];
      r
  }
}

=== FILE: text.dfy ===
/** Python string primitives the model needs: whitespace, case mapping,
    stripping, searching, splitting, joining and replacing.

    Case mapping and whitespace cover the ASCII and Latin-1 ranges, which is
    where the column names, keys and labels the program handles live. */
module Text {

  /** `str.isspace()` for the ASCII and Latin-1 characters. */
  predicate IsSpace(c: char) {
    c == ' ' || ('\t' <= c <= '\r') || ('\U{1C}' <= c <= '\U{1F}') || c == '\U{85}' || c == '\U{A0}'
  }

  predicate IsUpperLetter(c: char) {
    'A' <= c <= 'Z' || ('\U{C0}' <= c <= '\U{DE}' && c != '\U{D7}')
  }

  predicate IsLowerLetter(c: char) {
    'a' <= c <= 'z' || ('\U{E0}' <= c <= '\U{FE}' && c != '\U{F7}')
  }

  /** A character that has an upper- and a lower-case form. */
  predicate IsCased(c: char) {
    IsUpperLetter(c) || IsLowerLetter(c)
  }

  function LowerChar(c: char): (r: char)
    ensures !IsUpperLetter(r)
    ensures IsCased(r) <==> IsCased(c)
    ensures !IsUpperLetter(c) ==> r == c
  {
    if IsUpperLetter(c) then (c as int + 32) as char else c
  }

  function UpperChar(c: char): (r: char)
    ensures !IsLowerLetter(r)
    ensures IsCased(r) <==> IsCased(c)
    ensures !IsLowerLetter(c) ==> r == c
  {
    if IsLowerLetter(c) then (c as int - 32) as char else c
  }

  /** `s.lower()` */
  function Lower(s: string): (r: string)
    ensures |r| == |s|
    ensures forall i :: 0 <= i < |s| ==> r[i] == LowerChar(s[i])
  {
    seq(|s|, i requires 0 <= i < |s| => LowerChar(s[i]))
  }

  /** `s.upper()` */
  function Upper(s: string): (r: string)
    ensures |r| == |s|
    ensures forall i :: 0 <= i < |s| ==> r[i] == UpperChar(s[i])
  {
    seq(|s|, i requires 0 <= i < |s| => UpperChar(s[i]))
  }

  /** `s.lstrip()` */
  function TrimStart(s: string): (r: string)
    ensures |r| <= |s| && r == s[|s| - |r|..]
    ensures |r| > 0 ==> !IsSpace(r[0])
    ensures forall i :: 0 <= i < |s| - |r| ==> IsSpace(s[i])
    decreases |s|
  {
    if |s| > 0 && IsSpace(s[0]) then TrimStart(s[1..]) else s
  }

  /** `s.rstrip()` */
  function TrimEnd(s: string): (r: string)
    ensures |r| <= |s| && r == s[..|r|]
    ensures |r| > 0 ==> !IsSpace(r[|r| - 1])
    ensures forall i :: |r| <= i < |s| ==> IsSpace(s[i])
    decreases |s|
  {
    if |s| > 0 && IsSpace(s[|s| - 1]) then TrimEnd(s[..|s| - 1]) else s
  }

  /** `s.strip()`: the text without leading or trailing whitespace. */
  function Strip(s: string): (r: string)
    ensures |r| <= |s|
    ensures |r| > 0 ==> !IsSpace(r[0]) && !IsSpace(r[|r| - 1])
  {
    TrimEnd(TrimStart(s))
  }

  /** A string is blank when `s.strip()` is empty. */
  predicate IsBlank(s: string) {
    Strip(s) == ""
  }

  lemma TrimStartOfTrimmed(s: string)
    requires |s| == 0 || !IsSpace(s[0])
    ensures TrimStart(s) == s
  {
  }

  lemma TrimEndOfTrimmed(s: string)
    requires |s| == 0 || !IsSpace(s[|s| - 1])
    ensures TrimEnd(s) == s
  {
  }

  /** Stripping is idempotent. */
  lemma StripIdempotent(s: string)
    ensures Strip(Strip(s)) == Strip(s)
  {
    var r := Strip(s);
    TrimStartOfTrimmed(r);
    TrimEndOfTrimmed(r);
  }

  /** A text is blank exactly when every character of it is whitespace. */
  lemma {:induction false} BlankIffAllSpace(s: string)
    ensures IsBlank(s) <==> forall i :: 0 <= i < |s| ==> IsSpace(s[i])
  {
    var t := TrimStart(s);
    if forall i :: 0 <= i < |s| ==> IsSpace(s[i]) {
      assert |t| == 0;
    } else {
      var k :| 0 <= k < |s| && !IsSpace(s[k]);
      assert |t| > 0;
      assert !IsSpace(t[0]);
      assert |TrimEnd(t)| > 0;
    }
  }

  /** `s.startswith(p)` */
  predicate StartsWith(s: string, p: string) {
    |p| <= |s| && s[..|p|] == p
  }

  /** `sub in s` */
  predicate Contains(s: string, sub: string)
    decreases |s|
  {
    StartsWith(s, sub) || (|s| > 0 && Contains(s[1..], sub))
  }

  /** `sub` occurs in `s` starting at position `i`. */
  predicate OccursAt(s: string, sub: string, i: int) {
    0 <= i <= |s| - |sub| && s[i..i + |sub|] == sub
  }

  /** `Contains` means the text occurs at some position. */
  lemma {:induction false} ContainsAt(s: string, sub: string)
    ensures Contains(s, sub) <==> exists i :: OccursAt(s, sub, i)
    decreases |s|
  {
    if StartsWith(s, sub) {
      assert OccursAt(s, sub, 0);
    }
    if |s| > 0 {
      ContainsAt(s[1..], sub);
      if exists i :: OccursAt(s, sub, i) {
        var i :| OccursAt(s, sub, i);
        if i > 0 {
          assert s[1..][i - 1..i - 1 + |sub|] == sub;
          assert OccursAt(s[1..], sub, i - 1);
        }
      }
      if Contains(s[1..], sub) {
        var j :| OccursAt(s[1..], sub, j);
        assert s[j + 1..j + 1 + |sub|] == sub;
        assert OccursAt(s, sub, j + 1);
      }
    } else if |sub| == 0 {
      assert OccursAt(s, sub, 0);
    }
  }

  /** `s.replace(c, repl)` for a one-character pattern. */
  function Replace(s: string, c: char, repl: string): (r: string)
    ensures c !in repl ==> c !in r
    ensures c !in s ==> r == s
    ensures forall x :: x in r ==> x in repl || (x in s && x != c)
  {
    if |s| == 0 then ""
    else (if s[0] == c then repl else [s[0]]) + Replace(s[1..], c, repl)
  }

  /** A character other than the pattern survives the replacement. */
  lemma {:induction false} ReplaceKeeps(s: string, c: char, repl: string, x: char)
    requires x in s && x != c
    ensures x in Replace(s, c, repl)
  {
    if s[0] != x {
      ReplaceKeeps(s[1..], c, repl, x);
    }
  }

  /** `s.replace(pat, "", 1)`: removes the first occurrence of `pat`. */
  function RemoveFirst(s: string, pat: string): (r: string)
    decreases |s|
  {
    if StartsWith(s, pat) then s[|pat|..]
    else if |s| == 0 then s
    else [s[0]] + RemoveFirst(s[1..], pat)
  }

  /** `s.strip(c)`: removes the character `c` from both ends. */
  function StripChar(s: string, c: char): (r: string)
    ensures |r| <= |s|
    ensures |r| > 0 ==> r[0] != c && r[|r| - 1] != c
    decreases |s|
  {
    if |s| > 0 && s[0] == c then StripChar(s[1..], c)
    else if |s| > 0 && s[|s| - 1] == c then StripChar(s[..|s| - 1], c)
    else s
  }

  /** Number of occurrences of `c` in `s` (`s.count(c)`). */
  function Count(s: string, c: char): (n: nat)
    ensures n <= |s|
    ensures n == 0 <==> c !in s
  {
    if |s| == 0 then 0 else (if s[0] == c then 1 else 0) + Count(s[1..], c)
  }

  /** `sep.join(parts)` */
  function Join(sep: string, parts: seq<string>): string {
    if |parts| == 0 then ""
    else if |parts| == 1 then parts[0]
    else parts[0] + sep + Join(sep, parts[1..])
  }

  /** `s.split(sep)` for a one-character separator: empty pieces are kept. */
  function SplitOn(s: string, sep: char): (parts: seq<string>)
    ensures |parts| >= 1
    ensures forall p :: p in parts ==> sep !in p
  {
    if |s| == 0 then [""]
    else
      var rest := SplitOn(s[1..], sep);
      if s[0] == sep then [""] + rest else [[s[0]] + rest[0]] + rest[1..]
  }

  /** Splitting on a separator and joining with it gives back the text. */
  lemma {:induction false} JoinSplitOn(s: string, sep: char)
    ensures Join([sep], SplitOn(s, sep)) == s
  {
    if |s| > 0 {
      var rest := SplitOn(s[1..], sep);
      JoinSplitOn(s[1..], sep);
      if s[0] == sep {
        assert SplitOn(s, sep) == [""] + rest;
        assert Join([sep], [""] + rest) == "" + [sep] + Join([sep], rest);
      } else {
        var parts := [[s[0]] + rest[0]] + rest[1..];
        assert SplitOn(s, sep) == parts;
        if |rest| == 1 {
          assert parts == [[s[0]] + rest[0]];
        } else {
          assert parts[1..] == rest[1..];
          assert Join([sep], rest) == rest[0] + [sep] + Join([sep], rest[1..]);
        }
      }
    }
  }

  /** A text without the separator is a single part, and a text with it
      splits into two parts or more. */
  lemma {:induction false} SplitOnParts(s: string, sep: char)
    ensures sep !in s ==> SplitOn(s, sep) == [s]
    ensures sep in s ==> |SplitOn(s, sep)| >= 2
  {
    if |s| > 0 {
      SplitOnParts(s[1..], sep);
      assert sep in s ==> s[0] == sep || sep in s[1..];
      if sep !in s {
        assert s == [s[0]] + s[1..];
      }
    }
  }

  /** A leading part without the separator splits off first. */
  lemma {:induction false} SplitOnAfter(a: string, t: string, sep: char)
    requires sep !in a
    ensures SplitOn(a + [sep] + t, sep) == [a] + SplitOn(t, sep)
  {
    var s := a + [sep] + t;
    if |a| == 0 {
      assert s[0] == sep && s[1..] == t;
    } else {
      assert s[0] == a[0] && s[1..] == a[1..] + [sep] + t;
      SplitOnAfter(a[1..], t, sep);
      assert [a[0]] + a[1..] == a;
    }
  }

  /** The longest prefix of `s` without whitespace. */
  function TakeWord(s: string): (w: string)
    ensures |w| <= |s| && w == s[..|w|]
    ensures forall i :: 0 <= i < |w| ==> !IsSpace(w[i])
    ensures |w| < |s| ==> IsSpace(s[|w|])
  {
    if |s| == 0 || IsSpace(s[0]) then "" else [s[0]] + TakeWord(s[1..])
  }

  /** `s.split()`: the maximal runs of non-whitespace characters. */
  function Words(s: string): (ws: seq<string>)
    ensures forall w :: w in ws ==> |w| > 0 && forall i :: 0 <= i < |w| ==> !IsSpace(w[i])
    decreases |s|
  {
    var t := TrimStart(s);
    if |t| == 0 then []
    else
      var w := TakeWord(t);
      [w] + Words(t[|w|..])
  }

  /** `s.split()` is empty exactly when `s` is blank. */
  lemma WordsEmptyIffBlank(s: string)
    ensures Words(s) == [] <==> IsBlank(s)
  {
    var t := TrimStart(s);
    if |t| > 0 {
      assert !IsSpace(t[0]);
      assert Words(s) != [];
      assert |Strip(s)| > 0;
    }
  }

  /** A word in front of a space or of the end is taken whole. */
  lemma {:induction false} TakeWholeWord(w: string, rest: string)
    requires forall i :: 0 <= i < |w| ==> !IsSpace(w[i])
    requires |rest| == 0 || IsSpace(rest[0])
    ensures TakeWord(w + rest) == w
  {
    if |w| == 0 {
      assert w + rest == rest;
    } else {
      assert (w + rest)[0] == w[0] && (w + rest)[1..] == w[1..] + rest;
      TakeWholeWord(w[1..], rest);
      assert w == [w[0]] + w[1..];
    }
  }

  /** Leading spaces do not change the words. */
  lemma WordsAfterSpace(s: string)
    ensures Words(" " + s) == Words(s)
  {
    assert (" " + s)[1..] == s;
    assert TrimStart(" " + s) == TrimStart(s);
  }

  /** Splitting words joined by single spaces gives the words back. */
  lemma {:induction false} WordsOfJoin(ws: seq<string>)
    requires forall k :: 0 <= k < |ws| ==> |ws[k]| > 0 && forall i :: 0 <= i < |ws[k]| ==> !IsSpace(ws[k][i])
    ensures Words(Join(" ", ws)) == ws
  {
    if |ws| == 1 {
      WordsOfSingle(ws[0]);
      assert ws == [ws[0]];
    } else if |ws| > 1 {
      var tail := ws[1..];
      assert forall k :: 0 <= k < |tail| ==> tail[k] == ws[k + 1];
      WordsOfJoin(tail);
      WordsJoinStep(ws[0], tail);
      assert ws == [ws[0]] + tail;
    }
  }

  lemma WordsOfSingle(w: string)
    requires |w| > 0 && forall i :: 0 <= i < |w| ==> !IsSpace(w[i])
    ensures Words(Join(" ", [w])) == [w]
  {
    WordsOfWord(w, "");
    assert w + "" == w;
    assert Words("") == [];
  }

  lemma WordsJoinStep(w: string, tail: seq<string>)
    requires |w| > 0 && forall i :: 0 <= i < |w| ==> !IsSpace(w[i])
    requires |tail| > 0 && Words(Join(" ", tail)) == tail
    ensures Words(Join(" ", [w] + tail)) == [w] + tail
  {
    var joined := Join(" ", tail);
    var ws := [w] + tail;
    assert ws[0] == w && ws[1..] == tail;
    assert Join(" ", ws) == w + " " + joined;
    ConcatAssoc(w, " ", joined);
    WordsOfWord(w, " " + joined);
    WordsAfterSpace(joined);
  }

  lemma ConcatAssoc(a: string, b: string, c: string)
    ensures a + b + c == a + (b + c)
  {
  }

  /** A word followed by a space or the end is the first word. */
  lemma WordsOfWord(w: string, rest: string)
    requires |w| > 0 && forall i :: 0 <= i < |w| ==> !IsSpace(w[i])
    requires |rest| == 0 || IsSpace(rest[0])
    ensures Words(w + rest) == [w] + Words(rest)
  {
    var s := w + rest;
    TrimStartOfTrimmed(s);
    TakeWholeWord(w, rest);
    assert s[|w|..] == rest;
  }

  /** Changing letter case never makes or removes whitespace. */
  lemma CaseKeepsSpace(c: char)
    ensures IsSpace(UpperChar(c)) <==> IsSpace(c)
    ensures IsSpace(LowerChar(c)) <==> IsSpace(c)
  {
  }

  /** `w.capitalize()`: first character upper case, the rest lower case. */
  function Capitalize(w: string): (r: string)
    ensures |r| == |w|
    ensures |w| > 0 ==> r[0] == UpperChar(w[0]) && r[1..] == Lower(w[1..])
  {
    if |w| == 0 then "" else [UpperChar(w[0])] + Lower(w[1..])
  }

  /** Capitalising a word keeps it a word. */
  lemma CapitalizeWord(w: string)
    requires forall i :: 0 <= i < |w| ==> !IsSpace(w[i])
    ensures forall i :: 0 <= i < |Capitalize(w)| ==> !IsSpace(Capitalize(w)[i])
  {
    if |w| > 0 {
      CaseKeepsSpace(w[0]);
      forall i | 1 <= i < |w| ensures !IsSpace(Capitalize(w)[i]) {
        assert Capitalize(w)[i] == Lower(w[1..])[i - 1] == LowerChar(w[i]);
        CaseKeepsSpace(w[i]);
      }
    }
  }

  /** `s.title()`: a cased character is upper case after an uncased one and
      lower case after a cased one. `afterCased` says what precedes `s`. */
  function TitleFrom(s: string, afterCased: bool): (r: string)
    ensures |r| == |s|
  {
    if |s| == 0 then ""
    else
      var c := if afterCased then LowerChar(s[0]) else UpperChar(s[0]);
      [c] + TitleFrom(s[1..], IsCased(s[0]))
  }

  function Title(s: string): string {
    TitleFrom(s, false)
  }

  /** `title()` leaves a text without cased characters unchanged. */
  lemma {:induction false} TitleOfUncased(s: string, afterCased: bool)
    requires forall i :: 0 <= i < |s| ==> !IsCased(s[i])
    ensures TitleFrom(s, afterCased) == s
  {
    if |s| > 0 {
      TitleOfUncased(s[1..], IsCased(s[0]));
    }
  }

  function DigitChar(d: nat): char
    requires d < 10
  {
    ('0' as int + d) as char
  }

  /** `str(n)` for a natural number. */
  function NatToString(n: nat): (r: string)
    ensures |r| >= 1
    ensures forall i :: 0 <= i < |r| ==> '0' <= r[i] <= '9'
  {
    if n < 10 then [DigitChar(n)] else NatToString(n / 10) + [DigitChar(n % 10)]
  }

  /** `str(n)` for an integer. */
  function IntToString(n: int): string {
    if n < 0 then "-" + NatToString(-n) else NatToString(n)
  }

  /** `f"{n:0{width}d}"` for a natural number. */
  function ZeroPad(n: nat, width: nat): (r: string)
    ensures |r| >= width
  {
    var digits := NatToString(n);
    if |digits| >= width then digits else seq(width - |digits|, _ => '0') + digits
  }
}
